=== FILE: README.md ===
# Firkin, modelled in Dafny

Firkin is a Bitcask-style key/value store. Every write is appended to the
current data file, called the *head*. When the head reaches the maximum file
size it is archived and a fresh head takes over. An in-memory index maps each
key to a `KeyInfo`: the file id, the record's serial, the value's size and
the value's byte position.

- **Delete** appends a deletion marker: a record with an empty value and a
  zero hash.
- **Merge** rewrites the archives. It keeps only the records the index still
  points at, writes a hint file next to each output, and rebuilds the index
  from those hints. It then replays the files from the head on.
- **Startup** rebuilds the index from every data file in id order. It reads a
  file's hint file when there is one, and otherwise scans the records.

This project models the following in Dafny:

- the engine (`FirkinHash`): put, delete, get, count, flush, enumeration,
  rollover, merge, startup and truncation;
- the data file (`FirkinFile`): record layout, both write overloads, the
  checksum-filtered record scan, the key scan, rename, flush and disposal;
- the hint file (`FirkinHintFile`);
- the chunked value stream (`FirkinStream`);
- the helpers `ArrayEx`, `StreamEx` and `KeyInfo`;
- the lazy value collection;
- the observable hash and its change events;
- the two serializer registries, with their default integer codecs.

How the source's concepts appear in the model:

- **Files.** A data file is a `Segment`: its bytes, its id, its serial
  counter, and whether it is writable or disposed. A store is a `Store`:
  - the file table, keyed by id;
  - the head's id;
  - the index, a `map<Key, KeyInfo>`;
  - the hint files on disk, keyed by id;
  - the maximum file size.
- **Checksum.** The checksum (MD5 in the source) is an arbitrary function
  `Hasher` from bytes to 16 bytes, passed as a parameter.
- **Keys.** Keys are the serialized key bytes.
- **Fixed-width arithmetic.** The `ushort` and `uint` computations of the
  modelled code paths are written out with explicit wrap-around (`Wrap16`,
  `Wrap32`): file ids, serials, sizes, positions and the subscription
  counter. One narrowing is not modelled: the `(uint)` cast of a stream's
  `long` length in the stream overload of `Put` (see "Left out"). The
  store-level theorems state, as preconditions, when no wrap happens.
- **Soundness and observation.**
  - `Stores.Valid` is the soundness invariant. Every file is a sequence of
    whole records with valid checksums and increasing serials. The head has
    the largest id. Every hint file describes its data file. The index is
    exactly the replay of every file's key items in id order.
  - `Stores.Observe` is what a client can read: each indexed key mapped to
    the bytes its `KeyInfo` locates.

The central results:

- Put, delete, rollover and startup keep `Valid`, and change `Observe`
  exactly as the operation promises.
- Truncation keeps `Valid` once the hint files are removed with the data
  files (`Engine.Truncate`). Truncation as written keeps the hint files and
  can resurrect keys after a restart; see "Findings".
- A merge with the corrected output-id guard keeps `Valid` and leaves
  `Observe` unchanged (`MergeProof.MergePreserves`). The guard as written
  can give an output the head's id; see "Findings".
- Round trips hold through the record layout, the key scan, the value reads,
  the hint files and the integer codecs.

## Behaviour that is easy to misread

The model follows the code in each of these cases.

- **Serials.** The counter is bumped before a record is written, so a fresh file's first record has serial 1, not 0 (Firkin/IO/FirkinFile.cs:94).
- **Reopened head's serial counter.** Startup hands the reopened head the last serial it saw (Firkin/FirkinHash.cs:456). That serial is reset for every file, and a file read through its hint file sets none, so such a head continues from 0 (Firkin/FirkinHash.cs:421, 442). `Recovery.Load` models this.
- **Corrupt hint file.** A hint entry with an oversized key throws `CorruptKeyException` (Firkin/IO/FirkinHintFile.cs:74-77). Startup does not catch it and does not fall back to scanning the data file, so startup fails. `Recovery.Load` and `Recovery.Initialize` fail there.
- **Disposed engine.** `FirkinHash` has an `_isDisposed` flag and a `CheckDisposed` guard (Firkin/FirkinHash.cs:59, 387-391), but nothing sets the flag, so the engine itself refuses nothing up front. The calls fail in the file layer instead: `Dispose` disposes every file, after which a put or delete fails at the head's seek and a small value's `Get` fails when its stream buffers. The model returns `ObjectDisposed` from `Segments.WriteValue`, `Segments.ReadValue` and the operations built on them.
- **Merge output ids.** The merge sets an output aside and opens the next one only while its id is below the head's (Firkin/FirkinHash.cs:194-199), evidently so that no output takes the head's id. The guard as written still lets one output take it. See the first finding.
- **Truncation and reload.** The source's own test expects a truncated store to stay empty after a reload (Firkin.Test/TFirkinHash.cs:387-400). The code leaves the hint files behind, so this does not always hold. See the second finding.

## Model

| member | source | states |
|---|---|---|
| Records.HeaderFields | Firkin/IO/FirkinFile.cs:29-33 | the 28-byte header holds the 16-byte hash first, then the serial, key length and value length as little-endian uints at offsets 16, 20 and 24, and each reads back from its offset |
| Records.ToUInt32 | Firkin/IO/FirkinFile.cs:146-147 | reading a uint from the header succeeds exactly when four bytes are there |
| Records.ToUInt32RoundTrip | Firkin/IO/FirkinFile.cs:97-99 | a uint written at some offset reads back from that offset whatever surrounds it |
| Records.StepOne | Firkin/IO/FirkinFile.cs:199-217 | scanning at the start of an appended record yields its hash, serial, key and value and ends exactly after the record |
| Records.WalkAppend | Firkin/IO/FirkinFile.cs:194-220 | appending a record to a file of whole records extends the scan by exactly that record and nothing else |
| Records.AppendExact | Firkin/IO/FirkinFile.cs:93-102 | an append keeps a file a sequence of whole records, and its frames gain the new record, starting at the old end |
| Records.FrameAt | Firkin/IO/FirkinFile.cs:199-209 | every scanned frame lies inside the file, with its key and value at the bytes after its header |
| KeyInfos.FromHint | Firkin/Data/KeyInfo.cs:29-34 | the location takes the given file id and copies serial, value size and value position from the hint |
| KeyInfos.GetSize | Firkin/Data/KeyInfo.cs:36-38 | the size is 28 plus the value size in uint arithmetic; the key is not counted, and the sum wraps past 2^32 |
| ArrayEx.Select | Firkin/Util/ArrayEx.cs:22-32 | succeeds exactly when 0 <= index < length of the array and index+length fits (in unbounded arithmetic), so a zero length at the end is refused; the result is the elements from index on; failure is an argument-out-of-range error |
| ArrayEx.Compare | Firkin/Util/ArrayEx.cs:34-52 | a null argument is an argument-null error; otherwise the result is the length-first comparison |
| ArrayEx.CompareZeroIffEqual | Firkin/Util/ArrayEx.cs:41-51 | the comparison is zero exactly for equal arrays |
| ArrayEx.CompareAntisymmetric | Firkin/Util/ArrayEx.cs:41-51 | swapping the arguments negates the comparison |
| ArrayEx.CompareLengthFirst | Firkin/Util/ArrayEx.cs:41-44 | a shorter array is less and a longer array greater, whatever the contents |
| StreamEx.Read | Firkin/Util/StreamEx.cs:33 | a read returns the next min(count, available) bytes and advances past them |
| StreamEx.CopyTo | Firkin/Util/StreamEx.cs:27-42 | copies min(length, available) bytes, or everything for a negative length; the target receives the source's next bytes in order; each read asks for between 1 and 16 KiB, and never more than the length |
| StreamEx.ReadBytes | Firkin/Util/StreamEx.cs:48-52 | the first min(length, available) bytes, with the source advanced past them |
| StreamEx.ReadAllBytes | Firkin/Util/StreamEx.cs:44-46 | reads the whole rest of the source |
| FirkinStream.Memorize | Firkin/FirkinStream.cs:54-76 | idempotent; a moved position is an invalid operation and a disposed stream an object-disposed error; otherwise it succeeds exactly when the range lies inside the file, and its chunks are 1..16 KiB each and concatenate to exactly the range |
| FirkinStream.Invoke | Firkin/FirkinStream.cs:111-125 | seeking, setting the position or length, writing and flushing all throw not-implemented |
| FirkinStream.Dispose | Firkin/FirkinStream.cs:127-130 | the stream reports disposed; the file and the buffered chunks are untouched |
| FirkinStreamRead.Open | Firkin/FirkinStream.cs:40-49 | a range of at most 16 KiB is buffered at construction and its chunks are exactly the range's bytes; a longer range is not buffered; the length is fixed |
| FirkinStreamRead.Read | Firkin/FirkinStream.cs:78-99 | copies min(count, remaining) bytes, the next ones of the range, into the buffer at the offset; leaves the rest of the buffer alone; advances by that many, so successive reads give consecutive bytes and a read at the end gives 0 |
| FirkinStreamRead.ReadToEnd | Firkin/FirkinStream.cs:40-99 | opening a small value's stream and reading it to the end yields exactly the value's bytes, and fails exactly when the range runs past the file |
| Segments.WriteFailed | Firkin/IO/FirkinFile.cs:77-95 | a failed write adds no byte; a read-only file is unchanged, and a writable (hence disposed) file has moved its serial counter |
| Segments.WriteFailedSerial | Firkin/IO/FirkinFile.cs:94-95 | the serial a failed write used up is the one a successful write would have stamped, and every value still reads the same |
| Segments.WriteValue | Firkin/IO/FirkinFile.cs:76-111 | a read-only file refuses with an invalid-operation error; otherwise it bumps the serial and appends hash, serial, lengths, key and value; the hash is of key and value, or 16 zero bytes for a deletion marker; the returned KeyInfo has the new serial, the file id, the value size and the position right after the key |
| Segments.WriteRecord | Firkin/IO/FirkinFile.cs:113-127 | a read-only file refuses; otherwise it appends the scanned record with its own hash and serial, leaves the serial counter alone, and returns the value's position |
| Segments.GetKeys | Firkin/IO/FirkinFile.cs:194-220 | a disposed file throws; otherwise every record's key and location in file order, with no hash check |
| Segments.Checked | Firkin/IO/FirkinFile.cs:151-162 | keeps exactly the frames whose stored hash equals the hash of key and value |
| Segments.GetRecords | Firkin/IO/FirkinFile.cs:133-174 | a disposed file throws; otherwise the records whose checksum verifies, in file order, with corrupt ones skipped |
| Segments.ReadValue | Firkin/IO/FirkinFile.cs:129-131 | the stream over a small value holds exactly the value's bytes, and fails only for a disposed file or a range past the end |
| Segments.Rename | Firkin/IO/FirkinFile.cs:176-185 | a disposed file throws; otherwise the file has the new name with the same id and bytes |
| Segments.Flush | Firkin/IO/FirkinFile.cs:187-192 | a disposed file throws; otherwise nothing changes |
| Segments.Dispose | Firkin/IO/FirkinFile.cs:222-244 | idempotent; afterwards the key scan, the record scan, flush and rename all report the disposal, and the bytes are untouched |
| Segments.WriteThenGetKeys | Firkin/IO/FirkinFile.cs:102 | after a write, the key scan yields the earlier items and then the new key with exactly the KeyInfo the write returned |
| Segments.WriteRecordThenGetKeys | Firkin/IO/FirkinFile.cs:125 | after a record copy, the key scan's new last item carries the position the write returned |
| Segments.WriteThenRead | Firkin/IO/FirkinFile.cs:102 | the KeyInfo a write returns reads the value back, and every value that read before still reads the same |
| Segments.EntryValue | Firkin/IO/FirkinFile.cs:215 | every location the key scan derives reads back its record's value |
| HintFiles.WriteHint | Firkin/IO/FirkinHintFile.cs:44-52 | appends a 16-byte header and then the key, leaving what was there |
| HintFiles.RoundTrip | Firkin/IO/FirkinHintFile.cs:44-90 | hints written in sequence read back in the same order, with the same serial, key length, value size, value position and key |
| HintFiles.DecodeAppend | Firkin/IO/FirkinHintFile.cs:60-90 | one more entry appended to a file of whole entries is read back last |
| HintFiles.DecodeCorrupt | Firkin/IO/FirkinHintFile.cs:74-77 | an entry whose key length exceeds the maximum aborts the enumeration with a corrupt-key error |
| HintFiles.DecodeEmpty | Firkin/IO/FirkinHintFile.cs:65-69 | an empty file enumerates nothing |
| Indexes.ReplayLast | Firkin/FirkinHash.cs:440-450 | replaying key items: the last item for a key decides it; a deletion marker removes the key and any other item sets it; a key with no item keeps its earlier entry |
| Indexes.OverlayLast | Firkin/FirkinHash.cs:429-436 | reading hint entries: the last entry for a key sets it |
| Indexes.OverlayIsReplay | Firkin/FirkinHash.cs:211-236 | without deletion markers, reading hints and replaying key items build the same index |
| Engine.NewHead | Firkin/FirkinHash.cs:400-406 | the old head is archived read-only under its id; a new empty head is added whose id is one more, in ushort arithmetic; every other file, the index, the hint files and the size limit are unchanged |
| Engine.CheckHead | Firkin/FirkinHash.cs:393-398 | below the maximum size nothing changes; at or above it the head is archived under its id and an empty head with the next ushort id follows, every other file, the index and the hint files unchanged |
| Engine.Put | Firkin/FirkinHash.cs:92-113 | an empty value is exactly a delete; otherwise the head's write decides success, the key gets the head's file and value size, and every other key keeps its entry; a failed write leaves the store Engine.PutFailed describes |
| Engine.Delete | Firkin/FirkinHash.cs:298-319 | a missing key returns false and changes nothing; an indexed key leaves the index and true is returned; the delete of an indexed key fails exactly when the head is read-only or disposed, leaving the store Engine.DeleteFailed describes |
| Engine.DeleteFailed | Firkin/FirkinHash.cs:304-305 | after a failed head write the key is already gone from the index, the head's bytes are unchanged and only its serial counter may have moved |
| Engine.DeleteFailedObserve | Firkin/FirkinHash.cs:304-305 | after a failed delete the key is no longer readable, every other key reads as before, and the count is one less |
| Engine.PutFailed | Firkin/FirkinHash.cs:98-107 | after a failed head write the index is untouched, the head's bytes are unchanged and only its serial counter may have moved |
| Engine.PutFailedObserve | Firkin/FirkinHash.cs:98-107 | a put whose head write fails changes nothing a client can read |
| Engine.Get | Firkin/FirkinHash.cs:127-130 | a missing key gives no stream; a key whose file is gone throws key-not-found; a small value's stream holds exactly the observed bytes |
| Engine.Count | Firkin/FirkinHash.cs:84 | the number of keys a client can read |
| Engine.Flush | Firkin/FirkinHash.cs:119-125 | succeeds exactly when no file is disposed, and changes nothing |
| Engine.Live | Firkin/FirkinHash.cs:326-333 | the snapshot keys that are not deletion markers |
| Engine.Enumerate | Firkin/FirkinHash.cs:321-354 | yields the non-deleted snapshot keys in order, and each small value's stream holds exactly its observed bytes |
| Engine.TruncateAsWritten | Firkin/FirkinHash.cs:356-372 | one empty head, id 1, an empty index; the hint files on disk stay |
| Engine.Truncate | Firkin/FirkinHash.cs:356-372 | one empty head, id 1, an empty index, and no hint files |
| Engine.PutValid | Firkin/FirkinHash.cs:92-113 | a put with a value keeps the store sound and appends the key's item to the log; afterwards the key reads the new value, so a later get yields it and overwrites win, and every other key reads as before; the head rolls over exactly when it reaches the maximum size |
| Engine.DeleteValid | Firkin/FirkinHash.cs:298-319 | deleting an indexed key keeps the store sound and appends one deletion marker to the log; the key is no longer readable and every other key is unaffected |
| Engine.NewHeadValid | Firkin/FirkinHash.cs:400-406 | rollover keeps the store sound, with the same log and the same readable values; the new head is empty and has the largest id |
| Engine.CheckHeadValid | Firkin/FirkinHash.cs:393-398 | the size check keeps the store sound, with the same log and readable values |
| Engine.TruncateValid | Firkin/FirkinHash.cs:356-372 | truncation leaves a sound store in which nothing is readable and the count is 0 |
| Rollover.PutIntoEmptyHead | Firkin/FirkinHash.cs:393-406 | a record that alone reaches the maximum size rolls an empty head over: one more file, the next id, an empty head at serial 0, and the key readable |
| Rollover.ThreePutsFourFiles | Firkin.Test/TFirkinHash.cs:183-193 | three puts whose records each reach the maximum size leave four data files, head 4 empty, and all three keys readable |
| Merges.Fresh | Firkin/FirkinHash.cs:158-166 | a new output gets the next id, its serial restarts at 0, and it starts as an empty data file with an empty hint |
| Merges.MergeWith | Firkin/FirkinHash.cs:137-146 | with no archive a merge changes nothing; a merge never changes the head or the maximum size |
| MergeProof.MergePreserves | Firkin/FirkinHash.cs:132-243 | with the corrected output-id guard (see Findings), a merge of a sound store succeeds, leaves it sound, and every key reads the same value afterwards |
| MergeProof.MergeCompacts | Firkin/FirkinHash.cs:149-222 | with the corrected output-id guard (see Findings), the outputs are numbered from 1 and lie below the head; each output's serials run 1, 2, 3 and so on; a key has a copied record exactly when its entry pointed into an archive, and then exactly one; the outputs hold no more bytes than the archives |
| MergeFinding.GuardClash | Firkin/FirkinHash.cs:194-199 | with the guard as written, a sound store whose key read [8] reads nothing after a merge |
| MergeFinding.GuardClashCorrected | Firkin/FirkinHash.cs:194-199 | with the corrected guard, the same merge keeps every key's value |
| Recovery.Load | Firkin/FirkinHash.cs:420-454 | loading opens exactly the listed data files read-only, reading each through its hint file when there is one and otherwise through its key scan |
| Recovery.Initialize | Firkin/FirkinHash.cs:408-465 | startup fails exactly when loading fails; otherwise the index is the loaded index, the hint files stay and a head is installed among the files (which head: InitializeReopen, InitializeFull, InitializeEmpty) |
| Recovery.InitializeReopen | Firkin/FirkinHash.cs:455-456 | when the last data file is below the maximum size, startup gives the loaded files and index with that file reopened for writing from the serial the load left behind |
| Recovery.InitializeFull | Firkin/FirkinHash.cs:457-463 | when the last data file has reached the maximum size, startup gives the loaded files and index plus an empty head whose id is one more, in ushort arithmetic |
| Recovery.InitializeEmpty | Firkin/FirkinHash.cs:455-464 | an empty directory gives an empty index and one empty head with id 1 |
| Recovery.RecoverPreserves | Firkin/FirkinHash.cs:408-465 | startup on what a sound store left on disk succeeds, rebuilds the same index and every readable value, and leaves a sound store; the last file stays the head when below the maximum size, and otherwise a new empty head follows it |
| TruncateFinding.TruncateRestartAsWritten | Firkin/FirkinHash.cs:356-372 | whenever a hint file for id 1 with at least one entry survives truncation, a restart indexes its keys again, although the truncated store read nothing |
| TruncateFinding.GuardTruncate | Firkin/FirkinHash.cs:356-372 | a sound store after a merge, truncated and restarted, reads key [1] as indexed but empty |
| TruncateFinding.TruncateRestart | Firkin/FirkinHash.cs:356-372 | with the hint files removed, a restart after truncation succeeds on every store, is sound, and reads nothing |
| TruncateFinding.GuardTruncateCorrected | Firkin/FirkinHash.cs:356-372 | on the same store, the corrected truncation leaves key [1] gone after a restart |
| Observable.Subscribe | Firkin.Reactive/ObservableFirkinHash.cs:48-62 | a null observer is an argument-null error; otherwise it is stored under the counter's value, which is returned, and the counter moves on with int wrap-around |
| Observable.SubscribeFresh | Firkin.Reactive/ObservableFirkinHash.cs:53-55 | while the counter has not wrapped, a new subscription's key was never handed out before |
| Observable.Unsubscribe | Firkin.Reactive/ObservableFirkinHash.cs:56-60 | disposing a handle removes that subscriber and no other |
| Observable.SubscribeThenUnsubscribe | Firkin.Reactive/ObservableFirkinHash.cs:48-62 | subscribing and then disposing the handle leaves the same subscribers |
| Observable.Publish | Firkin.Reactive/ObservableFirkinHash.cs:75-80 | a change reaches every current subscriber and no one else |
| Observable.PublishAllDelivers | Firkin.Reactive/ObservableFirkinHash.cs:75-80 | each current subscriber receives every change of a run, in order; a former subscriber receives nothing |
| Observable.Dispose | Firkin.Reactive/ObservableFirkinHash.cs:64-69 | every subscriber is sent completion, and then every data file is disposed |
| Observable.DisposeCompletes | Firkin.Reactive/ObservableFirkinHash.cs:92-97 | after disposal a subscriber's last notice is one completion, with no change notice added |
| Observable.PutKey | Firkin/FirkinHash.cs:92-113 | with observers that do not throw, the observable put succeeds exactly when the engine's put does, and leaves the same store |
| Observable.DeleteKey | Firkin/FirkinHash.cs:298-319 | with observers that do not throw, the observable delete succeeds exactly when the engine's delete does, with the same store and result |
| Observable.EventProtocol | Firkin/FirkinHash.cs:104-112 | a put of a new key publishes Add, and a put of an indexed key publishes Change; a delete of an indexed key publishes Delete; a delete or an empty put of a missing key publishes nothing |
| LazyCollection.Enumerate | Firkin/Data/LazyFirkinCollection.cs:35-46 | the values of the keys whose stream exists and whose value decodes, in key order; never more than the count, and the count exactly when every key yields |
| LazyCollection.ValuesPicked | Firkin/Data/LazyFirkinCollection.cs:35-46 | the enumeration is the values at an increasing list of key positions that holds every yielding key and no other |
| LazyCollection.CopyTo | Firkin/Data/LazyFirkinCollection.cs:60-63 | a negative index is out of range and an index past the end an argument error; otherwise the first values land at the index and every other slot is kept |
| LazyCollection.ReadOnly | Firkin/Data/LazyFirkinCollection.cs:52-71 | Add and Clear change nothing, Contains and Remove are false, and IsReadOnly is true |
| IntCodecs.ToValue | Firkin/Serialization/SerializerRepository.cs:134-191 | decoding fails for no bytes (out of range) or too few (argument error), and succeeds from the type's width on |
| IntCodecs.RoundTrip | Firkin/Serialization/SerializerRepository.cs:134-191 | decoding the encoding of any value of short, ushort, int, uint, long or ulong gives the value back, whatever bytes follow |
| IntCodecs.Onto | Firkin/Serialization/SerializerRepository.cs:134-191 | every decoded value is in range, and encoding it gives back the bytes read |
| IntCodecs.Injective | Firkin/Serialization/SerializerRepository.cs:134-191 | distinct values encode differently |
| SerializerRepository.SetGenerator | Firkin/Serialization/SerializerRepository.cs:39-47 | a null generator is an argument-null error; otherwise it replaces the generator |
| SerializerRepository.Register | Firkin/Serialization/SerializerRepository.cs:50-66 | a null codec is an argument-null error; otherwise it replaces the type's entry in its own table only |
| SerializerRepository.Lookup | Firkin/Serialization/SerializerRepository.cs:72-88 | the table's entry with no change; or else the generator's codec for the type, which is added to that table and nothing else changes; a null from the generator changes nothing |
| SerializerRepository.GetGenerated | Firkin/Serialization/SerializerRepository.cs:76-85 | a get of a type only the generator knows returns the generator's codec and caches it: the table gains exactly that entry, and every other entry of either table is kept |
| SerializerRepository.Get | Firkin/Serialization/SerializerRepository.cs:68-110 | throws key-not-found exactly when neither the table nor the generator knows the type; the codec returned is then in the table |
| SerializerRepository.Has | Firkin/Serialization/SerializerRepository.cs:112-118 | true exactly when a get succeeds, caching as the get does |
| SerializerRepository.Reset | Firkin/Serialization/SerializerRepository.cs:120-128 | both tables hold exactly the default codecs, with the default generator |
| SerializerRepository.RegisterThenGet | Firkin/Serialization/SerializerRepository.cs:54-56 | after a registration, a get returns that codec and changes nothing |
| SerializerRepository.GetCaches | Firkin/Serialization/SerializerRepository.cs:76-85 | a second get returns the first's codec and changes nothing, so a generated codec is made once |
| SerializerRepository.UnknownType | Firkin/Serialization/SerializerRepository.cs:78-83 | a type nobody knows: get throws, has is false, nothing changes |
| SerializerRepository.ResetRestores | Firkin/Serialization/SerializerRepository.cs:120-131 | after a reset every default type gets its default codec from either table, and any other type that the generator cannot make throws |
| SerializerRepository.DefaultIntegersRoundTrip | Firkin/Serialization/SerializerRepository.cs:134-191 | a fresh repository hands out the built-in codec for every integer kind; that codec is by definition the kind's IntCodecs encoding, and that encoding round-trips every value of the kind |
| SerializerFactory.Initial | Firkin/Serialization/SerializerFactory.cs:32-53 | both tables hold exactly the int and string codecs |
| SerializerFactory.RegisterKey | Firkin/Serialization/SerializerFactory.cs:56-58 | the type's key entry is afterwards exactly the given codec, null included, whether or not it was registered before; the other types and the value table are untouched |
| SerializerFactory.RegisterValue | Firkin/Serialization/SerializerFactory.cs:60-62 | the type's value entry is afterwards exactly the given codec, null included; the other types and the key table are untouched |
| SerializerFactory.GetKey | Firkin/Serialization/SerializerFactory.cs:64-66 | the registered codec, or key-not-found for a type never registered |
| SerializerFactory.GetValue | Firkin/Serialization/SerializerFactory.cs:68-70 | as GetKey, for the value table |
| SerializerFactory.LastRegistrationWins | Firkin/Serialization/SerializerFactory.cs:56-70 | the last registration for a type is returned, in its own table only; other types are unaffected |
| SerializerFactory.InitialIntKey | Firkin/Serialization/SerializerFactory.cs:32-42 | the initial int key codec round-trips every int through four bytes, and a type other than int and string throws |

## Left out

- File system work is not modelled: directories, file names on disk, opening files, and `File.Move`/`File.Delete`. A data file is its bytes in memory. The final rename phase of a merge is one step.
- The merge's `catch` around that phase is modelled only for the failure the guard finding causes: the hint of an output that took the head's id stays unmoved. Other I/O failures are not modelled.
- Locks and concurrency are not modelled (`_indexSyncRoot`, `_mergeSyncRoot`, the stream sync root, writes racing a merge). Everything is single-threaded, so the enumerator's fallback to `Get` after a failed read fails the same way.
- The checksum is a `Hasher` parameter, not MD5. `StreamEx.ComputeHash` is therefore not modelled.
- The key serializer is the identity on key bytes. A key is its serialized bytes.
- The maximum key size for hint files is a parameter (`maxKeySize`). The static it comes from is not part of this model.
- `FirkinHash` never sets its disposed flag, so its own `CheckDisposed` never throws and is not modelled. Use after dispose fails only through the disposed files.
- The `info.ValueSize = 0` assignment in `Delete` changes a copy and has no effect, so it is not modelled.
- FirkinStreamRead.Read requires a buffered, non-empty stream. The source dereferences a null buffer otherwise.
- FirkinStreamRead.Read also requires a non-negative offset and a buffer long enough for the bytes it copies. With a shorter buffer or a negative offset the source's `Array.Copy` throws part way, after earlier chunks were copied and the position moved; that partial failure is not modelled.
- FirkinStream.Memorize reports a range that runs past the end of the file as an error. The source's loop would spin forever there.
- Engine.Get and Engine.Enumerate state the stream's bytes only for values of at most 16 KiB. A larger value's stream is not buffered when it is made, and reading it without an explicit `Memorize` dereferences a missing buffer and throws; the bytes such a stream yields are not stated.
- Segments.ReadValue: as for `Get`, the bytes are stated only for buffered streams of at most 16 KiB.
- Engine.PutValid, Engine.DeleteValid, Engine.NewHeadValid, Engine.CheckHeadValid, Observable.EventProtocol and Recovery.RecoverPreserves assume that no `uint` or `ushort` wraps: the head stays below 4 GiB, its serial counter below 2^32, and the next head id below 65536. The operations themselves wrap explicitly.
- Engine.Put models the `uint`-length overload. The stream overload's `(uint)` cast of the `long` length is not modelled: a stream of exactly 2^32 bytes would become a delete, and one of 2^32 + 5 bytes would store 5 bytes. The value is also taken to supply exactly its length; a shorter stream, which the source writes with a header claiming the full length, is not modelled.
- ArrayEx.Select compares index + length with the array length in unbounded arithmetic; the source's int sum can overflow to a negative number for huge lengths, pass that check, and then fail in the allocation or the copy with a different exception.
- MergeProof.MergePreserves assumes every key fits the hint files' key limit and the archives together stay below 4 GiB.
- Observable.SubscribeFresh assumes the int subscription counter has not wrapped. After 2^32 subscriptions, keys repeat.
- Observable: `OnError` is private and never called, so it is not modelled.
- Observable.Publish treats observers as inboxes that record what they are sent. In the source they run caller code inside the loop over the subscriber dictionary: an observer whose `OnNext` throws stops delivery to the subscribers after it, and one that unsubscribes from inside `OnNext` makes the enumeration throw. Neither is modelled; observers are taken to neither throw nor re-enter.
- Observable.PublishAllDelivers holds only for such observers: with a throwing or re-entrant observer, later subscribers miss the change.
- Observable.Dispose likewise assumes `OnCompleted` does not throw. In the source a throwing `OnCompleted` stops the completions and skips disposing the data files.
- Observable.DisposeCompletes rests on the same assumption as `Observable.Dispose`.
- Observable.PutKey assumes observers do not throw. In the source an exception from `OnNext` escapes the put after the store has already changed, so the put fails although the engine's put succeeded. The model also returns the engine's error without the post-failure store; that store is `Engine.PutFailed`.
- Observable.DeleteKey has the same gap as `Observable.PutKey`; the store a failed engine delete leaves is `Engine.DeleteFailed`.
- Engine.NewHead gives the new head as an empty file. When the ushort id wraps onto an id that is already in use, the source's `CreateActive` opens that existing file (`FileMode.OpenOrCreate`, Firkin/IO/FirkinFile.cs:67) and either keeps its old bytes under the new head or fails to open it. That case is not modelled, and the no-wrap precondition of the `Valid` lemmas excludes it.
- Engine.CheckHead rolls over through `Engine.NewHead` and has the same gap at a wrapped head id.
- Recovery.InitializeFull gives the new head as an empty file at the next ushort id. When the last data file is `store_65535` and full, that id wraps to 0; if `store_0` exists, the source's `CreateActive` opens it with `FileMode.OpenOrCreate` (Firkin/IO/FirkinFile.cs:67) and either keeps its old bytes under the new head or fails to open it, whereas the model drops the loaded file 0 and installs an empty head. That case is not modelled.
- Recovery.Initialize has the same gap through its full-head branch; `Recovery.RecoverPreserves` excludes it with its no-wrap precondition.
- Int codecs assume a little-endian host, as `BitConverter` uses on x86.
- The UTF-8 string codecs and the float and double codecs are registered only by their type tags. Their encodings are not modelled.
- The BinaryFormatter generator is not modelled; any generator is a parameter that makes codecs for some types.
- `StreamView` and `FirkinDictionary` are not part of this model. The first is unused, and nearly every member of the second throws.
- The lambda serializer wrappers and logging are not modelled.

## Findings

| source | as written | input that shows it | evidently intended | confidence | as-written member | corrected member |
|---|---|---|---|---|---|---|
| Firkin/FirkinHash.cs:194-199 | a merge sets the current output aside while `fileId < head.FileId`, so the next output can take the head's id; the head then replaces that output in the file table, and the index entries read back from its hint point into the head | a store whose archive 1 holds two 30-byte records, key [1] and key [2] with one-byte values, and whose head 2 is empty; maximum size 29; merge | set the output aside only while `fileId + 1 < head.FileId`, so every output id stays below the head | not executed | MergeFinding.GuardClash | MergeFinding.GuardClashCorrected |
| Firkin/FirkinHash.cs:356-372 | `Truncate` deletes the data files but leaves their hint files, and startup reads `store_1.hint` for the new empty file 1 | roll a store over, merge so that file 1 gets a hint file, truncate, restart: key [1] is indexed again in the empty file 1 | truncation also removes the hint files, so that a restart reads an empty store | not executed | TruncateFinding.GuardTruncate | TruncateFinding.GuardTruncateCorrected |

=== FILE: array_ex.dfy ===
/** Array helpers: a bounds-checked slice and the length-first comparison used to check record hashes. */
module ArrayEx {
  import opened Bytes
  import opened Wrappers

  /** `array.Select(index, length)`: a copy of `array[index .. index+length)`.
      The index must name an existing element even when `length` is 0. */
  function Select<T>(a: seq<T>, index: int, length: int): (r: Result<seq<T>>)
    ensures r.Ok? <==> 0 <= index < |a| && 0 <= length && index + length <= |a|
    ensures r.Ok? ==> |r.value| == length
    ensures r.Ok? ==> forall i :: 0 <= i < length ==> r.value[i] == a[index + i]
    ensures r.Err? ==> r.error == ArgumentOutOfRange
  {
    if index < 0 || index > |a| - 1 then Err(ArgumentOutOfRange)
    else if length < 0 || index + length > |a| then Err(ArgumentOutOfRange)
    else Ok(a[index..index + length])
  }

  /** `Byte.CompareTo`: the difference of the two values. */
  function CompareByte(x: byte, y: byte): int {
    x - y
  }

  /** Element-wise comparison of equal-length strings from position i on:
      the comparison at the first differing position, or 0. */
  function CompareFrom(a: seq<byte>, b: seq<byte>, i: nat): int
    requires |a| == |b| && i <= |a|
    decreases |a| - i
  {
    if i == |a| then 0
    else if CompareByte(a[i], b[i]) != 0 then CompareByte(a[i], b[i])
    else CompareFrom(a, b, i + 1)
  }

  /** Reference definition of `ArrayEx.Compare` on two non-null arrays:
      shorter sorts first, equal lengths compare at the first difference. */
  function CompareSeq(a: seq<byte>, b: seq<byte>): int {
    if |a| != |b| then |a| - |b| else CompareFrom(a, b, 0)
  }

  lemma {:induction false} CompareFromZero(a: seq<byte>, b: seq<byte>, i: nat)
    requires |a| == |b| && i <= |a|
    ensures CompareFrom(a, b, i) == 0 <==> a[i..] == b[i..]
    decreases |a| - i
  {
    if i < |a| {
      CompareFromZero(a, b, i + 1);
      assert a[i..] == [a[i]] + a[i + 1..];
      assert b[i..] == [b[i]] + b[i + 1..];
    }
  }

  lemma {:induction false} CompareFromAntisymmetric(a: seq<byte>, b: seq<byte>, i: nat)
    requires |a| == |b| && i <= |a|
    ensures CompareFrom(a, b, i) == -CompareFrom(b, a, i)
    decreases |a| - i
  {
    if i < |a| {
      CompareFromAntisymmetric(a, b, i + 1);
    }
  }

  /** Compare returns 0 exactly for element-wise equal arrays. */
  lemma CompareZeroIffEqual(a: seq<byte>, b: seq<byte>)
    ensures CompareSeq(a, b) == 0 <==> a == b
  {
    if |a| == |b| {
      CompareFromZero(a, b, 0);
      assert a[0..] == a && b[0..] == b;
    }
  }

  /** Swapping the arguments negates the result, so the sign is antisymmetric. */
  lemma CompareAntisymmetric(a: seq<byte>, b: seq<byte>)
    ensures CompareSeq(a, b) == -CompareSeq(b, a)
  {
    if |a| == |b| {
      CompareFromAntisymmetric(a, b, 0);
    }
  }

  /** A shorter array compares as less, a longer as greater, whatever the contents. */
  lemma CompareLengthFirst(a: seq<byte>, b: seq<byte>)
    ensures |a| < |b| ==> CompareSeq(a, b) < 0
    ensures |a| > |b| ==> CompareSeq(a, b) > 0
  {
  }

  /** `left.Compare(right)`; `None` stands for a null array. */
  method Compare(left: Option<seq<byte>>, right: Option<seq<byte>>) returns (r: Result<int>)
    ensures left.None? ==> r == Err(ArgumentNull)
    ensures left.Some? && right.None? ==> r == Err(ArgumentNull)
    ensures left.Some? && right.Some? ==> r == Ok(CompareSeq(left.value, right.value))
  {
    if left.None? {
      return Err(ArgumentNull);
    }
    if right.None? {
      return Err(ArgumentNull);
    }
    var a := left.value;
    var b := right.value;
    var result := |a| - |b|;
    if result != 0 {
      return Ok(result);
    }
    var i := 0;
    while i < |a|
      invariant 0 <= i <= |a|
      invariant CompareFrom(a, b, 0) == CompareFrom(a, b, i)
    {
      result := CompareByte(a[i], b[i]);
      if result != 0 {
        return Ok(result);
      }
      i := i + 1;
    }
    return Ok(0);
  }
}

=== FILE: bytes.dfy ===
/** Bytes, fixed-width integers and the little-endian layout BitConverter uses on x86/x64. */
module Bytes {

  type byte = x: int | 0 <= x < 256

  const TWO16: int := 0x1_0000
  const TWO32: int := 0x1_0000_0000

  type u16 = x: int | 0 <= x < TWO16
  type u32 = x: int | 0 <= x < TWO32

  /** A C# unchecked conversion to uint: keep the low 32 bits. */
  function Wrap32(x: int): (r: u32)
    ensures 0 <= x < TWO32 ==> r == x
  {
    x % TWO32
  }

  /** A C# unchecked conversion to ushort: keep the low 16 bits. */
  function Wrap16(x: int): (r: u16)
    ensures 0 <= x < TWO16 ==> r == x
  {
    x % TWO16
  }

  function Min(a: int, b: int): (m: int)
    ensures m <= a && m <= b
    ensures m == a || m == b
  {
    if a <= b then a else b
  }

  /** `new byte[n]`: n zero bytes. */
  function Zeros(n: nat): (z: seq<byte>)
    ensures |z| == n
    ensures forall i :: 0 <= i < n ==> z[i] == 0
  {
    seq(n, _ => 0)
  }

  /** 256^n, the number of values n bytes can hold. */
  function Pow256(n: nat): (p: nat)
    ensures p >= 1
  {
    if n == 0 then 1 else 256 * Pow256(n - 1)
  }

  /** The n low-order bytes of x, least significant first. */
  function LE(x: nat, n: nat): (r: seq<byte>)
    ensures |r| == n
  {
    if n == 0 then [] else [(x % 256) as byte] + LE(x / 256, n - 1)
  }

  /** The unsigned value of a little-endian byte string. */
  function FromLE(s: seq<byte>): nat {
    if |s| == 0 then 0 else s[0] + 256 * FromLE(s[1..])
  }

  lemma {:induction false} FromLEBound(s: seq<byte>)
    ensures FromLE(s) < Pow256(|s|)
  {
    if |s| > 0 {
      FromLEBound(s[1..]);
    }
  }

  /** Decoding an encoding gives back every value that fits in the width. */
  lemma {:induction false} LERoundTrip(x: nat, n: nat)
    requires x < Pow256(n)
    ensures FromLE(LE(x, n)) == x
  {
    if n > 0 {
      var r := LE(x, n);
      assert r[1..] == LE(x / 256, n - 1);
      LERoundTrip(x / 256, n - 1);
    }
  }

  /** Encoding a decoded string gives back the string: the encoding is onto. */
  lemma {:induction false} LEOnto(s: seq<byte>)
    ensures LE(FromLE(s), |s|) == s
  {
    if |s| > 0 {
      LEOnto(s[1..]);
      var y := FromLE(s[1..]);
      DivMod256(s[0] as nat, y);
      assert LE(FromLE(s), |s|) == [s[0]] + LE(y, |s| - 1);
      assert s == [s[0]] + s[1..];
    }
  }

  /** The low byte and the rest of a byte placed below a multiple of 256. */
  lemma DivMod256(a: nat, y: nat)
    requires a < 256
    ensures (a + 256 * y) % 256 == a && (a + 256 * y) / 256 == y
  {
  }

  /** `BitConverter.GetBytes(uint)`. */
  function LE32(x: u32): (r: seq<byte>)
    ensures |r| == 4
  {
    LE(x, 4)
  }

  /** `BitConverter.ToUInt32(s, i)`, defined when four bytes are available at i. */
  function U32At(s: seq<byte>, i: nat): (v: u32)
    requires i + 4 <= |s|
  {
    FromLEBound(s[i..i + 4]);
    Pow256Four();
    FromLE(s[i..i + 4])
  }

  lemma Pow256Four()
    ensures Pow256(4) == TWO32
  {
  }

  lemma LE32RoundTrip(x: u32)
    ensures FromLE(LE32(x)) == x
  {
    Pow256Four();
    LERoundTrip(x, 4);
  }

  /** A u32 written at offset |a| of a buffer is read back from that offset. */
  lemma U32AtConcat(a: seq<byte>, x: u32, b: seq<byte>)
    ensures U32At(a + LE32(x) + b, |a|) == x
  {
    var s := a + LE32(x) + b;
    assert s[|a|..|a| + 4] == LE32(x);
    LE32RoundTrip(x);
  }

  /** Reading a u32 inside a prefix is unaffected by what follows the prefix. */
  lemma U32AtPrefix(s: seq<byte>, t: seq<byte>, i: nat)
    requires i + 4 <= |s|
    ensures U32At(s + t, i) == U32At(s, i)
  {
    assert (s + t)[i..i + 4] == s[i..i + 4];
  }

  /** Two's complement decoding of an n-byte little-endian integer (BitConverter.ToInt16/32/64). */
  function SignedFromLE(s: seq<byte>): int
    requires |s| > 0
  {
    var u := FromLE(s);
    var half := Pow256(|s|) / 2;
    if u >= half then u - Pow256(|s|) else u
  }

  /** Two's complement encoding of x in n bytes (BitConverter.GetBytes on short/int/long). */
  function SignedLE(x: int, n: nat): (r: seq<byte>)
    ensures |r| == n
  {
    LE(x % Pow256(n), n)
  }

  lemma Pow256Even(n: nat)
    requires n > 0
    ensures Pow256(n) % 2 == 0
  {
  }

  lemma ModShift(x: int, p: int)
    requires p > 0 && -p <= x < 0
    ensures x % p == x + p
  {
  }

  lemma ModSmall(x: int, p: int)
    requires 0 <= x < p
    ensures x % p == x
  {
  }

  /** Signed round trip for every value of the width's range. */
  lemma SignedRoundTrip(x: int, n: nat)
    requires n > 0
    requires -(Pow256(n) / 2) <= x < Pow256(n) / 2
    ensures SignedFromLE(SignedLE(x, n)) == x
  {
    var p := Pow256(n);
    var half := p / 2;
    Pow256Even(n);
    assert p == 2 * half;
    var e := SignedLE(x, n);
    assert |e| == n;
    if x < 0 {
      ModShift(x, p);
      assert e == LE(x + p, n);
      LERoundTrip(x + p, n);
      assert FromLE(e) == x + p;
      assert FromLE(e) >= half;
    } else {
      ModSmall(x, p);
      assert e == LE(x, n);
      LERoundTrip(x, n);
      assert FromLE(e) == x;
    }
  }
}

=== FILE: engine.dfy ===
/** FirkinHash's single-threaded operations: writes through the head with
    rollover, deletion by marker, lookups, counting, flushing, enumeration
    and truncation. */
module Engine {
  import opened Bytes
  import opened Wrappers
  import opened Layout
  import opened Records
  import opened KeyInfos
  import opened Segments
  import opened Indexes
  import opened Stores
  import FirkinStream

  /** `NewHead`: reopens the head read-only and starts an empty head whose id
      is the old one plus one, in ushort arithmetic. */
  function NewHead(s: Store): (r: Store)
    requires s.head in s.files
    ensures r.head == Wrap16(s.head + 1) && r.head in r.files
    ensures r.files.Keys == s.files.Keys + {r.head}
    ensures r.files[r.head] == CreateActive(FileName(StorePrefix, r.head), r.head)
    ensures r.head != s.head && r.files[s.head] == OpenArchiveFromActive(s.files[s.head])
    ensures forall id | id in s.files && id != s.head && id != r.head :: r.files[id] == s.files[id]
    ensures r.index == s.index && r.hints == s.hints && r.maxSize == s.maxSize
  {
    var id := Wrap16(s.head + 1);
    var files := s.files[s.head := OpenArchiveFromActive(s.files[s.head])];
    s.(files := files[id := CreateActive(FileName(StorePrefix, id), id)], head := id)
  }

  /** `CheckHead`: rolls over once the head has reached the maximum size. */
  function CheckHead(s: Store): (r: Store)
    requires s.head in s.files
    ensures r.head in r.files
    ensures r.index == s.index && r.hints == s.hints && r.maxSize == s.maxSize
    ensures Size(s.files[s.head]) < s.maxSize ==> r == s
    ensures Size(s.files[s.head]) >= s.maxSize ==>
      && r.head == Wrap16(s.head + 1) && r.files.Keys == s.files.Keys + {r.head}
      && r.files[r.head] == CreateActive(FileName(StorePrefix, r.head), r.head)
      && r.files[s.head] == OpenArchiveFromActive(s.files[s.head])
      && (forall id | id in s.files && id != s.head && id != r.head :: r.files[id] == s.files[id])
  {
    if Size(s.files[s.head]) < s.maxSize then s else NewHead(s)
  }

  /** The state right after a record for `key` went to the head: the head
      holds `g`, and the index has replayed the record's key item. */
  function Appended(s: Store, g: Segment, key: Key, info: KeyInfo): Store {
    s.(files := s.files[s.head := g], index := Apply(s.index, Entry(key, info)))
  }

  /** `Delete`: false, and nothing changes, when the key is not indexed;
      otherwise the key leaves the index and a deletion marker (empty value,
      zero hash) goes to the head. */
  function Delete(s: Store, H: Hasher, key: Key): (r: Result<(Store, bool)>)
    requires s.head in s.files && |key| < TWO32
    ensures key !in s.index ==> r == Ok((s, false))
    ensures key in s.index ==> (r.Ok? <==> s.files[s.head].writable && !s.files[s.head].disposed)
    ensures key in s.index && r.Ok? ==> r.value.1 && r.value.0.index == s.index - {key}
  {
    if key !in s.index then Ok((s, false))
    else
      var (g, _) :- WriteValue(s.files[s.head], H, key, []);
      Ok((CheckHead(s.(files := s.files[s.head := g], index := s.index - {key})), true))
  }

  /** `Put(key, stream, length)`: a zero length is a `Delete`; otherwise the
      value goes to the head and the index points the key at it. */
  function Put(s: Store, H: Hasher, key: Key, value: seq<byte>): (r: Result<Store>)
    requires s.head in s.files && |key| < TWO32 && |value| < TWO32
    ensures |value| == 0 ==> (r.Ok? <==> Delete(s, H, key).Ok?) && (r.Ok? ==> r.value == Delete(s, H, key).value.0)
    ensures |value| > 0 ==> (r.Ok? <==> s.files[s.head].writable && !s.files[s.head].disposed)
    ensures |value| > 0 && r.Ok? ==>
      && r.value.index.Keys == s.index.Keys + {key}
      && r.value.index[key].fileId == s.files[s.head].id && r.value.index[key].valueSize == |value|
      && forall k | k in s.index && k != key :: r.value.index[k] == s.index[k]
  {
    if |value| == 0 then
      var (t, _) :- Delete(s, H, key);
      Ok(t)
    else
      var (g, info) :- WriteValue(s.files[s.head], H, key, value);
      Ok(CheckHead(s.(files := s.files[s.head := g], index := s.index[key := info])))
  }

  /** The store a `Delete` of an indexed key leaves when the head's write
      throws: the key has already left the index, and the head may have used
      up a serial (`WriteFailed`). */
  function DeleteFailed(s: Store, key: Key): (r: Store)
    requires s.head in s.files
    ensures r.index == s.index - {key} && r.head == s.head && r.hints == s.hints && r.maxSize == s.maxSize
    ensures r.files.Keys == s.files.Keys && r.files[s.head] == WriteFailed(s.files[s.head])
    ensures forall id | id in s.files && id != s.head :: r.files[id] == s.files[id]
  {
    s.(files := s.files[s.head := WriteFailed(s.files[s.head])], index := s.index - {key})
  }

  /** The store a `Put` with a value leaves when the head's write throws:
      the index is untouched, and the head may have used up a serial. */
  function PutFailed(s: Store): (r: Store)
    requires s.head in s.files
    ensures r.index == s.index && r.head == s.head && r.hints == s.hints && r.maxSize == s.maxSize
    ensures r.files.Keys == s.files.Keys && r.files[s.head] == WriteFailed(s.files[s.head])
    ensures forall id | id in s.files && id != s.head :: r.files[id] == s.files[id]
  {
    s.(files := s.files[s.head := WriteFailed(s.files[s.head])])
  }

  /** `Count`: the number of indexed keys, which is the number of keys a
      client can look up. */
  function Count(s: Store): (n: nat)
    ensures n == |Observe(s)|
  {
    assert Observe(s).Keys == s.index.Keys;
    |s.index|
  }

  /** `Flush`: flushes every file; a disposed file throws. */
  function Flush(s: Store): (r: Result<Store>)
    ensures r.Ok? <==> forall id | id in s.files :: !s.files[id].disposed
    ensures r.Ok? ==> r.value == s
  {
    if exists id | id in s.files :: s.files[id].disposed then Err(ObjectDisposed) else Ok(s)
  }

  /** `Get`: no stream for a key that is not indexed, the key's file missing
      from the file table throws, otherwise a stream over the indexed range;
      a small value's stream holds exactly the bytes a client observes. */
  method Get(s: Store, key: Key) returns (r: Result<Option<FirkinStream.ValueStream>>)
    ensures key !in s.index ==> r == Ok(None)
    ensures key in s.index && s.index[key].fileId !in s.files ==> r == Err(KeyNotFound)
    ensures r.Ok? && key in s.index ==> r.value.Some?
    ensures key in s.index && s.index[key].fileId in s.files && s.index[key].valueSize <= FirkinStream.BUFFER_SIZE ==>
      && (r.Ok? <==> !s.files[s.index[key].fileId].disposed && Observe(s)[key].Some?)
      && (r.Ok? ==> Observe(s)[key] == Some(FirkinStream.Flatten(r.value.value.chunks)))
  {
    if key !in s.index {
      return Ok(None);
    }
    var info := s.index[key];
    if info.fileId !in s.files {
      return Err(KeyNotFound);
    }
    var stream :- ReadValue(s.files[info.fileId], info);
    return Ok(Some(stream));
  }

  /** The keys enumeration yields, in snapshot order: those whose entry is
      not a deletion marker. */
  function Live(s: Store, order: seq<Key>): (q: seq<Key>)
    requires forall i :: 0 <= i < |order| ==> order[i] in s.index
    ensures forall k :: k in q <==> k in order && s.index[k].valueSize > 0
    ensures |q| <= |order|
  {
    if |order| == 0 then []
    else
      var init := Live(s, order[..|order| - 1]);
      var k := order[|order| - 1];
      assert order == order[..|order| - 1] + [k];
      if s.index[k].valueSize > 0 then init + [k] else init
  }

  /** Taking one more key of the snapshot adds it when it is not a deletion marker. */
  lemma LiveStep(s: Store, order: seq<Key>, n: nat)
    requires forall i :: 0 <= i < |order| ==> order[i] in s.index
    requires n < |order|
    ensures Live(s, order[..n + 1]) == Live(s, order[..n]) + (if s.index[order[n]].valueSize > 0 then [order[n]] else [])
  {
    assert order[..n + 1][..n] == order[..n];
  }

  /** `GetEnumerator` over a snapshot of the index's keys in the dictionary's
      order: deletion markers are skipped, every other key yields a stream
      (a failed read falls back to `Get`, which fails the same way when
      nothing runs concurrently, and then throws). */
  method Enumerate(s: Store, order: seq<Key>) returns (r: Result<seq<(Key, FirkinStream.ValueStream)>>)
    requires forall i :: 0 <= i < |order| ==> order[i] in s.index
    ensures r.Ok? ==> |r.value| == |Live(s, order)|
    ensures r.Ok? ==> forall i :: 0 <= i < |r.value| ==> r.value[i].0 == Live(s, order)[i]
    ensures r.Ok? ==> forall i :: 0 <= i < |r.value| ==> r.value[i].0 in s.index && (s.index[r.value[i].0].valueSize <= FirkinStream.BUFFER_SIZE ==>
      Observe(s)[r.value[i].0] == Some(FirkinStream.Flatten(r.value[i].1.chunks)))
  {
    var out: seq<(Key, FirkinStream.ValueStream)> := [];
    var n := 0;
    while n < |order|
      invariant 0 <= n <= |order|
      invariant KeysAre(out, Live(s, order[..n]))
      invariant Streamed(s, out)
    {
      var key := order[n];
      LiveStep(s, order, n);
      if s.index[key].valueSize > 0 {
        var got := Get(s, key);
        if got.Err? {
          return Err(got.error);
        }
        KeysAppend(out, Live(s, order[..n]), key, got.value.value);
        StreamedAppend(s, out, key, got.value.value);
        out := out + [(key, got.value.value)];
      }
      n := n + 1;
    }
    assert order[..n] == order;
    return Ok(out);
  }

  /** The enumerated pairs carry the keys of `q`, in order. */
  ghost predicate KeysAre(out: seq<(Key, FirkinStream.ValueStream)>, q: seq<Key>) {
    |out| == |q| && forall i :: 0 <= i < |out| ==> out[i].0 == q[i]
  }

  lemma KeysAppend(out: seq<(Key, FirkinStream.ValueStream)>, q: seq<Key>, key: Key, st: FirkinStream.ValueStream)
    requires KeysAre(out, q)
    ensures KeysAre(out + [(key, st)], q + [key])
  {
  }

  /** Every enumerated key is indexed, and a small value's stream holds the
      bytes the key observes. */
  ghost predicate Streamed(s: Store, out: seq<(Key, FirkinStream.ValueStream)>) {
    forall i :: 0 <= i < |out| ==> out[i].0 in s.index && (s.index[out[i].0].valueSize <= FirkinStream.BUFFER_SIZE ==>
      Observe(s)[out[i].0] == Some(FirkinStream.Flatten(out[i].1.chunks)))
  }

  lemma StreamedAppend(s: Store, out: seq<(Key, FirkinStream.ValueStream)>, key: Key, st: FirkinStream.ValueStream)
    requires Streamed(s, out) && key in s.index
    requires s.index[key].valueSize <= FirkinStream.BUFFER_SIZE ==> Observe(s)[key] == Some(FirkinStream.Flatten(st.chunks))
    ensures Streamed(s, out + [(key, st)])
  {
  }

  /** `Truncate`: every data file is deleted and a single empty head with id 1
      replaces them; the hint files on disk are left where they are. */
  function TruncateAsWritten(s: Store): (r: Store)
    ensures r.files.Keys == {1} && r.head == 1 && r.index == map[] && r.hints == s.hints
  {
    Store(map[1 := CreateActive(FileName(StorePrefix, 1), 1)], 1, map[], s.hints, s.maxSize)
  }

  /** Truncation as intended: the hint files go with the data files. */
  function Truncate(s: Store): (r: Store)
    ensures r.files.Keys == {1} && r.head == 1 && r.index == map[] && r.hints == map[]
  {
    Store(map[1 := CreateActive(FileName(StorePrefix, 1), 1)], 1, map[], map[], s.maxSize)
  }

  /** Room for one more record in the head without any uint or ushort wrap:
      the file stays below 4 GiB, the serial counter and the next head id do
      not overflow. */
  predicate Room(s: Store, key: Key, value: seq<byte>) {
    && s.head in s.files
    && |s.files[s.head].bytes| + HEADER_SIZE + |key| + |value| < TWO32
    && s.files[s.head].serial + 1 < TWO32
    && s.head + 1 < TWO16
  }

  /** One `Write(KeyValuePair)` on a sound head file: the file stays sound,
      its serial counter stays at or above its serials, its key scan gains
      exactly the new item, and the new item reads back the value. */
  lemma HeadWrite(H: Hasher, f: Segment, key: Key, value: seq<byte>)
    requires FileOk(H, f) && f.writable && !f.disposed
    requires forall i :: 0 <= i < |Frames(f.bytes)| ==> Frames(f.bytes)[i].serial <= f.serial
    requires |f.bytes| + HEADER_SIZE + |key| + |value| < TWO32 && f.serial + 1 < TWO32
    ensures WriteValue(f, H, key, value).Ok?
    ensures var (g, info) := WriteValue(f, H, key, value).value;
      && FileOk(H, g) && g.id == f.id && g.writable && !g.disposed
      && (forall i :: 0 <= i < |Frames(g.bytes)| ==> Frames(g.bytes)[i].serial <= g.serial)
      && Items(g) == Items(f) + [Entry(key, info)]
      && info.fileId == f.id && info.valueSize == |value|
      && ValueAt(g, info) == Some(value)
      && forall other :: ValueAt(f, other).Some? ==> ValueAt(g, other) == ValueAt(f, other)
  {
    var (g, info) := WriteValue(f, H, key, value).value;
    var fr := FrameOf(|f.bytes|, RecordHash(H, key, value), info.serial, key, value);
    WriteThenGetKeys(f, H, key, value);
    WriteThenRead(f, H, key, value, info);
    AppendFrameOk(H, Frames(f.bytes), fr);
    forall other | ValueAt(f, other).Some? ensures ValueAt(g, other) == ValueAt(f, other) {
      WriteThenRead(f, H, key, value, other);
    }
    var gs := Frames(g.bytes);
    forall i | 0 <= i < |gs| ensures gs[i].serial <= g.serial {
      if i < |Frames(f.bytes)| {
        assert gs[i] == Frames(f.bytes)[i];
      }
    }
  }

  /** A write to the head keeps the store's shape and the head serial bound. */
  lemma WriteHeadShape(s: Store, g: Segment, key: Key, info: KeyInfo)
    requires Shape(s)
    requires Exact(g.bytes) && g.id == s.head && g.writable && !g.disposed
    requires forall i :: 0 <= i < |Frames(g.bytes)| ==> Frames(g.bytes)[i].serial <= g.serial
    ensures Shape(Appended(s, g, key, info)) && HeadSerial(Appended(s, g, key, info))
  {
  }

  /** A write to the head keeps every file sound. */
  lemma WriteHeadFiles(s: Store, H: Hasher, g: Segment, key: Key, info: KeyInfo)
    requires FilesOk(H, s) && s.head in s.files && FileOk(H, g)
    ensures FilesOk(H, Appended(s, g, key, info))
  {
  }

  /** A write to the head leaves the hint files of the archives in place. */
  lemma WriteHeadHints(s: Store, maxKeySize: nat, g: Segment, key: Key, info: KeyInfo)
    requires HintsOk(s, maxKeySize)
    ensures HintsOk(Appended(s, g, key, info), maxKeySize)
  {
  }

  /** The view after a write to the head: only `key` changes, to the new
      value or to absent for a deletion marker. */
  lemma WriteHeadObserve(s: Store, g: Segment, key: Key, value: seq<byte>, info: KeyInfo)
    requires Readable(s) && s.head in s.files
    requires ValueAt(g, info) == Some(value) && info.valueSize == |value| && info.fileId == s.head
    requires forall other :: ValueAt(s.files[s.head], other).Some? ==> ValueAt(g, other) == ValueAt(s.files[s.head], other)
    ensures Observe(Appended(s, g, key, info)) == (if |value| > 0 then Observe(s)[key := Some(value)] else Observe(s) - {key})
  {
    var u := Appended(s, g, key, info);
    var want := if |value| > 0 then Observe(s)[key := Some(value)] else Observe(s) - {key};
    assert u.index.Keys == want.Keys;
    forall k | k in u.index ensures Observe(u)[k] == want[k] {
      if k != key {
        assert u.index[k] == s.index[k];
      }
    }
  }

  /** Appending one record to the head of a valid store keeps it valid and
      adds the record's key item to the log. */
  lemma WriteHeadValid(s: Store, H: Hasher, maxKeySize: nat, key: Key, value: seq<byte>, g: Segment, info: KeyInfo)
    requires Valid(s, H, maxKeySize) && Room(s, key, value)
    requires WriteValue(s.files[s.head], H, key, value) == Ok((g, info))
    ensures Valid(Appended(s, g, key, info), H, maxKeySize)
    ensures Log(Appended(s, g, key, info)) == Log(s) + [Entry(key, info)]
    ensures info.fileId == s.head && info.valueSize == |value|
  {
    var f := s.files[s.head];
    assert FileOk(H, f);
    HeadWrite(H, f, key, value);
    WriteHeadShape(s, g, key, info);
    WriteHeadFiles(s, H, g, key, info);
    WriteHeadHints(s, maxKeySize, g, key, info);
    LogAfterHead(s, Appended(s, g, key, info), Items(g), [Entry(key, info)]);
    ReplaySnoc(map[], Log(s), Entry(key, info));
  }

  /** Appending one record to the head of a valid store changes the observed
      view only at that key: to the new value, or to absent for a deletion
      marker. */
  lemma WriteHeadView(s: Store, H: Hasher, maxKeySize: nat, key: Key, value: seq<byte>, g: Segment, info: KeyInfo)
    requires Valid(s, H, maxKeySize) && Room(s, key, value)
    requires WriteValue(s.files[s.head], H, key, value) == Ok((g, info))
    ensures Observe(Appended(s, g, key, info)) == (if |value| > 0 then Observe(s)[key := Some(value)] else Observe(s) - {key})
  {
    var f := s.files[s.head];
    assert FileOk(H, f);
    HeadWrite(H, f, key, value);
    ValidReadable(s, H, maxKeySize);
    WriteHeadObserve(s, g, key, value, info);
  }

  /** Replacing the head by a file whose key items extend the old head's
      extends the log by the same items. */
  lemma LogAfterHead(s: Store, u: Store, items: seq<Entry>, extra: seq<Entry>)
    requires Shape(s) && u.head == s.head && u.files.Keys == s.files.Keys
    requires forall id | id in s.files && id != s.head :: u.files[id] == s.files[id]
    requires items == Items(u.files[s.head]) && items == Items(s.files[s.head]) + extra
    ensures Log(u) == Log(s) + extra
  {
    var ids := Ascending(s.files.Keys);
    AscendingLast(s.files.Keys, s.head);
    assert ids[..|ids| - 1] == Ascending(s.files.Keys - {s.head});
    LogAfterHeadKeep(s, u);
    LogOfReplaceLast(s.files, u.files, ids, s.head, extra);
  }

  /** The files other than the head log the same items after a head write. */
  lemma LogAfterHeadKeep(s: Store, u: Store)
    requires Shape(s) && u.files.Keys == s.files.Keys
    requires forall id | id in s.files && id != s.head :: u.files[id] == s.files[id]
    ensures LogOf(u.files, Ascending(s.files.Keys - {s.head})) == LogOf(s.files, Ascending(s.files.Keys - {s.head}))
  {
    var pre := Ascending(s.files.Keys - {s.head});
    forall id | id in pre
      ensures id in s.files && id in u.files && u.files[id] == s.files[id]
    {
    }
    LogOfSame(s.files, u.files, pre);
  }

  /** Rolling over keeps the shape: the new head has the largest id and is
      the only writable file. */
  lemma NewHeadShape(s: Store)
    requires Shape(s) && s.head + 1 < TWO16
    ensures Shape(NewHead(s)) && HeadSerial(NewHead(s))
  {
    EmptyExact();
  }

  /** Rolling over keeps every file sound: the old head keeps its bytes and
      the new head is empty. */
  lemma NewHeadFiles(s: Store, H: Hasher)
    requires Shape(s) && FilesOk(H, s) && s.head + 1 < TWO16
    ensures FilesOk(H, NewHead(s))
  {
    var r := NewHead(s);
    EmptyExact();
    assert FileOk(H, r.files[r.head]);
    forall id | id in r.files ensures FileOk(H, r.files[id]) {
      if id != r.head {
        assert FileOk(H, s.files[id]);
      }
    }
  }

  /** Rolling over keeps every hint file next to an archived file that it
      still describes. */
  lemma NewHeadHints(s: Store, maxKeySize: nat)
    requires Shape(s) && HintsOk(s, maxKeySize) && s.head + 1 < TWO16
    ensures HintsOk(NewHead(s), maxKeySize)
  {
  }

  /** Rolling over appends an empty file to the log's file order, so the log
      stays as it was. */
  lemma NewHeadLog(s: Store)
    requires Shape(s) && s.head + 1 < TWO16
    ensures Log(NewHead(s)) == Log(s)
  {
    var r := NewHead(s);
    var ids := Ascending(s.files.Keys);
    AscendingAdd(s.files.Keys, r.head);
    assert (ids + [r.head])[..|ids|] == ids;
    NewHeadKeep(s);
    EmptyExact();
    assert Items(r.files[r.head]) == [];
  }

  /** The files that were there before a rollover log the same items. */
  lemma NewHeadKeep(s: Store)
    requires Shape(s) && s.head + 1 < TWO16
    ensures LogOf(NewHead(s).files, Ascending(s.files.Keys)) == Log(s)
  {
    var r := NewHead(s);
    var ids := Ascending(s.files.Keys);
    forall id | id in ids
      ensures id in r.files && r.files[id].id == s.files[id].id && r.files[id].bytes == s.files[id].bytes
    {
      if id == s.head {
        assert r.files[id] == OpenArchiveFromActive(s.files[id]);
      } else {
        assert r.files[id] == s.files[id];
      }
    }
    LogOfSame(s.files, r.files, ids);
  }

  /** Rolling over keeps every indexed range readable from the same bytes. */
  lemma NewHeadObserve(s: Store, H: Hasher, maxKeySize: nat)
    requires Valid(s, H, maxKeySize) && s.head + 1 < TWO16
    ensures Observe(NewHead(s)) == Observe(s)
  {
    ValidReadable(s, H, maxKeySize);
    NewHeadResolve(s);
  }

  lemma NewHeadResolve(s: Store)
    requires Readable(s) && Shape(s) && s.head + 1 < TWO16
    ensures Observe(NewHead(s)) == Observe(s)
  {
    var r := NewHead(s);
    assert forall k | k in s.index :: Resolve(r, s.index[k]) == Resolve(s, s.index[k]);
  }

  /** Rolling over keeps a valid store valid with the same log and the same
      observed view; the new head is empty, has the largest id, and the old
      head is archived read-only. */
  lemma NewHeadValid(s: Store, H: Hasher, maxKeySize: nat)
    requires Valid(s, H, maxKeySize) && s.head + 1 < TWO16
    ensures var r := NewHead(s);
      && Valid(r, H, maxKeySize) && Log(r) == Log(s) && Observe(r) == Observe(s)
      && r.head == s.head + 1 && r.files[r.head].bytes == []
      && r.files[s.head] == OpenArchiveFromActive(s.files[s.head])
      && forall id | id in r.files :: id <= r.head
  {
    NewHeadShape(s);
    NewHeadFiles(s, H);
    NewHeadHints(s, maxKeySize);
    NewHeadLog(s);
    NewHeadObserve(s, H, maxKeySize);
  }

  /** `CheckHead` keeps a valid store valid, with the same log and view. */
  lemma CheckHeadValid(s: Store, H: Hasher, maxKeySize: nat)
    requires Valid(s, H, maxKeySize) && s.head + 1 < TWO16
    ensures Valid(CheckHead(s), H, maxKeySize) && Log(CheckHead(s)) == Log(s) && Observe(CheckHead(s)) == Observe(s)
  {
    if Size(s.files[s.head]) >= s.maxSize {
      NewHeadValid(s, H, maxKeySize);
    }
  }

  /** Put with a value: the store stays valid, the log gains the record's
      key item, and afterwards exactly this key observes the new value
      (so a later Get yields it, and an overwrite wins). The head is below
      the maximum size, or it was archived and an empty head with the next
      id, the largest, took over. */
  lemma PutValid(s: Store, H: Hasher, maxKeySize: nat, key: Key, value: seq<byte>)
    requires Valid(s, H, maxKeySize) && Room(s, key, value) && |value| > 0
    ensures Put(s, H, key, value).Ok?
    ensures var r := Put(s, H, key, value).value;
      && Valid(r, H, maxKeySize)
      && Log(r) == Log(s) + [Entry(key, r.index[key])]
      && Observe(r) == Observe(s)[key := Some(value)]
      && (|s.files[s.head].bytes| + HEADER_SIZE + |key| + |value| < s.maxSize ==> r.head == s.head && r.files.Keys == s.files.Keys)
      && (|s.files[s.head].bytes| + HEADER_SIZE + |key| + |value| >= s.maxSize ==>
            r.head == s.head + 1 && r.files.Keys == s.files.Keys + {r.head} && r.files[r.head].bytes == [])
  {
    var f := s.files[s.head];
    var (g, info) := WriteValue(f, H, key, value).value;
    WriteHeadValid(s, H, maxKeySize, key, value, g, info);
    WriteHeadView(s, H, maxKeySize, key, value, g, info);
    PutWrites(s, H, key, value);
    CheckHeadValid(Appended(s, g, key, info), H, maxKeySize);
    PutRolls(s, H, key, value);
  }

  /** Whether a put rolls over: only when the head reaches the maximum size. */
  lemma PutRolls(s: Store, H: Hasher, key: Key, value: seq<byte>)
    requires s.head in s.files && |key| < TWO32 && |value| < TWO32 && |value| > 0 && s.head + 1 < TWO16
    requires WriteValue(s.files[s.head], H, key, value).Ok?
    ensures Put(s, H, key, value).Ok?
    ensures var r := Put(s, H, key, value).value;
      && (|s.files[s.head].bytes| + HEADER_SIZE + |key| + |value| < s.maxSize ==> r.head == s.head && r.files.Keys == s.files.Keys)
      && (|s.files[s.head].bytes| + HEADER_SIZE + |key| + |value| >= s.maxSize ==>
            r.head == s.head + 1 && r.files.Keys == s.files.Keys + {r.head} && r.files[r.head].bytes == [])
  {
    var f := s.files[s.head];
    var (g, info) := WriteValue(f, H, key, value).value;
    PutWrites(s, H, key, value);
    assert Size(g) == |f.bytes| + HEADER_SIZE + |key| + |value|;
  }

  /** A put with a value is a write to the head followed by `CheckHead`. */
  lemma PutWrites(s: Store, H: Hasher, key: Key, value: seq<byte>)
    requires s.head in s.files && |key| < TWO32 && |value| < TWO32 && |value| > 0
    requires WriteValue(s.files[s.head], H, key, value).Ok?
    ensures var (g, info) := WriteValue(s.files[s.head], H, key, value).value;
      && Put(s, H, key, value) == Ok(CheckHead(Appended(s, g, key, info)))
      && Appended(s, g, key, info).index[key] == info
  {
  }

  /** Delete of an indexed key: the store stays valid, one deletion marker
      (empty value) for the key reaches the log, and the key is no longer
      observed while every other key is unaffected. */
  lemma DeleteValid(s: Store, H: Hasher, maxKeySize: nat, key: Key)
    requires Valid(s, H, maxKeySize) && Room(s, key, []) && key in s.index
    ensures Delete(s, H, key).Ok? && Delete(s, H, key).value.1
    ensures var r := Delete(s, H, key).value.0;
      && Valid(r, H, maxKeySize)
      && (exists info: KeyInfo :: info.valueSize == 0 && info.fileId == s.head && Log(r) == Log(s) + [Entry(key, info)])
      && Observe(r) == Observe(s) - {key}
  {
    var (g, info) := WriteValue(s.files[s.head], H, key, []).value;
    WriteHeadValid(s, H, maxKeySize, key, [], g, info);
    WriteHeadView(s, H, maxKeySize, key, [], g, info);
    var u := Appended(s, g, key, info);
    assert u == s.(files := s.files[s.head := g], index := s.index - {key});
    CheckHeadValid(u, H, maxKeySize);
  }

  /** Truncation as intended leaves a valid store in which nothing is observed. */
  lemma TruncateValid(s: Store, H: Hasher, maxKeySize: nat)
    ensures Valid(Truncate(s), H, maxKeySize) && Observe(Truncate(s)) == map[] && Count(Truncate(s)) == 0
  {
    var r := Truncate(s);
    EmptyExact();
    assert FileOk(H, r.files[1]);
    assert r.files.Keys == {1};
    IncreasingUnique(Ascending(r.files.Keys), [1]);
    assert Log(r) == LogOf(r.files, []) + Items(r.files[1]);
  }

  /** A delete whose head write throws still hides the key: it is no longer
      readable, every other key reads as before, and the count drops by one. */
  lemma DeleteFailedObserve(s: Store, H: Hasher, key: Key)
    requires s.head in s.files && |key| < TWO32 && key in s.index && Delete(s, H, key).Err?
    ensures Observe(DeleteFailed(s, key)) == Observe(s) - {key}
    ensures Count(DeleteFailed(s, key)) == Count(s) - 1
  {
    var r := DeleteFailed(s, key);
    WriteFailedSerial(s.files[s.head], H, key, []);
    assert forall k | k in r.index :: Resolve(r, r.index[k]) == Resolve(s, s.index[k]);
    assert Observe(r).Keys == Observe(s).Keys - {key};
  }

  /** A put whose head write throws changes nothing a client can read. */
  lemma PutFailedObserve(s: Store, H: Hasher, key: Key, value: seq<byte>)
    requires s.head in s.files && |key| < TWO32 && |value| < TWO32 && |value| > 0 && Put(s, H, key, value).Err?
    ensures Observe(PutFailed(s)) == Observe(s) && Count(PutFailed(s)) == Count(s)
  {
    var r := PutFailed(s);
    WriteFailedSerial(s.files[s.head], H, key, value);
    ObserveSame(r, s);
  }
}

=== FILE: firkin_stream.dfy ===
/** FirkinStream: a forward-only view of a value's byte range inside a segment,
    buffered ("memorized") into chunks of at most 16 KiB. */
module FirkinStream {
  import opened Bytes
  import opened Wrappers

  const BUFFER_SIZE: nat := 16 * 1024

  /** The stream's state. `source` is the segment's content and `sourceDisposed`
      its disposal flag; `position` is the absolute read position in the segment;
      `current`, `currentPosition`, `chunks` and `chunkIndex` are the buffered
      chunks and the read cursor over them. */
  datatype ValueStream = ValueStream(
    source: seq<byte>,
    sourceDisposed: bool,
    offset: nat,
    length: nat,
    position: nat,
    current: seq<byte>,
    currentPosition: nat,
    chunks: seq<seq<byte>>,
    chunkIndex: nat,
    memorized: bool,
    disposed: bool)

  /** The concatenation of a list of chunks. */
  function Flatten(cs: seq<seq<byte>>): seq<byte> {
    if |cs| == 0 then [] else Flatten(cs[..|cs| - 1]) + cs[|cs| - 1]
  }

  /** The bytes `[offset, offset+length)` the stream presents, when they lie inside the segment. */
  function Range(s: ValueStream): Option<seq<byte>> {
    Slice(s.source, s.offset, s.length)
  }

  /** `length` bytes of `bytes` from `offset`, when they are all there. */
  function Slice(bytes: seq<byte>, offset: nat, length: nat): Option<seq<byte>> {
    if length == 0 then Some([])
    else if offset + length <= |bytes| then Some(bytes[offset..offset + length])
    else None
  }

  predicate IsDisposed(s: ValueStream) {
    s.sourceDisposed || s.disposed
  }

  /** `Length`: fixed at construction. */
  function Length(s: ValueStream): nat {
    s.length
  }

  /** `Position`: the internal position relative to the start of the range. */
  function Position(s: ValueStream): int {
    s.position - s.offset
  }

  /** The members a FirkinStream does not support. */
  datatype Unsupported = SetPosition | Seek | SetLength | Write | Flush

  /** `CanRead`, `CanSeek`, `CanWrite`. */
  const CAN_READ := true
  const CAN_SEEK := false
  const CAN_WRITE := false

  /** Every unsupported member throws NotImplementedException. */
  function Invoke(s: ValueStream, op: Unsupported): (r: Result<ValueStream>)
    ensures r == Err(NotImplemented)
  {
    Err(NotImplemented)
  }

  /** `Dispose()`: marks only this stream disposed. */
  function Dispose(s: ValueStream): (r: ValueStream)
    ensures IsDisposed(r) && r.source == s.source && r.chunks == s.chunks
  {
    s.(disposed := true)
  }

  /** Two states of one stream: same segment bytes, range and disposal flags. */
  predicate SameRange(a: ValueStream, b: ValueStream) {
    && a.source == b.source && a.offset == b.offset && a.length == b.length
    && a.sourceDisposed == b.sourceDisposed && a.disposed == b.disposed
  }

  /** `Memorize()`: buffers the whole range in chunks of at most BUFFER_SIZE bytes.
      The source's loop never returns when the segment ends inside the range
      (the read returns 0 forever); that outcome is `Diverges` here. */
  method Memorize(s: ValueStream) returns (r: Result<ValueStream>)
    ensures s.memorized ==> r == Ok(s)
    ensures !s.memorized && s.offset != s.position ==> r == Err(InvalidOperation)
    ensures !s.memorized && s.offset == s.position && IsDisposed(s) ==> r == Err(ObjectDisposed)
    ensures !s.memorized && s.offset == s.position && !IsDisposed(s) ==>
      (r.Ok? <==> Range(s).Some?)
    ensures !s.memorized && r.Ok? ==>
      && r.value.memorized
      && Range(s).Some? && Flatten(r.value.chunks) == Range(s).value
      && (forall i :: 0 <= i < |r.value.chunks| ==> 0 < |r.value.chunks[i]| <= BUFFER_SIZE)
      && Position(r.value) == s.length
      && r.value.chunkIndex == 0 && r.value.currentPosition == 0
      && (s.length > 0 ==> r.value.current == r.value.chunks[0])
      && SameRange(r.value, s)
    ensures !s.memorized && r.Err? && s.offset == s.position && !IsDisposed(s) ==> r.error == Diverges
  {
    if s.memorized {
      return Ok(s);
    }
    if s.offset != s.position {
      return Err(InvalidOperation);
    }
    if IsDisposed(s) {
      return Err(ObjectDisposed);
    }
    var chunks: seq<seq<byte>> := [];
    var position := s.offset;
    var current := s.current;
    var first := true;
    while position < s.offset + s.length
      invariant s.offset <= position <= s.offset + s.length
      invariant chunks == [] ==> position == s.offset
      invariant chunks != [] ==> position <= |s.source| && Flatten(chunks) == s.source[s.offset..position]
      invariant forall i :: 0 <= i < |chunks| ==> 0 < |chunks[i]| <= BUFFER_SIZE
      invariant first <==> chunks == []
      invariant !first ==> current == chunks[0]
      decreases s.offset + s.length - position
    {
      var size := Min(BUFFER_SIZE, s.offset + s.length - position);
      var read := Min(size, |s.source| - position);
      if read <= 0 {
        return Err(Diverges);
      }
      var buffer := s.source[position..position + read];
      if read < size {
        // The buffer is only partly filled; the next read is at the end of
        // the segment, returns 0 and the loop spins from then on.
        return Err(Diverges);
      }
      if first {
        current := buffer;
        first := false;
      }
      assert Flatten(chunks + [buffer]) == Flatten(chunks) + buffer by {
        assert (chunks + [buffer])[..|chunks|] == chunks;
      }
      assert position + read <= |s.source|;
      assert s.source[s.offset..position] + buffer == s.source[s.offset..position + read];
      assert chunks == [] ==> Flatten(chunks) + buffer == s.source[s.offset..position + read];
      chunks := chunks + [buffer];
      position := position + read;
    }
    return Ok(s.(chunks := chunks, current := current, position := position, memorized := true,
                 chunkIndex := 0, currentPosition := 0));
  }
}

module FirkinStreamRead {
  import opened Bytes
  import opened Wrappers
  import opened FirkinStream

  /** Byte offset of chunk i within the flattened chunks. */
  function Off(cs: seq<seq<byte>>, i: nat): nat
    requires i <= |cs|
  {
    |Flatten(cs[..i])|
  }

  lemma FlattenStep(cs: seq<seq<byte>>, i: nat)
    requires i < |cs|
    ensures Flatten(cs[..i + 1]) == Flatten(cs[..i]) + cs[i]
  {
    assert cs[..i + 1][..i] == cs[..i];
  }

  lemma {:induction false} FlattenPrefix(cs: seq<seq<byte>>, j: nat)
    requires j <= |cs|
    ensures |Flatten(cs[..j])| <= |Flatten(cs)|
    ensures Flatten(cs)[..|Flatten(cs[..j])|] == Flatten(cs[..j])
    decreases |cs| - j
  {
    if j == |cs| {
      assert cs[..j] == cs;
    } else {
      FlattenPrefix(cs, j + 1);
      FlattenStep(cs, j);
    }
  }

  /** Inside chunk i, the flattened bytes are the chunk's own bytes. */
  lemma ChunkSlice(cs: seq<seq<byte>>, i: nat, a: nat, b: nat)
    requires i < |cs| && a <= b <= |cs[i]|
    ensures Off(cs, i) + b <= |Flatten(cs)|
    ensures Flatten(cs)[Off(cs, i) + a..Off(cs, i) + b] == cs[i][a..b]
  {
    FlattenPrefix(cs, i + 1);
    FlattenStep(cs, i);
    var f, q := Flatten(cs), Flatten(cs[..i]);
    PrefixSlice(f, q + cs[i], |q| + a, |q| + b);
    SuffixSlice(q, cs[i], a, b);
  }

  lemma PrefixSlice(f: seq<byte>, p: seq<byte>, a: nat, b: nat)
    requires |p| <= |f| && f[..|p|] == p && a <= b <= |p|
    ensures f[a..b] == p[a..b]
  {
    assert forall k :: 0 <= k < b - a ==> f[a..b][k] == f[a + k] == p[a + k] == p[a..b][k];
  }

  lemma SuffixSlice(q: seq<byte>, c: seq<byte>, a: nat, b: nat)
    requires a <= b <= |c|
    ensures (q + c)[|q| + a..|q| + b] == c[a..b]
  {
    assert forall k :: 0 <= k < b - a ==> (q + c)[|q| + a..|q| + b][k] == c[a..b][k];
  }

  /** The states `Read` works on: memorized, non-empty chunks, and a cursor
      either inside a chunk or past the last one. */
  predicate Readable(s: ValueStream) {
    && s.memorized
    && |s.chunks| > 0
    && (forall i :: 0 <= i < |s.chunks| ==> |s.chunks[i]| > 0)
    && (s.chunkIndex < |s.chunks| ==> s.current == s.chunks[s.chunkIndex] && s.currentPosition <= |s.current|)
    && (s.chunkIndex >= |s.chunks| ==> s.current == s.chunks[|s.chunks| - 1] && s.currentPosition == |s.current|)
  }

  /** Total buffered bytes. */
  function Total(s: ValueStream): nat {
    |Flatten(s.chunks)|
  }

  /** How many bytes reads have delivered so far. */
  function Consumed(s: ValueStream): nat
    requires Readable(s)
  {
    if s.chunkIndex < |s.chunks| then Off(s.chunks, s.chunkIndex) + s.currentPosition else Total(s)
  }

  lemma ConsumedBound(s: ValueStream)
    requires Readable(s)
    ensures Consumed(s) <= Total(s)
  {
    if s.chunkIndex < |s.chunks| {
      ChunkSlice(s.chunks, s.chunkIndex, s.currentPosition, s.currentPosition);
    }
  }

  /** A freshly memorized non-empty stream is readable from its first byte. */
  lemma MemorizedIsReadable(s: ValueStream, r: ValueStream)
    requires r.memorized && r.chunkIndex == 0 && r.currentPosition == 0
    requires |r.chunks| > 0 && r.current == r.chunks[0]
    requires forall i :: 0 <= i < |r.chunks| ==> 0 < |r.chunks[i]|
    ensures Readable(r) && Consumed(r) == 0
  {
  }

  /** Moves the cursor off an exhausted chunk: to the start of the next
      chunk, or past the last one. */
  function Advance(st: ValueStream): (r: ValueStream)
    requires Readable(st) && st.currentPosition == |st.current|
    ensures Readable(r) && SameRange(r, st) && r.chunks == st.chunks
    ensures Consumed(r) == Consumed(st)
    ensures r.chunkIndex >= |r.chunks| <==> Consumed(r) == Total(r)
    ensures r.chunkIndex < |r.chunks| ==> r.currentPosition < |r.current|
  {
    if st.chunkIndex + 1 >= |st.chunks| then
      AdvancePast(st);
      st.(chunkIndex := st.chunkIndex + 1)
    else
      AdvanceNext(st);
      st.(chunkIndex := st.chunkIndex + 1, currentPosition := 0, current := st.chunks[st.chunkIndex + 1])
  }

  /** Leaving the last chunk: every buffered byte has been consumed. */
  lemma AdvancePast(st: ValueStream)
    requires Readable(st) && st.currentPosition == |st.current| && st.chunkIndex + 1 >= |st.chunks|
    ensures var r := st.(chunkIndex := st.chunkIndex + 1);
      Readable(r) && Consumed(r) == Consumed(st) && Consumed(r) == Total(r)
  {
    var i := st.chunkIndex;
    if i < |st.chunks| {
      FlattenStep(st.chunks, i);
      assert st.chunks[..i + 1] == st.chunks;
    }
  }

  /** Moving to the start of the next chunk consumes nothing. */
  lemma AdvanceNext(st: ValueStream)
    requires Readable(st) && st.currentPosition == |st.current| && st.chunkIndex + 1 < |st.chunks|
    ensures var r := st.(chunkIndex := st.chunkIndex + 1, currentPosition := 0, current := st.chunks[st.chunkIndex + 1]);
      Readable(r) && Consumed(r) == Consumed(st) && Consumed(r) < Total(r)
  {
    var i := st.chunkIndex;
    FlattenStep(st.chunks, i);
    ChunkSlice(st.chunks, i + 1, 0, |st.chunks[i + 1]|);
  }

  /** Moves the cursor k bytes forward inside the current chunk; those k
      bytes are the next k bytes of the flattened buffer. */
  function Take(st: ValueStream, k: nat): (r: ValueStream)
    requires Readable(st) && st.chunkIndex < |st.chunks| && st.currentPosition + k <= |st.current|
    ensures Readable(r) && SameRange(r, st) && r.chunks == st.chunks
    ensures Consumed(r) == Consumed(st) + k <= Total(st)
    ensures Flatten(st.chunks)[Consumed(st)..Consumed(r)] == st.current[st.currentPosition..st.currentPosition + k]
  {
    ChunkSlice(st.chunks, st.chunkIndex, st.currentPosition, st.currentPosition + k);
    st.(currentPosition := st.currentPosition + k)
  }

  /** `Array.Copy` into `buf` at `at`. */
  function Blit(buf: seq<byte>, at: nat, piece: seq<byte>): (r: seq<byte>)
    requires at + |piece| <= |buf|
    ensures |r| == |buf|
    ensures r[..at] == buf[..at] && r[at..at + |piece|] == piece && r[at + |piece|..] == buf[at + |piece|..]
  {
    buf[..at] + piece + buf[at + |piece|..]
  }

  /** `r` is `base` with `mid` written at `at`. */
  predicate Written(r: seq<byte>, base: seq<byte>, at: nat, mid: seq<byte>) {
    && |r| == |base| && at + |mid| <= |base|
    && r[..at] == base[..at]
    && r[at..at + |mid|] == mid
    && r[at + |mid|..] == base[at + |mid|..]
  }

  lemma WrittenExtend(r: seq<byte>, base: seq<byte>, at: nat, mid: seq<byte>, piece: seq<byte>)
    requires Written(r, base, at, mid) && at + |mid| + |piece| <= |base|
    ensures Written(Blit(r, at + |mid|, piece), base, at, mid + piece)
  {
    var r' := Blit(r, at + |mid|, piece);
    var e := at + |mid|;
    assert r'[..at] == r'[..e][..at];
    assert r[..at] == r[..e][..at];
    assert r'[at..e + |piece|] == r'[at..e] + r'[e..e + |piece|];
    assert r'[at..e] == r'[..e][at..];
    assert r[at..e] == r[..e][at..];
    assert r'[e + |piece|..] == r[e + |piece|..];
    assert r[e + |piece|..] == r[e..][|piece|..];
  }

  lemma WrittenAdvance(r: seq<byte>, base: seq<byte>, at: nat, flat: seq<byte>, c0: nat, c1: nat, c2: nat)
    requires c0 <= c1 <= c2 <= |flat|
    requires Written(r, base, at, flat[c0..c1]) && at + (c2 - c0) <= |base|
    ensures Written(Blit(r, at + (c1 - c0), flat[c1..c2]), base, at, flat[c0..c2])
  {
    WrittenExtend(r, base, at, flat[c0..c1], flat[c1..c2]);
    SliceConcat(flat, c0, c1, c2);
  }

  lemma SliceConcat(x: seq<byte>, a: nat, b: nat, c: nat)
    requires a <= b <= c <= |x|
    ensures x[a..c] == x[a..b] + x[b..c]
  {
  }

  lemma WrittenShape(r: seq<byte>, base: seq<byte>, at: nat, mid: seq<byte>)
    requires Written(r, base, at, mid)
    ensures r == base[..at] + mid + base[at + |mid|..]
  {
    assert r == r[..at] + r[at..at + |mid|] + r[at + |mid|..];
  }

  /** The copying half of one turn of `Read`'s loop: copies as much of
      `count` as the current chunk still holds into `buf` at `pos`, just past
      what earlier turns wrote (`Written(buf, base, at, ..)`). */
  method CopyStep(st: ValueStream, buf: seq<byte>, pos: nat, count: int, ghost base: seq<byte>, ghost at: nat, ghost start: nat)
    returns (next: ValueStream, buf': seq<byte>, copied: nat)
    requires Readable(st) && count > 0 && st.chunkIndex < |st.chunks| && st.currentPosition < |st.current|
    requires start <= Consumed(st) <= Total(st)
    requires Written(buf, base, at, Flatten(st.chunks)[start..Consumed(st)]) && pos == at + (Consumed(st) - start)
    requires pos + Min(count, Total(st) - Consumed(st)) <= |base|
    ensures Readable(next) && SameRange(next, st) && next.chunks == st.chunks
    ensures 0 < copied <= count && Consumed(next) == Consumed(st) + copied <= Total(st)
    ensures Written(buf', base, at, Flatten(st.chunks)[start..Consumed(next)])
  {
    copied := Min(count, |st.current| - st.currentPosition);
    var piece := st.current[st.currentPosition..st.currentPosition + copied];
    ghost var c1, flat := Consumed(st), Flatten(st.chunks);
    next := Take(st, copied);
    assert Consumed(next) == c1 + copied <= Total(st);
    assert piece == flat[c1..c1 + copied];
    assert at + (c1 + copied - start) <= |base|;
    WrittenAdvance(buf, base, at, flat, start, c1, c1 + copied);
    buf' := Blit(buf, pos, piece);
  }

  /** One turn of `Read`'s loop: move to the next chunk if the current one
      is used up (stopping when none is left), then copy. */
  method ReadStep(st: ValueStream, buf: seq<byte>, pos: nat, count: int, ghost base: seq<byte>, ghost at: nat, ghost start: nat)
    returns (next: ValueStream, buf': seq<byte>, copied: nat, done: bool)
    requires Readable(st) && count > 0
    requires start <= Consumed(st) <= Total(st)
    requires Written(buf, base, at, Flatten(st.chunks)[start..Consumed(st)]) && pos == at + (Consumed(st) - start)
    requires pos + Min(count, Total(st) - Consumed(st)) <= |base|
    ensures Readable(next) && SameRange(next, st) && next.chunks == st.chunks
    ensures done <==> Consumed(st) == Total(st)
    ensures done ==> copied == 0 && Consumed(next) == Consumed(st)
    ensures !done ==> 0 < copied <= count && Consumed(next) == Consumed(st) + copied <= Total(st)
    ensures Written(buf', base, at, Flatten(st.chunks)[start..Consumed(next)])
  {
    next := st;
    if next.currentPosition == |next.current| {
      next := Advance(next);
      if next.chunkIndex >= |next.chunks| {
        return next, buf, 0, true;
      }
    }
    ConsumedBound(st);
    next, buf', copied := CopyStep(next, buf, pos, count, base, at, start);
    done := false;
  }

  /** `Read(buffer, offset, count)`: copies the next min(count, remaining)
      buffered bytes into `buffer[offset..]` and returns how many it copied. */
  method Read(s: ValueStream, buffer: seq<byte>, offset: nat, count: int)
    returns (after: ValueStream, result: seq<byte>, read: nat)
    requires Readable(s)
    requires offset + Min(if count < 0 then 0 else count, Total(s) - Consumed(s)) <= |buffer|
    ensures Readable(after) && SameRange(after, s) && after.chunks == s.chunks
    ensures read == Min(if count < 0 then 0 else count, Total(s) - Consumed(s))
    ensures Consumed(after) == Consumed(s) + read
    ensures Written(result, buffer, offset, Flatten(s.chunks)[Consumed(s)..Consumed(s) + read])
  {
    ConsumedBound(s);
    after := s;
    result := buffer;
    var cnt := count;
    read := 0;
    ghost var start := Consumed(s);
    while cnt > 0
      invariant Readable(after) && SameRange(after, s) && after.chunks == s.chunks
      invariant start <= Consumed(after) == start + read <= Total(s)
      invariant cnt == count - read
      invariant count > 0 ==> cnt >= 0
      invariant read <= Min(if count < 0 then 0 else count, Total(s) - start)
      invariant Written(result, buffer, offset, Flatten(s.chunks)[start..Consumed(after)])
      decreases cnt
    {
      var done, copied;
      after, result, copied, done := ReadStep(after, result, offset + read, cnt, buffer, offset, start);
      if done {
        break;
      }
      read := read + copied;
      cnt := cnt - copied;
    }
  }

  /** The constructor: a stream over `[offset, offset+length)` of a segment,
      memorized at once when the range fits in one buffer. */
  method Open(source: seq<byte>, sourceDisposed: bool, offset: nat, length: nat) returns (r: Result<ValueStream>)
    ensures length > BUFFER_SIZE ==> r.Ok? && !r.value.memorized && Position(r.value) == 0
    ensures r.Ok? ==> r.value.source == source && r.value.offset == offset && Length(r.value) == length && !IsDisposed(r.value) == !sourceDisposed
    ensures length <= BUFFER_SIZE && sourceDisposed ==> r == Err(ObjectDisposed)
    ensures length <= BUFFER_SIZE && !sourceDisposed ==> (r.Ok? <==> offset + length <= |source| || length == 0)
    ensures length <= BUFFER_SIZE && r.Ok? ==> r.value.memorized && Flatten(r.value.chunks) == (if length == 0 then [] else source[offset..offset + length])
    ensures 0 < length <= BUFFER_SIZE && r.Ok? ==> Readable(r.value) && Consumed(r.value) == 0 && Total(r.value) == length
  {
    var s := ValueStream(source, sourceDisposed, offset, length, offset, [], 0, [], 0, false, false);
    if length <= BUFFER_SIZE {
      r := Memorize(s);
      if r.Ok? && length > 0 {
        MemorizedIsReadable(s, r.value);
      }
    } else {
      r := Ok(s);
    }
  }

  /** Opening a small value's stream and reading it to the end yields exactly
      the value's bytes. */
  method ReadToEnd(source: seq<byte>, offset: nat, length: nat) returns (r: Result<seq<byte>>)
    requires length <= BUFFER_SIZE
    ensures r.Ok? <==> offset + length <= |source| || length == 0
    ensures r.Ok? ==> r.value == (if length == 0 then [] else source[offset..offset + length])
  {
    var o := Open(source, false, offset, length);
    if o.Err? {
      return Err(o.error);
    }
    if length == 0 {
      return Ok([]);
    }
    var after, buffer, read := Read(o.value, Zeros(length), 0, length);
    WrittenShape(buffer, Zeros(length), 0, Flatten(o.value.chunks)[0..length]);
    return Ok(buffer);
  }
}

=== FILE: hint_file.dfy ===
/** FirkinHintFile: the companion file a merge writes next to each output
    segment, one entry per copied record, so that startup can rebuild the
    index without scanning values. */
module HintFiles {
  import opened Bytes
  import opened Wrappers
  import opened Layout
  import opened KeyInfos
  import Records

  /** `WriteHint`'s bytes: serial, key length (cast to uint), value size and
      value position, little-endian, then the key. */
  function EncodeHint(serial: u32, key: seq<byte>, valueSize: u32, valuePosition: u32): (r: seq<byte>)
    ensures |r| == HINT_HEADER_SIZE + |key|
  {
    LE32(serial) + LE32(Wrap32(|key|)) + LE32(valueSize) + LE32(valuePosition) + key
  }

  /** `WriteHint(record, valuePosition)`: appends one entry to the hint file. */
  function WriteHint(hint: seq<byte>, serial: u32, key: seq<byte>, valueSize: u32, valuePosition: u32): (r: seq<byte>)
    ensures |r| == |hint| + HINT_HEADER_SIZE + |key| && r[..|hint|] == hint
  {
    hint + EncodeHint(serial, key, valueSize, valuePosition)
  }

  /** Reads one entry at `pos` (before the end of the file). The serial and
      key length are read first; a key length above `maxKeySize` is reported
      as a corrupt key before the other two fields are read. */
  function HintStep(bytes: seq<byte>, pos: nat, maxKeySize: nat): (r: Result<(HintRecord, nat)>)
    requires pos < |bytes|
    ensures r.Ok? ==> pos < r.value.1
  {
    var header := bytes[pos..Min(pos + HINT_HEADER_SIZE, |bytes|)];
    var serial :- Records.ToUInt32(header, HINT_SERIAL_OFFSET);
    var keySize :- Records.ToUInt32(header, HINT_KEY_SIZE_OFFSET);
    if keySize > maxKeySize then Err(CorruptKey)
    else
      var valueSize :- Records.ToUInt32(header, HINT_VALUE_SIZE_OFFSET);
      var valuePosition :- Records.ToUInt32(header, HINT_VALUE_POSITION_OFFSET);
      var keyStart := pos + HINT_HEADER_SIZE;
      var key := bytes[keyStart..Min(keyStart + keySize, |bytes|)];
      Ok((HintRecord(key, keySize, serial, valueSize, valuePosition), keyStart + |key|))
  }

  /** The hint enumerator from byte `pos`: an empty header read ends it,
      any exception aborts it. */
  function Hints(bytes: seq<byte>, pos: nat, maxKeySize: nat): Result<seq<HintRecord>>
    decreases if pos <= |bytes| then |bytes| - pos else 0
  {
    if pos >= |bytes| then Ok([])
    else
      var (h, next) :- HintStep(bytes, pos, maxKeySize);
      var rest :- Hints(bytes, next, maxKeySize);
      Ok([h] + rest)
  }

  /** Enumerating a hint file from its start. */
  function Decode(bytes: seq<byte>, maxKeySize: nat): Result<seq<HintRecord>> {
    Hints(bytes, 0, maxKeySize)
  }

  /** The key was read in full. */
  predicate KeyComplete(h: HintRecord) {
    |h.key| == h.keySize
  }

  predicate AllKeysComplete(hs: seq<HintRecord>) {
    forall i :: 0 <= i < |hs| ==> KeyComplete(hs[i])
  }

  /** The entries a sequence of `WriteHint` calls leaves in a fresh file. */
  function EncodeAll(hs: seq<HintRecord>): (r: seq<byte>)
    decreases |hs|
  {
    if |hs| == 0 then []
    else
      var h := hs[|hs| - 1];
      EncodeAll(hs[..|hs| - 1]) + EncodeHint(h.serial, h.key, h.valueSize, h.valuePosition)
  }

  /** A hint record as written: its key length is the key's. */
  predicate Writable(h: HintRecord, maxKeySize: nat) {
    |h.key| < TWO32 && h.keySize == |h.key| && |h.key| <= maxKeySize
  }

  /** An encoded entry at the end of the file reads back. */
  lemma HintStepOne(s: seq<byte>, serial: u32, key: seq<byte>, valueSize: u32, valuePosition: u32, maxKeySize: nat)
    requires |key| < TWO32
    ensures var t := s + EncodeHint(serial, key, valueSize, valuePosition);
      |key| <= maxKeySize ==>
        HintStep(t, |s|, maxKeySize) == Ok((HintRecord(key, |key|, serial, valueSize, valuePosition), |t|))
    ensures var t := s + EncodeHint(serial, key, valueSize, valuePosition);
      |key| > maxKeySize ==> HintStep(t, |s|, maxKeySize) == Err(CorruptKey)
  {
    var e := EncodeHint(serial, key, valueSize, valuePosition);
    var t := s + e;
    var header := LE32(serial) + LE32(|key|) + LE32(valueSize) + LE32(valuePosition);
    assert e == header + key;
    assert t[|s|..Min(|s| + HINT_HEADER_SIZE, |t|)] == header;
    Records.ToUInt32RoundTrip([], serial, LE32(|key|) + LE32(valueSize) + LE32(valuePosition));
    assert header == [] + LE32(serial) + (LE32(|key|) + LE32(valueSize) + LE32(valuePosition));
    Records.ToUInt32RoundTrip(LE32(serial), |key|, LE32(valueSize) + LE32(valuePosition));
    assert header == LE32(serial) + LE32(|key|) + (LE32(valueSize) + LE32(valuePosition));
    Records.ToUInt32RoundTrip(LE32(serial) + LE32(|key|), valueSize, LE32(valuePosition));
    Records.ToUInt32RoundTrip(LE32(serial) + LE32(|key|) + LE32(valueSize), valuePosition, []);
    assert header == LE32(serial) + LE32(|key|) + LE32(valueSize) + LE32(valuePosition) + [];
    assert t[|s| + HINT_HEADER_SIZE..Min(|s| + HINT_HEADER_SIZE + |key|, |t|)] == key;
  }

  /** A complete entry inside the file reads the same after more bytes follow. */
  lemma HintStepPrefix(s: seq<byte>, e: seq<byte>, pos: nat, maxKeySize: nat)
    requires pos < |s| && HintStep(s, pos, maxKeySize).Ok? && KeyComplete(HintStep(s, pos, maxKeySize).value.0)
    ensures HintStep(s, pos, maxKeySize).value.1 <= |s|
    ensures HintStep(s + e, pos, maxKeySize) == HintStep(s, pos, maxKeySize)
  {
    var t := s + e;
    var header := s[pos..Min(pos + HINT_HEADER_SIZE, |s|)];
    assert |header| == HINT_HEADER_SIZE;
    assert t[pos..Min(pos + HINT_HEADER_SIZE, |t|)] == header;
    var keySize := Records.ToUInt32(header, HINT_KEY_SIZE_OFFSET).value;
    var keyStart := pos + HINT_HEADER_SIZE;
    assert keyStart + keySize <= |s|;
    assert t[keyStart..Min(keyStart + keySize, |t|)] == s[keyStart..Min(keyStart + keySize, |s|)];
  }

  /** `items` followed by what `rest` yields, or `rest`'s error. */
  function Then(items: seq<HintRecord>, rest: Result<seq<HintRecord>>): (r: Result<seq<HintRecord>>)
    ensures r.Ok? <==> rest.Ok?
    ensures rest.Err? ==> r == rest
    ensures rest.Ok? ==> r.value == items + rest.value
  {
    if rest.Ok? then Ok(items + rest.value) else rest
  }

  /** One step of the enumerator: the entry at `pos`, then the rest. */
  lemma HintsUnfold(bytes: seq<byte>, pos: nat, maxKeySize: nat)
    requires pos < |bytes| && HintStep(bytes, pos, maxKeySize).Ok?
    ensures Hints(bytes, pos, maxKeySize)
         == Then([HintStep(bytes, pos, maxKeySize).value.0], Hints(bytes, HintStep(bytes, pos, maxKeySize).value.1, maxKeySize))
  {
  }

  /** Enumerating a file whose first part holds whole entries: those entries,
      then whatever the rest yields (or the rest's error). */
  lemma {:induction false} HintsSplit(s: seq<byte>, e: seq<byte>, pos: nat, maxKeySize: nat)
    requires pos <= |s| && Hints(s, pos, maxKeySize).Ok? && AllKeysComplete(Hints(s, pos, maxKeySize).value)
    ensures Hints(s + e, pos, maxKeySize) == Then(Hints(s, pos, maxKeySize).value, Hints(s + e, |s|, maxKeySize))
    decreases |s| - pos
  {
    var t := s + e;
    if pos < |s| {
      var hs := Hints(s, pos, maxKeySize).value;
      var (h, next) := HintStep(s, pos, maxKeySize).value;
      HintsUnfold(s, pos, maxKeySize);
      var tail := Hints(s, next, maxKeySize).value;
      assert hs == [h] + tail;
      assert KeyComplete(hs[0]);
      HintStepPrefix(s, e, pos, maxKeySize);
      assert AllKeysComplete(tail) by {
        forall i | 0 <= i < |tail| ensures KeyComplete(tail[i]) {
          assert tail[i] == hs[i + 1];
        }
      }
      HintsSplit(s, e, next, maxKeySize);
      HintsUnfold(t, pos, maxKeySize);
      ThenAssoc(h, tail, Hints(t, |s|, maxKeySize));
    } else if Hints(t, |s|, maxKeySize).Ok? {
      assert Hints(s, pos, maxKeySize).value == [];
      assert [] + Hints(t, |s|, maxKeySize).value == Hints(t, |s|, maxKeySize).value;
    }
  }

  lemma ThenAssoc(h: HintRecord, tail: seq<HintRecord>, rest: Result<seq<HintRecord>>)
    ensures Then([h], Then(tail, rest)) == Then([h] + tail, rest)
  {
    if rest.Ok? {
      assert [h] + (tail + rest.value) == [h] + tail + rest.value;
    }
  }

  /** Appending one entry to a file of whole entries extends what the
      enumerator yields by that entry. */
  lemma DecodeAppend(s: seq<byte>, serial: u32, key: seq<byte>, valueSize: u32, valuePosition: u32, maxKeySize: nat)
    requires |key| < TWO32 && |key| <= maxKeySize
    requires Decode(s, maxKeySize).Ok? && AllKeysComplete(Decode(s, maxKeySize).value)
    ensures Decode(WriteHint(s, serial, key, valueSize, valuePosition), maxKeySize)
         == Ok(Decode(s, maxKeySize).value + [HintRecord(key, |key|, serial, valueSize, valuePosition)])
  {
    var e := EncodeHint(serial, key, valueSize, valuePosition);
    var t := s + e;
    var h := HintRecord(key, |key|, serial, valueSize, valuePosition);
    HintStepOne(s, serial, key, valueSize, valuePosition, maxKeySize);
    assert Hints(t, |t|, maxKeySize) == Ok([]);
    HintsUnfold(t, |s|, maxKeySize);
    assert [h] + [] == [h];
    assert Hints(t, |s|, maxKeySize) == Ok([h]);
    HintsSplit(s, e, 0, maxKeySize);
  }

  /** Round trip: hints written in sequence read back in the same order with
      the same fields, and the key length read is the key's length. */
  lemma {:induction false} RoundTrip(hs: seq<HintRecord>, maxKeySize: nat)
    requires forall i :: 0 <= i < |hs| ==> Writable(hs[i], maxKeySize)
    ensures Decode(EncodeAll(hs), maxKeySize) == Ok(hs)
    decreases |hs|
  {
    if |hs| > 0 {
      var init := hs[..|hs| - 1];
      var h := hs[|hs| - 1];
      RoundTrip(init, maxKeySize);
      assert AllKeysComplete(init) by {
        forall i | 0 <= i < |init| ensures KeyComplete(init[i]) {
          assert Writable(hs[i], maxKeySize);
        }
      }
      assert Writable(h, maxKeySize);
      DecodeAppend(EncodeAll(init), h.serial, h.key, h.valueSize, h.valuePosition, maxKeySize);
      assert init + [h] == hs;
    }
  }

  /** An entry whose key is longer than the maximum aborts the enumeration
      with a corrupt-key error, whatever follows it. */
  lemma DecodeCorrupt(s: seq<byte>, serial: u32, key: seq<byte>, valueSize: u32, valuePosition: u32,
                      rest: seq<byte>, maxKeySize: nat)
    requires |key| < TWO32 && |key| > maxKeySize
    requires Decode(s, maxKeySize).Ok? && AllKeysComplete(Decode(s, maxKeySize).value)
    ensures Decode(WriteHint(s, serial, key, valueSize, valuePosition) + rest, maxKeySize) == Err(CorruptKey)
  {
    var e := EncodeHint(serial, key, valueSize, valuePosition);
    var t := s + (e + rest);
    HintStepOne(s, serial, key, valueSize, valuePosition, maxKeySize);
    assert t[|s|..Min(|s| + HINT_HEADER_SIZE, |t|)] == (s + e)[|s|..Min(|s| + HINT_HEADER_SIZE, |s + e|)];
    assert HintStep(t, |s|, maxKeySize) == Err(CorruptKey);
    assert Hints(t, |s|, maxKeySize) == Err(CorruptKey);
    assert s + e + rest == t;
    HintsSplit(s, e + rest, 0, maxKeySize);
  }

  /** The empty hint file enumerates nothing. */
  lemma DecodeEmpty(maxKeySize: nat)
    ensures Decode([], maxKeySize) == Ok([])
  {
  }
}

=== FILE: index.dfy ===
/** The in-memory index and how scans rebuild it: replaying `GetKeys` items
    (a deletion marker removes the key, anything else sets it) and
    overlaying hint entries (always set). */
module Indexes {
  import opened Bytes
  import opened KeyInfos

  type Key = seq<byte>
  type Index = map<Key, KeyInfo>

  /** One replayed `GetKeys` item. */
  function Apply(idx: Index, e: Entry): Index {
    if e.info.valueSize == 0 then idx - {e.key} else idx[e.key := e.info]
  }

  /** Replays items in order onto `idx`. */
  function Replay(idx: Index, es: seq<Entry>): Index
    decreases |es|
  {
    if |es| == 0 then idx else Apply(Replay(idx, es[..|es| - 1]), es[|es| - 1])
  }

  /** Replaying one more item applies it to the replay so far. */
  lemma ReplaySnoc(idx: Index, es: seq<Entry>, e: Entry)
    ensures Replay(idx, es + [e]) == Apply(Replay(idx, es), e)
  {
    assert (es + [e])[..|es|] == es;
  }

  /** Hint entries in order onto `idx`: every entry sets its key. */
  function Overlay(idx: Index, es: seq<Entry>): Index
    decreases |es|
  {
    if |es| == 0 then idx else Overlay(idx, es[..|es| - 1])[es[|es| - 1].key := es[|es| - 1].info]
  }

  /** The position of the last item for `k`, or -1 when there is none. */
  function Last(es: seq<Entry>, k: Key): (i: int)
    ensures -1 <= i < |es|
    ensures i >= 0 ==> es[i].key == k && forall j :: i < j < |es| ==> es[j].key != k
    ensures i < 0 ==> forall j :: 0 <= j < |es| ==> es[j].key != k
  {
    if |es| == 0 then -1
    else if es[|es| - 1].key == k then |es| - 1
    else Last(es[..|es| - 1], k)
  }

  /** The reference reading of a replay: the last item for a key decides it
      (present exactly when that item is not a deletion marker); a key with
      no items keeps its entry in `idx`. */
  lemma {:induction false} ReplayLast(idx: Index, es: seq<Entry>, k: Key)
    ensures Last(es, k) >= 0 ==>
      && (k in Replay(idx, es) <==> es[Last(es, k)].info.valueSize > 0)
      && (k in Replay(idx, es) ==> Replay(idx, es)[k] == es[Last(es, k)].info)
    ensures Last(es, k) < 0 ==>
      && (k in Replay(idx, es) <==> k in idx)
      && (k in idx ==> Replay(idx, es)[k] == idx[k])
    decreases |es|
  {
    if |es| > 0 {
      ReplayLast(idx, es[..|es| - 1], k);
    }
  }

  /** The same reading for an overlay: the last entry for a key wins. */
  lemma {:induction false} OverlayLast(idx: Index, es: seq<Entry>, k: Key)
    ensures Last(es, k) >= 0 ==> k in Overlay(idx, es) && Overlay(idx, es)[k] == es[Last(es, k)].info
    ensures Last(es, k) < 0 ==>
      && (k in Overlay(idx, es) <==> k in idx)
      && (k in idx ==> Overlay(idx, es)[k] == idx[k])
    decreases |es|
  {
    if |es| > 0 {
      OverlayLast(idx, es[..|es| - 1], k);
    }
  }

  /** Replaying two runs of items is replaying the first, then the second. */
  lemma {:induction false} ReplayConcat(idx: Index, a: seq<Entry>, b: seq<Entry>)
    ensures Replay(idx, a + b) == Replay(Replay(idx, a), b)
    decreases |b|
  {
    if |b| == 0 {
      assert a + b == a;
    } else {
      assert (a + b)[..|a + b| - 1] == a + b[..|b| - 1];
      ReplayConcat(idx, a, b[..|b| - 1]);
    }
  }

  lemma {:induction false} OverlayConcat(idx: Index, a: seq<Entry>, b: seq<Entry>)
    ensures Overlay(idx, a + b) == Overlay(Overlay(idx, a), b)
    decreases |b|
  {
    if |b| == 0 {
      assert a + b == a;
    } else {
      assert (a + b)[..|a + b| - 1] == a + b[..|b| - 1];
      OverlayConcat(idx, a, b[..|b| - 1]);
    }
  }

  /** Without deletion markers, replaying and overlaying agree. */
  lemma {:induction false} OverlayIsReplay(idx: Index, es: seq<Entry>)
    requires forall i :: 0 <= i < |es| ==> es[i].info.valueSize > 0
    ensures Overlay(idx, es) == Replay(idx, es)
    decreases |es|
  {
    if |es| > 0 {
      OverlayIsReplay(idx, es[..|es| - 1]);
    }
  }

  /** Replay keeps only entries that are not deletion markers, and each
      comes from `idx` or from an item. */
  lemma {:induction false} ReplaySource(idx: Index, es: seq<Entry>, k: Key)
    requires k in Replay(idx, es)
    ensures Replay(idx, es)[k].valueSize > 0 || (k in idx && Replay(idx, es)[k] == idx[k])
    ensures (k in idx && Replay(idx, es)[k] == idx[k]) || exists i :: 0 <= i < |es| && es[i] == Entry(k, Replay(idx, es)[k])
  {
    ReplayLast(idx, es, k);
    if Last(es, k) >= 0 {
      assert es[Last(es, k)] == Entry(k, Replay(idx, es)[k]);
    }
  }
}

=== FILE: int_codec.dfy ===
/** The fixed-width integer codecs registered by default for short, ushort,
    int, uint, long and ulong: `BitConverter.GetBytes(value)` to encode and
    `BitConverter.ToXxx(bytes, 0)` to decode, on a little-endian host. */
module IntCodecs {
  import opened Bytes
  import opened Wrappers

  datatype IntKind = Short | UShort | Int | UInt | Long | ULong

  /** The byte width of each kind. */
  function Width(k: IntKind): (w: nat)
    ensures w > 0
  {
    match k
    case Short => 2
    case UShort => 2
    case Int => 4
    case UInt => 4
    case Long => 8
    case ULong => 8
  }

  predicate Signed(k: IntKind) {
    k.Short? || k.Int? || k.Long?
  }

  /** The values a kind holds: two's complement for the signed kinds. */
  predicate InRange(k: IntKind, x: int) {
    if Signed(k) then -(Pow256(Width(k)) / 2) <= x < Pow256(Width(k)) / 2
    else 0 <= x < Pow256(Width(k))
  }

  /** `BitConverter.GetBytes(value)`. */
  function GetBytes(k: IntKind, x: int): (r: seq<byte>)
    requires InRange(k, x)
    ensures |r| == Width(k)
  {
    if Signed(k) then SignedLE(x, Width(k)) else LE(x, Width(k))
  }

  /** `BitConverter.ToXxx(bytes, 0)`: no bytes at all is an index out of
      range, fewer than the width an argument error; bytes past the width
      are ignored. */
  function ToValue(k: IntKind, bytes: seq<byte>): (r: Result<int>)
    ensures |bytes| == 0 ==> r == Err(ArgumentOutOfRange)
    ensures 0 < |bytes| < Width(k) ==> r == Err(Argument)
    ensures |bytes| >= Width(k) <==> r.Ok?
  {
    if |bytes| == 0 then Err(ArgumentOutOfRange)
    else if |bytes| < Width(k) then Err(Argument)
    else
      var w := bytes[..Width(k)];
      Ok(if Signed(k) then SignedFromLE(w) else FromLE(w))
  }

  /** Decoding the encoding of a value gives the value back, whatever bytes
      follow the encoding. */
  lemma RoundTrip(k: IntKind, x: int, rest: seq<byte>)
    requires InRange(k, x)
    ensures ToValue(k, GetBytes(k, x) + rest) == Ok(x)
  {
    var e := GetBytes(k, x);
    assert (e + rest)[..Width(k)] == e;
    if Signed(k) {
      SignedRoundTrip(x, Width(k));
    } else {
      LERoundTrip(x, Width(k));
    }
  }

  /** Every decoded value is in range, and encoding it gives back the bytes
      that were read: the codec is a bijection between the kind's values and
      its width's byte strings. */
  lemma Onto(k: IntKind, bytes: seq<byte>)
    requires |bytes| >= Width(k)
    ensures ToValue(k, bytes).Ok? && InRange(k, ToValue(k, bytes).value)
    ensures GetBytes(k, ToValue(k, bytes).value) == bytes[..Width(k)]
  {
    var w := bytes[..Width(k)];
    var n := Width(k);
    var p := Pow256(n);
    var u := FromLE(w);
    FromLEBound(w);
    LEOnto(w);
    Pow256Even(n);
    if Signed(k) {
      if u >= p / 2 {
        ModShift(u as int - p as int, p);
      } else {
        ModSmall(u, p);
      }
    }
  }

  /** Two values of a kind encode alike only when they are equal. */
  lemma Injective(k: IntKind, x: int, y: int)
    requires InRange(k, x) && InRange(k, y) && GetBytes(k, x) == GetBytes(k, y)
    ensures x == y
  {
    RoundTrip(k, x, []);
    RoundTrip(k, y, []);
    assert GetBytes(k, x) + [] == GetBytes(k, x);
    assert GetBytes(k, y) + [] == GetBytes(k, y);
  }
}

=== FILE: key_info.dfy ===
/** Index entries: where the current value of a key lives. */
module KeyInfos {
  import opened Bytes
  import Layout

  /** Segment id, the record's serial in that segment, and the value's size and byte offset. */
  datatype KeyInfo = KeyInfo(fileId: u16, serial: u32, valueSize: u32, valuePosition: u32)

  /** A key and where its record's value is: one `GetKeys` item, or one
      hint entry placed in its segment. */
  datatype Entry = Entry(key: seq<byte>, info: KeyInfo)

  /** One decoded hint file entry. */
  datatype HintRecord = HintRecord(key: seq<byte>, keySize: u32, serial: u32, valueSize: u32, valuePosition: u32)

  /** `new KeyInfo(fileId, hint)`: the location a hint describes, placed in segment `fileId`. */
  function FromHint(fileId: u16, hint: HintRecord): (k: KeyInfo)
    ensures k.fileId == fileId
    ensures k.serial == hint.serial && k.valueSize == hint.valueSize && k.valuePosition == hint.valuePosition
  {
    KeyInfo(fileId, hint.serial, hint.valueSize, hint.valuePosition)
  }

  /** `GetSize()`: header plus value, in uint arithmetic; the key bytes are not counted. */
  function GetSize(k: KeyInfo): (n: u32)
    ensures k.valueSize < TWO32 - Layout.HEADER_SIZE ==> n == Layout.HEADER_SIZE + k.valueSize
    ensures k.valueSize >= TWO32 - Layout.HEADER_SIZE ==> n == Layout.HEADER_SIZE + k.valueSize - TWO32
  {
    Wrap32(Layout.HEADER_SIZE + k.valueSize)
  }

  /** A zero value size marks a deleted entry; enumeration skips it. */
  predicate IsDeleted(k: KeyInfo) {
    k.valueSize == 0
  }
}

=== FILE: layout.dfy ===
/** On-disk layout constants of segment records (FirkinFile) and hint entries (FirkinHintFile). */
module Layout {

  /** Segment record: hash(16) | serial(u32) | key length(u32) | value length(u32) | key | value. */
  const HASH_SIZE: nat := 16
  const HEADER_SIZE: nat := HASH_SIZE + 4 + 4 + 4
  const SERIAL_OFFSET: nat := HASH_SIZE
  const KEY_SIZE_OFFSET: nat := SERIAL_OFFSET + 4
  const VALUE_SIZE_OFFSET: nat := KEY_SIZE_OFFSET + 4

  /** Hint entry: serial(u32) | key length(u32) | value length(u32) | value position(u32) | key. */
  const HINT_HEADER_SIZE: nat := 4 + 4 + 4 + 4
  const HINT_SERIAL_OFFSET: nat := 0
  const HINT_KEY_SIZE_OFFSET: nat := HINT_SERIAL_OFFSET + 4
  const HINT_VALUE_SIZE_OFFSET: nat := HINT_KEY_SIZE_OFFSET + 4
  const HINT_VALUE_POSITION_OFFSET: nat := HINT_VALUE_SIZE_OFFSET + 4
}

=== FILE: lazy_collection.dfy ===
/** `LazyFirkinCollection`: a read-only view of a store's values, produced
    key by key on enumeration. A key whose stream lookup returns null, or
    whose try-deserialize call fails, yields nothing; `Count` is the number
    of keys regardless. */
module LazyCollection {
  import opened Bytes
  import opened Wrappers

  /** The key collection, in its enumeration order, the stream lookup
      (null is `None`) and the try-deserialize delegate (false is `None`). */
  datatype Lazy<!K, !S, V> = Lazy(keys: seq<K>, getStream: K -> Option<S>, getValue: (K, S) -> Option<V>)

  /** The value a key yields, if any. */
  function Yield<K, S, V>(c: Lazy<K, S, V>, k: K): Option<V> {
    match c.getStream(k)
    case None => None
    case Some(s) => c.getValue(k, s)
  }

  /** `Count`: the number of keys. */
  function Count<K, S, V>(c: Lazy<K, S, V>): nat {
    |c.keys|
  }

  /** The values the first `n` keys yield, in key order. */
  ghost function Values<K, S, V>(c: Lazy<K, S, V>, n: nat): seq<V>
    requires n <= |c.keys|
  {
    if n == 0 then []
    else
      var y := Yield(c, c.keys[n - 1]);
      Values(c, n - 1) + (if y.Some? then [y.value] else [])
  }

  /** The positions of the first `n` keys that yield a value. */
  ghost function Picks<K, S, V>(c: Lazy<K, S, V>, n: nat): seq<nat>
    requires n <= |c.keys|
  {
    if n == 0 then []
    else Picks(c, n - 1) + (if Yield(c, c.keys[n - 1]).Some? then [n - 1] else [])
  }

  /** `GetEnumerator`: the values of the keys that yield one, in key order;
      never more than `Count`, and exactly `Count` only when every key yields. */
  method Enumerate<K, S, V>(c: Lazy<K, S, V>) returns (vs: seq<V>)
    ensures vs == Values(c, |c.keys|)
    ensures |vs| <= Count(c)
    ensures |vs| == Count(c) <==> forall i :: 0 <= i < |c.keys| ==> Yield(c, c.keys[i]).Some?
  {
    vs := [];
    var n := 0;
    while n < |c.keys|
      invariant 0 <= n <= |c.keys|
      invariant vs == Values(c, n)
      invariant |vs| <= n
      invariant |vs| == n <==> forall i :: 0 <= i < n ==> Yield(c, c.keys[i]).Some?
    {
      var k := c.keys[n];
      var stream := c.getStream(k);
      if stream.Some? {
        var value := c.getValue(k, stream.value);
        if value.Some? {
          vs := vs + [value.value];
        }
      }
      n := n + 1;
    }
  }

  /** The enumeration is the subsequence of yielded values picked out by an
      increasing list of positions that holds every yielding key and no other. */
  lemma {:induction false} ValuesPicked<K, S, V>(c: Lazy<K, S, V>, n: nat)
    requires n <= |c.keys|
    ensures var vs, ps := Values(c, n), Picks(c, n);
      && |ps| == |vs|
      && (forall j :: 0 <= j < |ps| ==> ps[j] < n && Yield(c, c.keys[ps[j]]) == Some(vs[j]))
      && (forall j, l :: 0 <= j < l < |ps| ==> ps[j] < ps[l])
      && (forall i :: 0 <= i < n ==> (Yield(c, c.keys[i]).Some? <==> i in ps))
  {
    if n > 0 {
      ValuesPicked(c, n - 1);
    }
  }

  /** `CopyTo(array, arrayIndex)`: the first `array.Length - arrayIndex`
      enumerated values land at `arrayIndex` onwards, the other slots keep
      their contents; a negative index is out of range and an index past
      the end is an argument error. */
  method CopyTo<K, S, V>(c: Lazy<K, S, V>, a: seq<V>, i: int) returns (r: Result<seq<V>>)
    ensures i < 0 ==> r == Err(ArgumentOutOfRange)
    ensures i > |a| ==> r == Err(Argument)
    ensures 0 <= i <= |a| ==> r.Ok? && |r.value| == |a|
    ensures 0 <= i <= |a| ==> var vs := Values(c, |c.keys|); var n := Min(|vs|, |a| - i);
      && (forall j :: 0 <= j < i || i + n <= j < |a| ==> r.value[j] == a[j])
      && (forall j :: 0 <= j < n ==> r.value[i + j] == vs[j])
  {
    var vs := Enumerate(c);
    if i < 0 {
      return Err(ArgumentOutOfRange);
    }
    if i > |a| {
      return Err(Argument);
    }
    var n := Min(|vs|, |a| - i);
    r := Ok(a[..i] + vs[..n] + a[i + n..]);
  }

  /** The read-only members: `Add` and `Clear` leave the collection as it is,
      `Contains` and `Remove` are false, `IsReadOnly` is true. */
  function Add<K, S, V>(c: Lazy<K, S, V>, v: V): Lazy<K, S, V> { c }
  function Clear<K, S, V>(c: Lazy<K, S, V>): Lazy<K, S, V> { c }
  predicate Contains<K, S, V>(c: Lazy<K, S, V>, v: V) { false }
  predicate Remove<K, S, V>(c: Lazy<K, S, V>, v: V) { false }
  predicate IsReadOnly<K, S, V>(c: Lazy<K, S, V>) { true }

  /** No member changes what the collection enumerates or counts. */
  lemma ReadOnly<K, S, V>(c: Lazy<K, S, V>, v: V)
    ensures Add(c, v).keys == c.keys && Clear(c).keys == c.keys && Count(Add(c, v)) == Count(c)
    ensures !Contains(c, v) && !Remove(c, v) && IsReadOnly(c)
  {
  }
}

=== FILE: merge.dfy ===
/** FirkinHash.Merge, single-threaded: every archive (every file but the
    head) is scanned in id order and the records the index still points at
    are copied into fresh `merge_N` files, each with a hint file; the new
    index is read back from those hints and then the files from the head on
    are replayed over it; finally the outputs replace the archives. */
module Merges {
  import opened Bytes
  import opened Wrappers
  import opened Records
  import opened KeyInfos
  import opened Segments
  import opened Indexes
  import opened Stores
  import HintFiles

  /** A `MergePair`: an output data file and the bytes of its hint file. */
  datatype Output = Output(data: Segment, hint: seq<byte>)

  /** The copy loop's variables: the pairs no longer current, `current`
      (None once it was set to null), `fileId` and `serial`. */
  datatype Copy = Copy(done: seq<Output>, current: Option<Output>, fileId: u16, serial: u32)

  /** `mergePairs`: every pair created so far, in creation order. */
  function Pairs(c: Copy): seq<Output> {
    c.done + (if c.current.Some? then [c.current.value] else [])
  }

  /** The copy loop's state before the first record. */
  const Start := Copy([], None, 0, 0)

  /** A record worth copying: not a deletion marker, and the index still
      points at this record (same file, same serial). */
  predicate Keep(idx: Index, fid: u16, r: Frame) {
    r.valueSize > 0 && r.key in idx && idx[r.key].fileId == fid && idx[r.key].serial == r.serial
  }

  /** When the current output is set aside: it is larger than the maximum and
      the next id stays clear of the head. The source compares `fileId` with
      the head's id, which lets the next output take the head's id; the
      corrected guard compares `fileId + 1`. */
  predicate Rolls(size: nat, maxSize: int, fileId: u16, head: u16, corrected: bool) {
    size > maxSize && (if corrected then fileId as int + 1 < head as int else fileId < head)
  }

  /** With `current` null, a record first opens a new pair: `fileId++`,
      `serial = 0`, an empty `merge_N` data file and an empty hint file. */
  function Fresh(c: Copy): (r: Copy)
    ensures r.current.Some?
    ensures c.current.Some? ==> r == c
    ensures c.current.None? ==>
      && r.done == c.done && r.fileId == Wrap16(c.fileId + 1) && r.serial == 0
      && r.current.value == Output(CreateActive(FileName(MergePrefix, r.fileId), r.fileId), [])
  {
    if c.current.Some? then c
    else
      var id := Wrap16(c.fileId + 1);
      Copy(c.done, Some(Output(CreateActive(FileName(MergePrefix, id), id), [])), id, 0)
  }

  /** One scanned record of archive `fid`: a kept record gets the next serial
      and is appended to the current output and its hint file; then the
      output may be set aside. */
  function CopyOne(c: Copy, idx: Index, fid: u16, r: Frame, head: u16, maxSize: int, corrected: bool): Result<Copy> {
    var c := Fresh(c);
    var cur := c.current.value;
    if !Keep(idx, fid, r) then Ok(c)
    else
      var serial := Wrap32(c.serial + 1);
      var (data, position) :- WriteRecord(cur.data, r.(serial := serial));
      var out := Output(data, HintFiles.WriteHint(cur.hint, serial, r.key, r.valueSize, position));
      if Rolls(Size(data), maxSize, c.fileId, head, corrected) then Ok(Copy(c.done + [out], None, c.fileId, serial))
      else Ok(Copy(c.done, Some(out), c.fileId, serial))
  }

  /** The records of one archive, in scan order. */
  function CopyRecords(c: Copy, idx: Index, fid: u16, recs: seq<Frame>, head: u16, maxSize: int, corrected: bool): Result<Copy>
    decreases |recs|
  {
    if |recs| == 0 then Ok(c)
    else
      var c' :- CopyRecords(c, idx, fid, recs[..|recs| - 1], head, maxSize, corrected);
      CopyOne(c', idx, fid, recs[|recs| - 1], head, maxSize, corrected)
  }

  /** The archives at `ids`, in order: each is scanned with `GetRecords`
      (checksums verified) and its records copied. */
  function CopyFiles(c: Copy, s: Store, H: Hasher, ids: seq<u16>, corrected: bool): Result<Copy>
    requires forall i :: 0 <= i < |ids| ==> ids[i] in s.files
    decreases |ids|
  {
    if |ids| == 0 then Ok(c)
    else
      var c' :- CopyFiles(c, s, H, ids[..|ids| - 1], corrected);
      var f := s.files[ids[|ids| - 1]];
      var recs :- GetRecords(f, H);
      CopyRecords(c', s.index, f.id, recs, s.head, s.maxSize, corrected)
  }

  /** `new KeyInfo(fileId, hint)` for every hint of one file, keyed by the hint's key. */
  function HintEntries(id: u16, hs: seq<HintRecord>): (es: seq<Entry>)
    ensures |es| == |hs|
    ensures forall i :: 0 <= i < |hs| ==> es[i] == Entry(hs[i].key, FromHint(id, hs[i]))
  {
    seq(|hs|, i requires 0 <= i < |hs| => Entry(hs[i].key, FromHint(id, hs[i])))
  }

  /** Phase two: each output is reopened read-only and added to the new file
      table (a second file with the same id throws, as `Dictionary.Add`
      does), then its hint file is enumerated into the new index. */
  function Rebuild(outs: seq<Output>, maxKeySize: nat): Result<(map<u16, Segment>, Index)>
    decreases |outs|
  {
    if |outs| == 0 then Ok((map[], map[]))
    else
      var (files, idx) :- Rebuild(outs[..|outs| - 1], maxKeySize);
      var o := outs[|outs| - 1];
      if o.data.id in files then Err(Argument)
      else
        var hs :- HintFiles.Decode(o.hint, maxKeySize);
        Ok((files[o.data.id := OpenArchiveFromActive(o.data)], Overlay(idx, HintEntries(o.data.id, hs))))
  }

  /** Phase three: the files from the head's id on, in id order, join the new
      table and their key scans are replayed over the new index. */
  function ReplayFrom(s: Store, ids: seq<u16>, files: map<u16, Segment>, idx: Index): Result<(map<u16, Segment>, Index)>
    requires forall i :: 0 <= i < |ids| ==> ids[i] in s.files
    decreases |ids|
  {
    if |ids| == 0 then Ok((files, idx))
    else
      var (files', idx') :- ReplayFrom(s, ids[..|ids| - 1], files, idx);
      var f := s.files[ids[|ids| - 1]];
      var items :- GetKeys(f);
      Ok((files'[f.id := f], Replay(idx', items)))
  }

  /** `Rename`, whose failure the final phase catches and logs. */
  function Renamed(f: Segment, name: FileName): Segment {
    match Rename(f, name)
    case Ok(g) => g
    case Err(_) => f
  }

  /** Phase four, in memory: every output below the head's id now carries its
      `store_N` name. */
  function Retire(files: map<u16, Segment>, head: u16): map<u16, Segment> {
    map id | id in files :: if id < head then Renamed(files[id], FileName(StorePrefix, id)) else files[id]
  }

  /** Phase four, on disk: each output's hint file becomes `store_N.hint`. An
      output that took the head's id cannot be moved over the head's data
      file; the move throws, the exception is logged, and that hint stays
      behind. */
  function MovedHints(hints: map<u16, seq<byte>>, outs: seq<Output>, head: u16): map<u16, seq<byte>>
    decreases |outs|
  {
    if |outs| == 0 then hints
    else
      var o := outs[|outs| - 1];
      var h := MovedHints(hints, outs[..|outs| - 1], head);
      if o.data.id < head then h[o.data.id := o.hint] else h
  }

  /** The archives a merge rewrites: every file but the head, by id. */
  function Archives(s: Store): (q: seq<u16>)
    ensures forall i :: 0 <= i < |q| ==> q[i] in s.files && q[i] != s.head
    ensures forall id :: id in q <==> id in s.files && id != s.head
  {
    var q := Ascending(s.files.Keys - {s.head});
    assert forall i :: 0 <= i < |q| ==> q[i] in q;
    q
  }

  /** The files a merge keeps: the head and anything numbered after it. */
  function FromHead(s: Store): (q: seq<u16>)
    ensures forall i :: 0 <= i < |q| ==> q[i] in s.files && q[i] >= s.head
  {
    var q := Ascending(set id | id in s.files && id >= s.head);
    assert forall i :: 0 <= i < |q| ==> q[i] in q;
    q
  }

  /** `Merge` with the roll guard as written (`corrected` false) or as
      intended (`corrected` true). With no archive there is nothing to do.
      The archives' hint files retire with them. */
  function MergeWith(s: Store, H: Hasher, maxKeySize: nat, corrected: bool): (r: Result<Store>)
    ensures |Archives(s)| == 0 ==> r == Ok(s)
    ensures r.Ok? ==> r.value.head == s.head && r.value.maxSize == s.maxSize
  {
    var archives := Archives(s);
    if |archives| == 0 then Ok(s)
    else
      var c :- CopyFiles(Start, s, H, archives, corrected);
      var (files, idx) :- Rebuild(Pairs(c), maxKeySize);
      var (files', idx') :- ReplayFrom(s, FromHead(s), files, idx);
      Ok(Store(Retire(files', s.head), s.head, idx', MovedHints(s.hints - (s.files.Keys - {s.head}), Pairs(c), s.head), s.maxSize))
  }

  /** `Merge` as the source has it. */
  function MergeAsWritten(s: Store, H: Hasher, maxKeySize: nat): Result<Store> {
    MergeWith(s, H, maxKeySize, false)
  }

  /** `Merge` with the roll guard kept clear of the head. */
  function Merge(s: Store, H: Hasher, maxKeySize: nat): Result<Store> {
    MergeWith(s, H, maxKeySize, true)
  }
}

=== FILE: merge_copy.dfy ===
/** What the copy loop of a merge (with the corrected roll guard) builds:
    outputs numbered 1, 2, ... below the head's id, each a sound data file
    whose records are numbered from 1 and whose hint file describes it, and
    whose key items locate the kept records' values, one item per kept
    record, in order. */
module MergeCopy {
  import opened Bytes
  import opened Wrappers
  import opened Layout
  import opened Records
  import opened KeyInfos
  import opened Segments
  import opened Indexes
  import opened Stores
  import opened Merges
  import opened MergeSelection
  import HintFiles

  /** The key items of the outputs, one file after another. */
  function OutLog(outs: seq<Output>): seq<Entry>
    decreases |outs|
  {
    if |outs| == 0 then [] else OutLog(outs[..|outs| - 1]) + Items(outs[|outs| - 1].data)
  }

  /** The total size of the outputs. */
  function OutSize(outs: seq<Output>): nat
    decreases |outs|
  {
    if |outs| == 0 then 0 else OutSize(outs[..|outs| - 1]) + |outs[|outs| - 1].data.bytes|
  }

  /** Output i is the writable, open file numbered i + 1. */
  predicate Numbered(outs: seq<Output>) {
    forall i :: 0 <= i < |outs| ==> outs[i].data.id as int == i + 1 && outs[i].data.writable && !outs[i].data.disposed
  }

  /** A sound output: whole records below 4 GiB with sound hashes, numbered
      from 1, and a hint file that enumerates to one entry per record. */
  predicate OutputOk(H: Hasher, maxKeySize: nat, o: Output) {
    && FileOk(H, o.data) && HintFor(o.data, o.hint, maxKeySize)
    && forall j :: 0 <= j < |Frames(o.data.bytes)| ==> Frames(o.data.bytes)[j].serial as int == j + 1
  }

  predicate Sound(H: Hasher, maxKeySize: nat, outs: seq<Output>) {
    forall i :: 0 <= i < |outs| ==> OutputOk(H, maxKeySize, outs[i])
  }

  /** The serial counter counts the current output's records, each of which
      takes at least a header. */
  predicate Counted(c: Copy) {
    c.current.Some? ==>
      && Exact(c.current.value.data.bytes)
      && c.serial as int == |Frames(c.current.value.data.bytes)|
      && 28 * c.serial <= |c.current.value.data.bytes|
  }

  /** An output item stands for a kept record: same key and value size, and
      it locates the record's value in its output. */
  predicate Holds(outs: seq<Output>, e: Entry, r: Frame) {
    && e.key == r.key && e.info.valueSize == r.valueSize
    && 1 <= e.info.fileId as int <= |outs|
    && ValueAt(outs[e.info.fileId - 1].data, e.info) == Some(r.value)
  }

  predicate Logged(outs: seq<Output>, ks: seq<(u16, Frame)>) {
    |OutLog(outs)| == |ks| && forall j :: 0 <= j < |ks| ==> Holds(outs, OutLog(outs)[j], ks[j].1)
  }

  /** Output ids stay below the head's, including the next one while no
      output is current; `fileId` is the last id handed out. */
  predicate Guarded(c: Copy, head: u16) {
    && c.fileId as int == |Pairs(c)| < head as int
    && (c.current.None? ==> |Pairs(c)| + 1 < head as int)
  }

  predicate CopyInv(c: Copy, ks: seq<(u16, Frame)>, H: Hasher, maxKeySize: nat, head: u16) {
    && Numbered(Pairs(c)) && Sound(H, maxKeySize, Pairs(c)) && Counted(c)
    && Logged(Pairs(c), ks) && OutSize(Pairs(c)) == KeptSize(ks) && Guarded(c, head)
  }

  /** Before the first record there is nothing to account for. */
  lemma StartInv(H: Hasher, maxKeySize: nat, head: u16)
    requires 1 < head
    ensures CopyInv(Start, [], H, maxKeySize, head)
  {
    var none: seq<Output> := [];
    assert Pairs(Start) == none;
    assert OutLog(none) == [] && OutSize(none) == 0 && KeptSize([]) == 0;
    assert Numbered(none) && Sound(H, maxKeySize, none) && Counted(Start);
    assert Logged(none, []) && Guarded(Start, head);
  }

  /** Items of an output set that gained one output at its end. */
  lemma OutLogSnoc(outs: seq<Output>, o: Output)
    ensures OutLog(outs + [o]) == OutLog(outs) + Items(o.data)
    ensures OutSize(outs + [o]) == OutSize(outs) + |o.data.bytes|
  {
    assert (outs + [o])[..|outs|] == outs;
  }

  /** An item keeps standing for its record when outputs are added after it. */
  lemma HoldsExtend(outs: seq<Output>, more: seq<Output>, e: Entry, r: Frame)
    requires Holds(outs, e, r)
    ensures Holds(outs + more, e, r)
  {
    assert (outs + more)[e.info.fileId - 1] == outs[e.info.fileId - 1];
  }

  /** The empty output a fresh pair starts with. */
  lemma EmptyOutput(H: Hasher, maxKeySize: nat, id: u16)
    ensures OutputOk(H, maxKeySize, Output(CreateActive(FileName(MergePrefix, id), id), []))
    ensures Items(CreateActive(FileName(MergePrefix, id), id)) == []
  {
    EmptyExact();
    HintFiles.DecodeEmpty(maxKeySize);
    assert HintsOf([]) == [];
  }

  /** The pairs before and after a fresh one is opened. */
  lemma FreshPairs(c: Copy)
    requires c.current.None?
    ensures Pairs(c) == c.done && Pairs(Fresh(c)) == c.done + [Fresh(c).current.value]
  {
  }

  lemma NumberedSnoc(outs: seq<Output>, o: Output)
    requires Numbered(outs) && o.data.id as int == |outs| + 1 && o.data.writable && !o.data.disposed
    ensures Numbered(outs + [o])
  {
    assert forall i :: 0 <= i < |outs| ==> (outs + [o])[i] == outs[i];
  }

  lemma SoundSnoc(H: Hasher, maxKeySize: nat, outs: seq<Output>, o: Output)
    requires Sound(H, maxKeySize, outs) && OutputOk(H, maxKeySize, o)
    ensures Sound(H, maxKeySize, outs + [o])
  {
    assert forall i :: 0 <= i < |outs| ==> (outs + [o])[i] == outs[i];
  }

  /** An output without items leaves the item list as it was. */
  lemma LoggedSnoc(outs: seq<Output>, o: Output, ks: seq<(u16, Frame)>)
    requires Logged(outs, ks) && Items(o.data) == []
    ensures Logged(outs + [o], ks)
  {
    OutLogSnoc(outs, o);
    assert OutLog(outs + [o]) == OutLog(outs);
    forall j | 0 <= j < |ks| ensures Holds(outs + [o], OutLog(outs + [o])[j], ks[j].1) {
      HoldsExtend(outs, [o], OutLog(outs)[j], ks[j].1);
    }
  }

  /** Opening a fresh pair keeps the invariant. */
  lemma FreshInv(c: Copy, ks: seq<(u16, Frame)>, H: Hasher, maxKeySize: nat, head: u16)
    requires CopyInv(c, ks, H, maxKeySize, head)
    ensures CopyInv(Fresh(c), ks, H, maxKeySize, head)
  {
    if c.current.None? {
      var d := Fresh(c);
      var o := d.current.value;
      FreshPairs(c);
      EmptyOutput(H, maxKeySize, d.fileId);
      NumberedSnoc(c.done, o);
      SoundSnoc(H, maxKeySize, c.done, o);
      LoggedSnoc(c.done, o, ks);
      OutLogSnoc(c.done, o);
      EmptyExact();
    }
  }

  /** The hint entries of a file that gained one whole record at its end:
      one more entry, locating the record's value. */
  lemma HintsOfSnoc(fs: seq<Frame>, fr: Frame, position: u32)
    requires |fr.key| == fr.keySize && position == Wrap32(fr.start + HEADER_SIZE + |fr.key|)
    ensures HintsOf(fs + [fr]) == HintsOf(fs) + [HintRecord(fr.key, |fr.key|, fr.serial, fr.valueSize, position)]
  {
    assert forall i :: 0 <= i < |fs| ==> (fs + [fr])[i] == fs[i];
  }

  /** The bytes a copied record leaves in its output. */
  lemma WrittenFrames(o: Segment, rec: Frame, g: Segment, position: u32)
    requires Exact(o.bytes) && Complete(rec) && WriteRecord(o, rec) == Ok((g, position))
    ensures g == o.(bytes := g.bytes) && |g.bytes| == |o.bytes| + RecSize(rec)
    ensures Exact(g.bytes) && Frames(g.bytes) == Frames(o.bytes) + [rec.(start := |o.bytes|)]
    ensures |Frames(g.bytes)| == |Frames(o.bytes)| + 1
    ensures position == Wrap32(|o.bytes| + HEADER_SIZE + |rec.key|)
    ensures Items(g) == Items(o) + [Entry(rec.key, KeyInfo(o.id, rec.serial, rec.valueSize, position))]
  {
    WriteRecordThenGetKeys(o, rec);
    EntriesOfAppend(o.id, Frames(o.bytes), rec.(start := |o.bytes|));
  }

  /** Records numbered from 1 stay so when the next number is appended. */
  lemma NumberedFrames(fs: seq<Frame>, fr: Frame)
    requires forall j :: 0 <= j < |fs| ==> fs[j].serial as int == j + 1
    requires fr.serial as int == |fs| + 1
    ensures forall j :: 0 <= j < |fs| ==> fs[j].serial < fr.serial
    ensures forall j :: 0 <= j < |fs + [fr]| ==> (fs + [fr])[j].serial as int == j + 1
  {
  }

  /** The hint file, grown by the copied record's hint, still describes its
      output. */
  lemma HintGrow(maxKeySize: nat, o: Output, fr: Frame, g: Segment, position: u32)
    requires HintFor(o.data, o.hint, maxKeySize) && Exact(g.bytes)
    requires Frames(g.bytes) == Frames(o.data.bytes) + [fr]
    requires |fr.key| == fr.keySize && |fr.key| <= maxKeySize && fr.valueSize > 0
    requires position == Wrap32(fr.start + HEADER_SIZE + |fr.key|)
    ensures HintFor(g, HintFiles.WriteHint(o.hint, fr.serial, fr.key, fr.valueSize, position), maxKeySize)
  {
    var fs := Frames(o.data.bytes);
    assert HintFiles.AllKeysComplete(HintsOf(fs)) by {
      forall i | 0 <= i < |fs| ensures HintFiles.KeyComplete(HintsOf(fs)[i]) {
        assert Complete(fs[i]);
      }
    }
    HintFiles.DecodeAppend(o.hint, fr.serial, fr.key, fr.valueSize, position, maxKeySize);
    HintsOfSnoc(fs, fr, position);
    assert forall j :: 0 <= j < |fs| ==> (fs + [fr])[j] == fs[j];
  }

  /** Copying a kept record to the end of a sound output keeps it sound:
      its frames and hint entries each gain the record, now carrying the
      next serial. */
  lemma OutputGrow(H: Hasher, maxKeySize: nat, o: Output, r: Frame, serial: u32, g: Segment, position: u32)
    requires OutputOk(H, maxKeySize, o) && Complete(r) && r.valueSize > 0 && r.hash == H(r.key + r.value)
    requires |r.key| <= maxKeySize && serial as int == |Frames(o.data.bytes)| + 1
    requires WriteRecord(o.data, r.(serial := serial)) == Ok((g, position)) && |g.bytes| < TWO32
    ensures OutputOk(H, maxKeySize, Output(g, HintFiles.WriteHint(o.hint, serial, r.key, r.valueSize, position)))
    ensures g == o.data.(bytes := g.bytes) && |g.bytes| == |o.data.bytes| + RecSize(r)
    ensures Items(g) == Items(o.data) + [Entry(r.key, KeyInfo(o.data.id, serial, r.valueSize, position))]
  {
    var rec := r.(serial := serial);
    var fs := Frames(o.data.bytes);
    var fr := rec.(start := |o.data.bytes|);
    WrittenFrames(o.data, rec, g, position);
    NumberedFrames(fs, fr);
    AppendFrameOk(H, fs, fr);
    HintGrow(maxKeySize, o, fr, g, position);
  }

  /** A copied record's item reads the record's value from its output, and
      every value its output held before still reads the same. */
  lemma WrittenValue(o: Segment, r: Frame, serial: u32, g: Segment, position: u32)
    requires Exact(o.bytes) && Complete(r) && |g.bytes| < TWO32
    requires WriteRecord(o, r.(serial := serial)) == Ok((g, position))
    ensures ValueAt(g, KeyInfo(o.id, serial, r.valueSize, position)) == Some(r.value)
    ensures forall info :: ValueAt(o, info).Some? ==> ValueAt(g, info) == ValueAt(o, info)
  {
    var rec := r.(serial := serial);
    WriteRecordThenGetKeys(o, rec);
    var n := |Frames(o.bytes)|;
    EntryValue(g, n);
    forall info | ValueAt(o, info).Some? ensures ValueAt(g, info) == ValueAt(o, info) {
      SlicePrefix(o.bytes, Encode(rec.hash, rec.serial, rec.key, rec.value), info.valuePosition, info.valueSize);
    }
  }

  /** Replacing the last output by a longer one whose earlier values still
      read the same keeps every item standing for its record. */
  lemma HoldsGrow(done: seq<Output>, o: Output, out: Output, e: Entry, r: Frame)
    requires Holds(done + [o], e, r) && out.data.id == o.data.id
    requires forall info :: ValueAt(o.data, info).Some? ==> ValueAt(out.data, info) == ValueAt(o.data, info)
    ensures Holds(done + [out], e, r)
  {
    var i := e.info.fileId as int - 1;
    if i < |done| {
      assert (done + [o])[i] == done[i] && (done + [out])[i] == done[i];
    } else {
      assert (done + [o])[i] == o && (done + [out])[i] == out;
    }
  }

  /** The item list and the kept list both gain the copied record. */
  lemma LoggedGrow(done: seq<Output>, o: Output, out: Output, ks: seq<(u16, Frame)>, e: Entry, x: (u16, Frame))
    requires Logged(done + [o], ks) && out.data.id == o.data.id
    requires forall info :: ValueAt(o.data, info).Some? ==> ValueAt(out.data, info) == ValueAt(o.data, info)
    requires Items(out.data) == Items(o.data) + [e]
    requires Holds(done + [out], e, x.1)
    ensures Logged(done + [out], ks + [x])
  {
    OutLogSnoc(done, o);
    OutLogSnoc(done, out);
    var before := OutLog(done + [o]);
    var after := OutLog(done + [out]);
    SnocAssoc(OutLog(done), Items(o.data), e);
    forall j | 0 <= j < |ks + [x]| ensures Holds(done + [out], after[j], (ks + [x])[j].1) {
      if j < |ks| {
        assert after[j] == before[j];
        HoldsGrow(done, o, out, before[j], ks[j].1);
      }
    }
  }

  lemma SnocAssoc<T>(a: seq<T>, b: seq<T>, e: T)
    ensures a + (b + [e]) == (a + b) + [e]
  {
  }

  /** The ids, writability and openness of the outputs survive a copy into the last one. */
  lemma NumberedGrow(done: seq<Output>, o: Output, out: Output)
    requires Numbered(done + [o])
    requires out.data.id == o.data.id && out.data.writable == o.data.writable && out.data.disposed == o.data.disposed
    ensures Numbered(done + [out])
  {
    assert forall i :: 0 <= i < |done| ==> (done + [out])[i] == (done + [o])[i];
    assert (done + [o])[|done|] == o;
  }

  lemma SoundGrow(H: Hasher, maxKeySize: nat, done: seq<Output>, o: Output, out: Output)
    requires Sound(H, maxKeySize, done + [o]) && OutputOk(H, maxKeySize, out)
    ensures Sound(H, maxKeySize, done + [out])
  {
    assert forall i :: 0 <= i < |done| ==> (done + [out])[i] == (done + [o])[i];
  }

  /** Unless the record is kept, a step only opens the fresh pair; either way
      it acts as it would on the fresh pair. */
  lemma CopyOneFresh(c: Copy, idx: Index, fid: u16, r: Frame, head: u16, maxSize: int)
    ensures CopyOne(c, idx, fid, r, head, maxSize, true) == CopyOne(Fresh(c), idx, fid, r, head, maxSize, true)
    ensures !Keep(idx, fid, r) ==> CopyOne(c, idx, fid, r, head, maxSize, true) == Ok(Fresh(c))
  {
  }

  /** The state after a kept record was written to the current output `o`:
      the grown output stays current, or is set aside when it is too large
      and the next id stays clear of the head. */
  lemma StepShape(d: Copy, o: Output, idx: Index, fid: u16, r: Frame, head: u16, maxSize: int,
                  serial: u32, g: Segment, position: u32)
    requires d.current == Some(o) && Keep(idx, fid, r) && serial == Wrap32(d.serial + 1)
    requires WriteRecord(o.data, r.(serial := serial)) == Ok((g, position))
    ensures var out := Output(g, HintFiles.WriteHint(o.hint, serial, r.key, r.valueSize, position));
            var res := CopyOne(d, idx, fid, r, head, maxSize, true);
      && res.Ok? && Pairs(res.value) == d.done + [out]
      && res.value.fileId == d.fileId && res.value.serial == serial
      && (res.value.current.None? <==> Size(g) > maxSize && d.fileId as int + 1 < head as int)
      && (res.value.current.Some? ==> res.value.current == Some(out))
  {
    var out := Output(g, HintFiles.WriteHint(o.hint, serial, r.key, r.valueSize, position));
    assert (d.done + [out]) + [] == d.done + [out];
  }

  /** The serial counter does not wrap: each of the current output's records
      takes a header, and all outputs together stay below 4 GiB. */
  lemma SerialRoom(done: seq<Output>, o: Output, serial: u32, total: nat)
    requires 28 * serial <= |o.data.bytes| && OutSize(done + [o]) <= total < TWO32
    ensures Wrap32(serial + 1) == serial as int + 1
  {
    OutLogSnoc(done, o);
  }

  lemma KeptSizeSnoc(ks: seq<(u16, Frame)>, x: (u16, Frame))
    ensures KeptSize(ks + [x]) == KeptSize(ks) + RecSize(x.1)
  {
    assert (ks + [x])[..|ks|] == ks;
  }

  /** The counter still counts the current output's records. */
  lemma CountedStep(d: Copy, o: Output, res: Copy, out: Output, added: nat)
    requires Counted(d) && d.current == Some(o) && res.serial as int == d.serial as int + 1
    requires res.current.Some? ==> res.current == Some(out)
    requires Exact(out.data.bytes) && |Frames(out.data.bytes)| == |Frames(o.data.bytes)| + 1
    requires |out.data.bytes| == |o.data.bytes| + added && HEADER_SIZE <= added
    ensures Counted(res)
  {
  }

  /** Writing a kept record to the last output `o` keeps the outputs
      numbered and sound, and gives the record an item that stands for it. */
  lemma GrowInv(H: Hasher, maxKeySize: nat, done: seq<Output>, o: Output, ks: seq<(u16, Frame)>, fid: u16, r: Frame,
                serial: u32, g: Segment, position: u32)
    requires Numbered(done + [o]) && Sound(H, maxKeySize, done + [o]) && Logged(done + [o], ks)
    requires OutSize(done + [o]) == KeptSize(ks) && KeptSize(ks) + RecSize(r) < TWO32
    requires Complete(r) && r.valueSize > 0 && r.hash == H(r.key + r.value) && |r.key| <= maxKeySize
    requires serial as int == |Frames(o.data.bytes)| + 1
    requires WriteRecord(o.data, r.(serial := serial)) == Ok((g, position))
    ensures var out := Output(g, HintFiles.WriteHint(o.hint, serial, r.key, r.valueSize, position));
      && Numbered(done + [out]) && Sound(H, maxKeySize, done + [out]) && Logged(done + [out], ks + [(fid, r)])
      && OutSize(done + [out]) == KeptSize(ks + [(fid, r)])
      && Exact(g.bytes) && |Frames(g.bytes)| == |Frames(o.data.bytes)| + 1 && |g.bytes| == |o.data.bytes| + RecSize(r)
  {
    var out := Output(g, HintFiles.WriteHint(o.hint, serial, r.key, r.valueSize, position));
    var e := Entry(r.key, KeyInfo(o.data.id, serial, r.valueSize, position));
    LastOutput(H, maxKeySize, done, o);
    OutLogSnoc(done, o);
    OutLogSnoc(done, out);
    KeptSizeSnoc(ks, (fid, r));
    WrittenFrames(o.data, r.(serial := serial), g, position);
    OutputGrow(H, maxKeySize, o, r, serial, g, position);
    WrittenValue(o.data, r, serial, g, position);
    HoldsNew(done, out, e, r);
    LoggedGrow(done, o, out, ks, e, (fid, r));
    NumberedGrow(done, o, out);
    SoundGrow(H, maxKeySize, done, o, out);
  }

  /** The copy of a kept record into the current output `o`. */
  lemma CopyStep(d: Copy, o: Output, ks: seq<(u16, Frame)>, H: Hasher, maxKeySize: nat, idx: Index, fid: u16, r: Frame,
                 head: u16, maxSize: int, serial: u32, g: Segment, position: u32)
    requires CopyInv(d, ks, H, maxKeySize, head) && d.current == Some(o) && Complete(r) && Keep(idx, fid, r)
    requires r.hash == H(r.key + r.value) && |r.key| <= maxKeySize && KeptSize(ks) + RecSize(r) < TWO32
    requires serial as int == d.serial as int + 1 && serial == Wrap32(d.serial + 1)
    requires WriteRecord(o.data, r.(serial := serial)) == Ok((g, position))
    ensures CopyOne(d, idx, fid, r, head, maxSize, true).Ok?
    ensures CopyInv(CopyOne(d, idx, fid, r, head, maxSize, true).value, ks + [(fid, r)], H, maxKeySize, head)
  {
    var out := Output(g, HintFiles.WriteHint(o.hint, serial, r.key, r.valueSize, position));
    var res := CopyOne(d, idx, fid, r, head, maxSize, true).value;
    StepShape(d, o, idx, fid, r, head, maxSize, serial, g, position);
    assert Pairs(d) == d.done + [o];
    GrowInv(H, maxKeySize, d.done, o, ks, fid, r, serial, g, position);
    assert Counted(d);
    CountedStep(d, o, res, out, RecSize(r));
    GuardedStep(d, res, out, head);
    InvFromParts(res, d.done, out, ks + [(fid, r)], H, maxKeySize, head);
  }

  /** The invariant, assembled from its parts for a state whose pairs are `done + [out]`. */
  lemma InvFromParts(c: Copy, done: seq<Output>, out: Output, ks: seq<(u16, Frame)>, H: Hasher, maxKeySize: nat, head: u16)
    requires Pairs(c) == done + [out] && Counted(c) && Guarded(c, head)
    requires Numbered(done + [out]) && Sound(H, maxKeySize, done + [out]) && Logged(done + [out], ks)
    requires OutSize(done + [out]) == KeptSize(ks)
    ensures CopyInv(c, ks, H, maxKeySize, head)
  {
  }

  /** A copy step that stays in the current output keeps the ids guarded. */
  lemma GuardedStep(d: Copy, res: Copy, out: Output, head: u16)
    requires Guarded(d, head) && d.current.Some?
    requires Pairs(res) == d.done + [out] && res.fileId == d.fileId
    requires res.current.None? ==> d.fileId as int + 1 < head as int
    ensures Guarded(res, head)
  {
  }

  /** The current output is the last pair: numbered, open, writable, sound. */
  lemma LastOutput(H: Hasher, maxKeySize: nat, done: seq<Output>, o: Output)
    requires Numbered(done + [o]) && Sound(H, maxKeySize, done + [o])
    ensures o.data.id as int == |done| + 1 && o.data.writable && !o.data.disposed && OutputOk(H, maxKeySize, o)
  {
    assert (done + [o])[|done|] == o;
  }

  /** The copied record's item stands for it. */
  lemma HoldsNew(done: seq<Output>, out: Output, e: Entry, r: Frame)
    requires out.data.id as int == |done| + 1 && e.info.fileId == out.data.id
    requires e.key == r.key && e.info.valueSize == r.valueSize && ValueAt(out.data, e.info) == Some(r.value)
    ensures Holds(done + [out], e, r)
  {
    assert (done + [out])[|done|] == out;
  }

  /** One record's copy step keeps the invariant; the kept list gains the
      record exactly when the merge keeps it. */
  lemma CopyOneInv(c: Copy, ks: seq<(u16, Frame)>, H: Hasher, maxKeySize: nat, idx: Index, fid: u16, r: Frame, head: u16, maxSize: int)
    requires CopyInv(c, ks, H, maxKeySize, head) && Complete(r)
    requires Keep(idx, fid, r) ==> r.hash == H(r.key + r.value) && |r.key| <= maxKeySize && KeptSize(ks) + RecSize(r) < TWO32
    ensures CopyOne(c, idx, fid, r, head, maxSize, true).Ok?
    ensures !Keep(idx, fid, r) ==> CopyInv(CopyOne(c, idx, fid, r, head, maxSize, true).value, ks, H, maxKeySize, head)
    ensures Keep(idx, fid, r) ==> CopyInv(CopyOne(c, idx, fid, r, head, maxSize, true).value, ks + [(fid, r)], H, maxKeySize, head)
  {
    FreshInv(c, ks, H, maxKeySize, head);
    CopyOneFresh(c, idx, fid, r, head, maxSize);
    var d := Fresh(c);
    if Keep(idx, fid, r) {
      var o := d.current.value;
      LastOutput(H, maxKeySize, d.done, o);
      SerialRoom(d.done, o, d.serial, KeptSize(ks));
      var serial := Wrap32(d.serial + 1);
      var (g, position) := WriteRecord(o.data, r.(serial := serial)).value;
      CopyStep(d, o, ks, H, maxKeySize, idx, fid, r, head, maxSize, serial, g, position);
    }
  }

  /** The loop over one archive's records, one record at a time. */
  lemma CopyRecordsSnoc(c: Copy, idx: Index, fid: u16, recs: seq<Frame>, head: u16, maxSize: int)
    requires |recs| > 0 && CopyRecords(c, idx, fid, recs[..|recs| - 1], head, maxSize, true).Ok?
    ensures CopyRecords(c, idx, fid, recs, head, maxSize, true)
         == CopyOne(CopyRecords(c, idx, fid, recs[..|recs| - 1], head, maxSize, true).value, idx, fid, recs[|recs| - 1], head, maxSize, true)
    ensures KeptIn(idx, fid, recs)
         == KeptIn(idx, fid, recs[..|recs| - 1]) + (if Keep(idx, fid, recs[|recs| - 1]) then [(fid, recs[|recs| - 1])] else [])
  {
  }

  lemma NoneAppended<T>(a: seq<T>)
    ensures a + [] == a
  {
  }

  /** One archive's records. */
  lemma {:induction false} CopyRecordsInv(c: Copy, ks: seq<(u16, Frame)>, H: Hasher, maxKeySize: nat, idx: Index, fid: u16,
                                          recs: seq<Frame>, head: u16, maxSize: int)
    requires CopyInv(c, ks, H, maxKeySize, head)
    requires forall i :: 0 <= i < |recs| ==> Complete(recs[i]) && recs[i].hash == H(recs[i].key + recs[i].value)
    requires forall k | k in idx :: |k| <= maxKeySize
    requires KeptSize(ks) + KeptSize(KeptIn(idx, fid, recs)) < TWO32
    ensures CopyRecords(c, idx, fid, recs, head, maxSize, true).Ok?
    ensures CopyInv(CopyRecords(c, idx, fid, recs, head, maxSize, true).value, ks + KeptIn(idx, fid, recs), H, maxKeySize, head)
    decreases |recs|
  {
    if |recs| == 0 {
      NoneAppended(ks);
    } else {
      var init := recs[..|recs| - 1];
      var r := recs[|recs| - 1];
      var a := KeptIn(idx, fid, init);
      var tail := if Keep(idx, fid, r) then [(fid, r)] else [];
      KeptSizeConcat(a, tail);
      KeptSizeConcat(ks, a);
      CopyRecordsInv(c, ks, H, maxKeySize, idx, fid, init, head, maxSize);
      CopyRecordsSnoc(c, idx, fid, recs, head, maxSize);
      var c' := CopyRecords(c, idx, fid, init, head, maxSize, true).value;
      if Keep(idx, fid, r) {
        KeptSizeSnoc([], (fid, r));
        CopyOneInv(c', ks + a, H, maxKeySize, idx, fid, r, head, maxSize);
        SnocAssoc(ks, a, (fid, r));
      } else {
        NoneAppended(a);
        CopyOneInv(c', ks + a, H, maxKeySize, idx, fid, r, head, maxSize);
      }
    }
  }

  /** The records a sound archive's scan yields are whole, with sound hashes. */
  lemma ScannedWhole(H: Hasher, f: Segment)
    requires FileOk(H, f) && !f.disposed
    ensures GetRecords(f, H) == Ok(Checked(H, Frames(f.bytes)))
    ensures forall i :: 0 <= i < |Checked(H, Frames(f.bytes))| ==>
      Complete(Checked(H, Frames(f.bytes))[i]) && Checked(H, Frames(f.bytes))[i].hash == H(Checked(H, Frames(f.bytes))[i].key + Checked(H, Frames(f.bytes))[i].value)
  {
    RecordsOf(H, f);
    var fs := Frames(f.bytes);
    var recs := Checked(H, fs);
    forall i | 0 <= i < |recs| ensures Complete(recs[i]) {
      var j :| 0 <= j < |fs| && fs[j] == recs[i];
    }
  }

  lemma SurvivorsSnoc(s: Store, H: Hasher, ids: seq<u16>, recs: seq<Frame>)
    requires |ids| > 0 && forall i :: 0 <= i < |ids| ==> ids[i] in s.files
    requires GetRecords(s.files[ids[|ids| - 1]], H) == Ok(recs)
    ensures Survivors(s, H, ids) == Survivors(s, H, ids[..|ids| - 1]) + KeptIn(s.index, s.files[ids[|ids| - 1]].id, recs)
  {
  }

  /** The copy loop over archives, one archive at a time. */
  lemma CopyFilesSnoc(s: Store, H: Hasher, ids: seq<u16>, recs: seq<Frame>)
    requires |ids| > 0 && forall i :: 0 <= i < |ids| ==> ids[i] in s.files
    requires CopyFiles(Start, s, H, ids[..|ids| - 1], true).Ok? && GetRecords(s.files[ids[|ids| - 1]], H) == Ok(recs)
    ensures CopyFiles(Start, s, H, ids, true)
         == CopyRecords(CopyFiles(Start, s, H, ids[..|ids| - 1], true).value, s.index, s.files[ids[|ids| - 1]].id, recs, s.head, s.maxSize, true)
  {
  }

  /** The whole copy loop over the archives `ids`: it succeeds and leaves
      one output item per surviving record. */
  lemma {:induction false} CopyFilesInv(s: Store, H: Hasher, maxKeySize: nat, ids: seq<u16>)
    requires forall i :: 0 <= i < |ids| ==> ids[i] in s.files && !s.files[ids[i]].disposed && FileOk(H, s.files[ids[i]])
    requires forall k | k in s.index :: |k| <= maxKeySize
    requires KeptSize(Survivors(s, H, ids)) < TWO32 && 1 < s.head
    ensures CopyFiles(Start, s, H, ids, true).Ok?
    ensures CopyInv(CopyFiles(Start, s, H, ids, true).value, Survivors(s, H, ids), H, maxKeySize, s.head)
    decreases |ids|
  {
    if |ids| == 0 {
      StartInv(H, maxKeySize, s.head);
    } else {
      var init := ids[..|ids| - 1];
      var f := s.files[ids[|ids| - 1]];
      ScannedWhole(H, f);
      var recs := Checked(H, Frames(f.bytes));
      var a := Survivors(s, H, init);
      var b := KeptIn(s.index, f.id, recs);
      SurvivorsSnoc(s, H, ids, recs);
      KeptSizeConcat(a, b);
      CopyFilesInv(s, H, maxKeySize, init);
      CopyFilesSnoc(s, H, ids, recs);
      CopyRecordsInv(CopyFiles(Start, s, H, init, true).value, a, H, maxKeySize, s.index, f.id, recs, s.head, s.maxSize);
    }
  }
}

=== FILE: merge_finding.dfy ===
/** The merge roll guard as written lets an output take the head's id. A
    store with one archive holding two 30-byte records and an empty head
    (id 2), merged with a 29-byte maximum, sets the first output aside
    while `fileId` (1) is below the head's id, so the second output becomes
    number 2. The head then replaces it in the file table while the index
    still points key [2] at it: the key reads nothing afterwards. With the
    corrected guard the same merge keeps every value. */
module MergeFinding {
  import opened Bytes
  import opened Wrappers
  import opened Layout
  import opened Records
  import opened KeyInfos
  import opened Segments
  import opened Indexes
  import opened Stores
  import opened Merges
  import opened MergeSelection
  import opened MergeCopy
  import opened MergeProof
  import HintFiles

  const K1: seq<byte> := [1]
  const V1: seq<byte> := [7]
  const K2: seq<byte> := [2]
  const V2: seq<byte> := [8]

  /** The archive's bytes: the two records as `Put` wrote them, serials 1 and 2. */
  function ArchiveBytes(H: Hasher): seq<byte> {
    Encode(H(K1 + V1), 1, K1, V1) + Encode(H(K2 + V2), 2, K2, V2)
  }

  /** Archive 1 holds both records; the head, id 2, is empty; files roll at 29 bytes. */
  function Clash(H: Hasher): Store {
    Store(map[1 := OpenArchive(FileName(StorePrefix, 1), 1, ArchiveBytes(H)),
              2 := CreateActive(FileName(StorePrefix, 2), 2)],
          2, map[K1 := KeyInfo(1, 1, 1, 29), K2 := KeyInfo(1, 2, 1, 59)], map[], 29)
  }

  /** The archive's two frames. */
  lemma ArchiveFrames(H: Hasher)
    ensures Exact(ArchiveBytes(H))
    ensures Frames(ArchiveBytes(H)) == [FrameOf(0, H(K1 + V1), 1, K1, V1), FrameOf(30, H(K2 + V2), 2, K2, V2)]
  {
    var e1 := Encode(H(K1 + V1), 1, K1, V1);
    EmptyExact();
    AppendExact([], H(K1 + V1), 1, K1, V1);
    assert [] + e1 == e1;
    AppendExact(e1, H(K2 + V2), 2, K2, V2);
  }

  /** Frames whose hashes all verify pass the checksum filter unchanged. */
  lemma {:induction false} CheckedAll(H: Hasher, fs: seq<Frame>)
    requires forall i :: 0 <= i < |fs| ==> fs[i].hash == H(fs[i].key + fs[i].value)
    ensures Checked(H, fs) == fs
    decreases |fs|
  {
    if |fs| > 0 {
      ArrayEx.CompareZeroIffEqual(fs[0].hash, H(fs[0].key + fs[0].value));
      CheckedAll(H, fs[1..]);
      assert fs == [fs[0]] + fs[1..];
    }
  }

  /** Both files are sound. */
  lemma ClashFiles(H: Hasher)
    ensures FilesOk(H, Clash(H))
  {
    var s := Clash(H);
    ArchiveFrames(H);
    EmptyExact();
    assert FileOk(H, s.files[1]);
    assert FileOk(H, s.files[2]);
  }

  /** The files in id order: the archive, then the head. */
  lemma ClashOrder(H: Hasher)
    ensures Ascending(Clash(H).files.Keys) == [1, 2]
  {
    IncreasingUnique(Ascending(Clash(H).files.Keys), [1, 2]);
  }

  /** The archive's two key items; the head has none. */
  lemma ClashItems(H: Hasher)
    ensures Items(Clash(H).files[1]) == [Entry(K1, KeyInfo(1, 1, 1, 29)), Entry(K2, KeyInfo(1, 2, 1, 59))]
    ensures Items(Clash(H).files[2]) == []
  {
    ArchiveFrames(H);
    EmptyExact();
  }

  /** The log: the archive's two key items; the head has none. */
  lemma ClashLog(H: Hasher)
    ensures Log(Clash(H)) == [Entry(K1, KeyInfo(1, 1, 1, 29)), Entry(K2, KeyInfo(1, 2, 1, 59))]
  {
    var s := Clash(H);
    ClashItems(H);
    ClashOrder(H);
    LogOfLast(s.files, [1, 2]);
    assert [1, 2][..1] == [1];
    LogOfLast(s.files, [1]);
    assert [1][..0] == [];
  }

  /** Replaying two items for two keys indexes both. */
  lemma ReplayTwo(a: Entry, b: Entry)
    requires a.key != b.key && a.info.valueSize > 0 && b.info.valueSize > 0
    ensures Replay(map[], [a, b]) == map[a.key := a.info, b.key := b.info]
  {
    assert [a, b][..1] == [a] && [a][..0] == [];
    assert Replay(map[], [a]) == map[a.key := a.info];
  }

  /** The store is sound. */
  lemma ClashValid(H: Hasher)
    ensures Valid(Clash(H), H, 1)
  {
    ClashFiles(H);
    ClashLog(H);
    ReplayTwo(Entry(K1, KeyInfo(1, 1, 1, 29)), Entry(K2, KeyInfo(1, 2, 1, 59)));
    EmptyExact();
  }

  /** Key [2] reads its value before any merge. */
  lemma ClashReadsV2(H: Hasher)
    ensures K2 in Observe(Clash(H)) && Observe(Clash(H))[K2] == Some(V2)
  {
    var b := ArchiveBytes(H);
    assert b[59..60] == V2;
  }

  /** An output holding one copied record, under id `id`, as the copy loop leaves it. */
  function One(H: Hasher, id: u16, key: seq<byte>, value: seq<byte>): Output
    requires |key| < TWO32 && |value| < TWO32
  {
    Output(CreateActive(FileName(MergePrefix, id), id).(bytes := Encode(H(key + value), 1, key, value)),
           HintFiles.WriteHint([], 1, key, |value|, Wrap32(HEADER_SIZE + |key|)))
  }

  /** Writing a frame with serial 1 to an empty output makes the one-record output. */
  lemma WriteOne(H: Hasher, id: u16, start: nat, serial: u32, key: seq<byte>, value: seq<byte>)
    requires |key| == 1 && 0 < |value| < 100
    ensures WriteRecord(CreateActive(FileName(MergePrefix, id), id), FrameOf(start, H(key + value), serial, key, value).(serial := 1))
         == Ok((One(H, id, key, value).data, 29))
  {
    assert [] + Encode(H(key + value), 1, key, value) == Encode(H(key + value), 1, key, value);
  }

  /** The first record fills output 1, which is set aside: 1 is below the head's 2. */
  lemma CopyFirst(H: Hasher)
    ensures CopyOne(Start, Clash(H).index, 1, FrameOf(0, H(K1 + V1), 1, K1, V1), 2, 29, false)
         == Ok(Copy([One(H, 1, K1, V1)], None, 1, 1))
  {
    var fr := FrameOf(0, H(K1 + V1), 1, K1, V1);
    var c := Fresh(Start);
    assert c == Copy([], Some(Output(CreateActive(FileName(MergePrefix, 1), 1), [])), 1, 0);
    assert Keep(Clash(H).index, 1, fr);
    WriteOne(H, 1, 0, 1, K1, V1);
    assert Rolls(30, 29, 1, 2, false);
    assert [] + [One(H, 1, K1, V1)] == [One(H, 1, K1, V1)];
  }

  /** The second record opens output 2, the head's id, and stays current. */
  lemma CopySecond(H: Hasher)
    ensures CopyOne(Copy([One(H, 1, K1, V1)], None, 1, 1), Clash(H).index, 1, FrameOf(30, H(K2 + V2), 2, K2, V2), 2, 29, false)
         == Ok(Copy([One(H, 1, K1, V1)], Some(One(H, 2, K2, V2)), 2, 1))
  {
    var fr := FrameOf(30, H(K2 + V2), 2, K2, V2);
    var c := Fresh(Copy([One(H, 1, K1, V1)], None, 1, 1));
    assert c == Copy([One(H, 1, K1, V1)], Some(Output(CreateActive(FileName(MergePrefix, 2), 2), [])), 2, 0);
    assert Keep(Clash(H).index, 1, fr);
    WriteOne(H, 2, 30, 2, K2, V2);
    assert !Rolls(30, 29, 2, 2, false);
  }

  /** The only archive is file 1. */
  lemma ClashArchives(H: Hasher)
    ensures Archives(Clash(H)) == [1]
  {
    IncreasingUnique(Archives(Clash(H)), [1]);
  }

  /** The archive's scan, checksums verified. */
  lemma ClashRecords(H: Hasher)
    ensures GetRecords(Clash(H).files[1], H) == Ok([FrameOf(0, H(K1 + V1), 1, K1, V1), FrameOf(30, H(K2 + V2), 2, K2, V2)])
  {
    ArchiveFrames(H);
    CheckedAll(H, Frames(ArchiveBytes(H)));
    RecordsOf(H, Clash(H).files[1]);
  }

  /** The archive's two records, copied by the loop as written. */
  lemma CopyBoth(H: Hasher)
    ensures CopyRecords(Start, Clash(H).index, 1, [FrameOf(0, H(K1 + V1), 1, K1, V1), FrameOf(30, H(K2 + V2), 2, K2, V2)], 2, 29, false)
         == Ok(Copy([One(H, 1, K1, V1)], Some(One(H, 2, K2, V2)), 2, 1))
  {
    var fs := [FrameOf(0, H(K1 + V1), 1, K1, V1), FrameOf(30, H(K2 + V2), 2, K2, V2)];
    assert fs[..1] == [fs[0]] && [fs[0]][..0] == [];
    CopyFirst(H);
    assert CopyRecords(Start, Clash(H).index, 1, [fs[0]], 2, 29, false) == Ok(Copy([One(H, 1, K1, V1)], None, 1, 1));
    CopySecond(H);
  }

  /** The copy loop as written leaves outputs 1 and 2. */
  lemma CopyClash(H: Hasher)
    ensures CopyFiles(Start, Clash(H), H, [1], false) == Ok(Copy([One(H, 1, K1, V1)], Some(One(H, 2, K2, V2)), 2, 1))
  {
    ClashRecords(H);
    assert [1][..0] == [];
    CopyBoth(H);
  }

  /** A one-record output is a sound output. */
  lemma OneOk(H: Hasher, id: u16, key: seq<byte>, value: seq<byte>)
    requires 1 <= |key| <= 1 && 0 < |value| < 100
    ensures OutputOk(H, 1, One(H, id, key, value))
    ensures Items(One(H, id, key, value).data) == [Entry(key, KeyInfo(id, 1, |value|, 29))]
  {
    var e := Output(CreateActive(FileName(MergePrefix, id), id), []);
    EmptyOutput(H, 1, id);
    EmptyExact();
    var r := FrameOf(0, H(key + value), 1, key, value);
    var (g, position) := WriteRecord(e.data, r).value;
    assert [] + Encode(H(key + value), 1, key, value) == Encode(H(key + value), 1, key, value);
    OutputGrow(H, 1, e, r, 1, g, position);
  }

  /** The outputs the copy loop as written leaves. */
  function ClashOutputs(H: Hasher): seq<Output> {
    [One(H, 1, K1, V1), One(H, 2, K2, V2)]
  }

  lemma OutLogTwo(a: Output, b: Output)
    ensures OutLog([a, b]) == Items(a.data) + Items(b.data)
  {
    assert [a, b][..1] == [a] && [a][..0] == [];
    assert OutLog([a]) == [] + Items(a.data) == Items(a.data);
  }

  /** Phase two reads the outputs' hints back: key [2] now points at output 2. */
  lemma ClashRebuild(H: Hasher)
    ensures Rebuild(ClashOutputs(H), 1) == Ok((Archived(ClashOutputs(H)), Overlay(map[], OutLog(ClashOutputs(H)))))
    ensures OutLog(ClashOutputs(H)) == [Entry(K1, KeyInfo(1, 1, 1, 29)), Entry(K2, KeyInfo(2, 1, 1, 29))]
  {
    var P := ClashOutputs(H);
    OneOk(H, 1, K1, V1);
    OneOk(H, 2, K2, V2);
    RebuildOk(H, 1, P);
    OutLogTwo(P[0], P[1]);
  }

  /** Overlaying two items for two keys indexes both. */
  lemma OverlayTwo(a: Entry, b: Entry)
    ensures Overlay(map[], [a, b]) == map[a.key := a.info][b.key := b.info]
  {
    assert [a, b][..1] == [a] && [a][..0] == [];
    assert Overlay(map[], [a]) == map[a.key := a.info];
  }

  /** The store the merge as written produces: the outputs under their ids,
      except that the head takes id 2 back; the index phase two built. */
  function AsWritten(H: Hasher): Store {
    var P := ClashOutputs(H);
    Store(Retire(Archived(P)[2 := Clash(H).files[2]], 2), 2, Replay(Overlay(map[], OutLog(P)), []), MovedHints(map[], P, 2), 29)
  }

  lemma AsWrittenResult(H: Hasher)
    ensures MergeAsWritten(Clash(H), H, 1) == Ok(AsWritten(H))
  {
    var s := Clash(H);
    var P := ClashOutputs(H);
    ClashArchives(H);
    CopyClash(H);
    assert Pairs(Copy([P[0]], Some(P[1]), 2, 1)) == P;
    ClashRebuild(H);
    ClashFiles(H);
    FromHeadIsHead(s);
    EmptyExact();
    ReplayHead(s, H, Archived(P), Overlay(map[], OutLog(P)));
    assert s.hints - (s.files.Keys - {s.head}) == map[];
  }

  /** After the merge as written, key [2] points into file 2, which is the empty head. */
  lemma AsWrittenLoses(H: Hasher)
    ensures K2 in AsWritten(H).index && AsWritten(H).index[K2] == KeyInfo(2, 1, 1, 29)
    ensures 2 in AsWritten(H).files && AsWritten(H).files[2].bytes == []
    ensures Resolve(AsWritten(H), AsWritten(H).index[K2]) == None
  {
    ClashRebuild(H);
    OverlayTwo(Entry(K1, KeyInfo(1, 1, 1, 29)), Entry(K2, KeyInfo(2, 1, 1, 29)));
  }

  /** FINDING, as written: the merge succeeds, yet key [2] now points into
      the empty head and reads nothing, although the store was sound and
      the key read [8] before. */
  lemma GuardClash(H: Hasher)
    ensures Valid(Clash(H), H, 1)
    ensures MergeAsWritten(Clash(H), H, 1).Ok?
    ensures K2 in MergeAsWritten(Clash(H), H, 1).value.index
    ensures Observe(Clash(H))[K2] == Some(V2)
    ensures Observe(MergeAsWritten(Clash(H), H, 1).value)[K2] == None
    ensures Observe(MergeAsWritten(Clash(H), H, 1).value) != Observe(Clash(H))
  {
    ClashValid(H);
    ClashReadsV2(H);
    AsWrittenResult(H);
    AsWrittenLoses(H);
  }

  /** FINDING, corrected: on the same store the merge with the corrected
      guard keeps every key's value, key [2] included. */
  lemma GuardClashCorrected(H: Hasher)
    ensures Merge(Clash(H), H, 1).Ok?
    ensures Observe(Merge(Clash(H), H, 1).value) == Observe(Clash(H))
    ensures Observe(Merge(Clash(H), H, 1).value)[K2] == Some(V2)
  {
    var s := Clash(H);
    ClashValid(H);
    ClashReadsV2(H);
    ClashArchives(H);
    assert Footprint(s.files, [1]) == 60 by {
      ArchiveFrames(H);
      assert [1][..0] == [];
    }
    MergePreserves(s, H, 1);
  }
}

=== FILE: merge_proof.dfy ===
/** What a merge (with the roll guard kept clear of the head) does to a sound
    store: it succeeds, the store stays sound, every key reads the same value
    as before, and the archives are replaced by outputs numbered 1, 2, ...
    holding one record per key whose entry pointed into an archive. */
module MergeProof {
  import opened Bytes
  import opened Wrappers
  import opened Records
  import opened KeyInfos
  import opened Segments
  import opened Indexes
  import opened Stores
  import opened Merges
  import opened MergeSelection
  import opened MergeCopy
  import HintFiles

  /** The file table phase two builds: every output reopened read-only under its id. */
  function Archived(outs: seq<Output>): map<u16, Segment>
    decreases |outs|
  {
    if |outs| == 0 then map[]
    else Archived(outs[..|outs| - 1])[outs[|outs| - 1].data.id := OpenArchiveFromActive(outs[|outs| - 1].data)]
  }

  lemma NumberedPrefix(H: Hasher, maxKeySize: nat, outs: seq<Output>)
    requires |outs| > 0 && Numbered(outs) && Sound(H, maxKeySize, outs)
    ensures Numbered(outs[..|outs| - 1]) && Sound(H, maxKeySize, outs[..|outs| - 1])
    ensures outs[|outs| - 1].data.id as int == |outs| && OutputOk(H, maxKeySize, outs[|outs| - 1])
  {
    var init := outs[..|outs| - 1];
    assert forall i :: 0 <= i < |init| ==> init[i] == outs[i];
  }

  /** Output i is found in the table under id i + 1. */
  lemma {:induction false} ArchivedAt(outs: seq<Output>)
    requires Numbered(outs)
    ensures forall id :: id in Archived(outs) <==> 1 <= id as int <= |outs|
    ensures forall i :: 0 <= i < |outs| ==> Archived(outs)[outs[i].data.id] == OpenArchiveFromActive(outs[i].data)
    decreases |outs|
  {
    if |outs| > 0 {
      var init := outs[..|outs| - 1];
      assert forall i :: 0 <= i < |init| ==> init[i] == outs[i];
      ArchivedAt(init);
    }
  }

  /** An output's hint file enumerates to exactly its key items. */
  lemma HintEntriesItems(H: Hasher, maxKeySize: nat, o: Output)
    requires OutputOk(H, maxKeySize, o)
    ensures HintFiles.Decode(o.hint, maxKeySize) == Ok(HintsOf(Frames(o.data.bytes)))
    ensures HintEntries(o.data.id, HintsOf(Frames(o.data.bytes))) == Items(o.data)
  {
    var fs := Frames(o.data.bytes);
    assert forall i :: 0 <= i < |fs| ==> HintEntries(o.data.id, HintsOf(fs))[i] == EntryOf(o.data.id, fs[i]);
  }

  /** Phase two on sound, numbered outputs: no id clashes, and the new index
      is the overlay of all their items. */
  lemma {:induction false} RebuildOk(H: Hasher, maxKeySize: nat, outs: seq<Output>)
    requires Numbered(outs) && Sound(H, maxKeySize, outs)
    ensures Rebuild(outs, maxKeySize) == Ok((Archived(outs), Overlay(map[], OutLog(outs))))
    decreases |outs|
  {
    if |outs| > 0 {
      var init := outs[..|outs| - 1];
      var o := outs[|outs| - 1];
      NumberedPrefix(H, maxKeySize, outs);
      RebuildOk(H, maxKeySize, init);
      ArchivedAt(init);
      HintEntriesItems(H, maxKeySize, o);
      OverlayConcat(map[], OutLog(init), Items(o.data));
    }
  }

  /** In a store of sound shape the head is the only file from the head's id on. */
  lemma FromHeadIsHead(s: Store)
    requires Shape(s)
    ensures FromHead(s) == [s.head]
  {
    var ids := set id | id in s.files && id >= s.head;
    assert ids == {s.head};
    IncreasingUnique(FromHead(s), [s.head]);
  }

  /** Phase three: the head joins the new table and its items are replayed. */
  lemma ReplayHead(s: Store, H: Hasher, files: map<u16, Segment>, idx: Index)
    requires s.head in s.files && s.files[s.head].id == s.head && !s.files[s.head].disposed && Exact(s.files[s.head].bytes)
    ensures ReplayFrom(s, [s.head], files, idx) == Ok((files[s.head := s.files[s.head]], Replay(idx, Items(s.files[s.head]))))
  {
    assert [s.head][..0] == [];
  }

  /** Hint files exist for archives only, so they all retire with them. */
  lemma HintsRetire(s: Store, maxKeySize: nat)
    requires HintsOk(s, maxKeySize)
    ensures s.hints - (s.files.Keys - {s.head}) == map[]
  {
  }

  /** The outputs the copy loop leaves (nothing if it fails). */
  function Outputs(s: Store, H: Hasher): seq<Output> {
    match CopyFiles(Start, s, H, Archives(s), true)
    case Ok(c) => Pairs(c)
    case Err(_) => []
  }

  /** An output as it ends up in the store: renamed `store_N`, read-only. */
  function Stored(o: Output): Segment {
    Segment(FileName(StorePrefix, o.data.id), o.data.id, o.data.bytes, 0, false, false)
  }

  /** The merged file table: the head, and every output stored under its id. */
  function Table(outs: seq<Output>, head: u16, hf: Segment): map<u16, Segment>
    decreases |outs|
  {
    if |outs| == 0 then map[head := hf]
    else Table(outs[..|outs| - 1], head, hf)[outs[|outs| - 1].data.id := Stored(outs[|outs| - 1])]
  }

  /** Output i is stored under id i + 1, below the head. */
  lemma {:induction false} TableAt(outs: seq<Output>, head: u16, hf: Segment)
    requires Numbered(outs) && |outs| < head as int
    ensures forall id :: id in Table(outs, head, hf) <==> (1 <= id as int <= |outs| || id == head)
    ensures Table(outs, head, hf)[head] == hf
    ensures forall i :: 0 <= i < |outs| ==> Table(outs, head, hf)[outs[i].data.id] == Stored(outs[i])
    decreases |outs|
  {
    if |outs| > 0 {
      var init := outs[..|outs| - 1];
      assert forall i :: 0 <= i < |init| ==> init[i] == outs[i];
      TableAt(init, head, hf);
    }
  }

  /** Phase four renames the reopened outputs, which gives the table above. */
  lemma RetireTable(outs: seq<Output>, head: u16, hf: Segment)
    requires Numbered(outs) && |outs| < head as int
    ensures Retire(Archived(outs)[head := hf], head) == Table(outs, head, hf)
  {
    ArchivedAt(outs);
    TableAt(outs, head, hf);
    var r := Retire(Archived(outs)[head := hf], head);
    var t := Table(outs, head, hf);
    assert r.Keys == t.Keys;
    forall id | id in r ensures r[id] == t[id] {
      if id != head {
        assert outs[id - 1].data.id == id;
      }
    }
  }

  /** The store a merge of `s` with outputs `outs` produces. */
  function Merged(s: Store, outs: seq<Output>): Store
    requires s.head in s.files
  {
    Store(Table(outs, s.head, s.files[s.head]), s.head,
          Replay(Overlay(map[], OutLog(outs)), Items(s.files[s.head])),
          MovedHints(map[], outs, s.head), s.maxSize)
  }

  /** What a merge needs beyond a sound store: every key fits a hint file's
      key limit, and the archives together stay below 4 GiB (the outputs
      address values with 32-bit positions). */
  predicate Premise(s: Store, H: Hasher, maxKeySize: nat) {
    && Valid(s, H, maxKeySize)
    && (forall k | k in s.index :: |k| <= maxKeySize)
    && Footprint(s.files, Archives(s)) < TWO32
  }

  /** The copy loop over the archives succeeds and leaves numbered, sound
      outputs whose items stand for the surviving records. */
  lemma CopyDone(s: Store, H: Hasher, maxKeySize: nat)
    requires Premise(s, H, maxKeySize) && |Archives(s)| > 0
    ensures CopyFiles(Start, s, H, Archives(s), true).Ok?
    ensures CopyInv(CopyFiles(Start, s, H, Archives(s), true).value, Survivors(s, H, Archives(s)), H, maxKeySize, s.head)
  {
    var A := Archives(s);
    assert forall i :: 0 <= i < |A| ==> A[i] in s.files && !s.files[A[i]].disposed && FileOk(H, s.files[A[i]]) by {
      assert FilesOk(H, s);
    }
    SurvivorsSize(s, H, A);
    assert A[0] in s.files && A[0] != s.head;
    CopyFilesInv(s, H, maxKeySize, A);
  }

  /** A merge of a store with archives is the store `Merged` describes. */
  lemma MergeIs(s: Store, H: Hasher, maxKeySize: nat)
    requires Premise(s, H, maxKeySize) && |Archives(s)| > 0
    ensures Merge(s, H, maxKeySize) == Ok(Merged(s, Outputs(s, H)))
  {
    CopyDone(s, H, maxKeySize);
    var c := CopyFiles(Start, s, H, Archives(s), true).value;
    var P := Pairs(c);
    RebuildOk(H, maxKeySize, P);
    FromHeadIsHead(s);
    assert FileOk(H, s.files[s.head]);
    ReplayHead(s, H, Archived(P), Overlay(map[], OutLog(P)));
    HintsRetire(s, maxKeySize);
    RetireTable(P, s.head, s.files[s.head]);
  }

  /** The merged file table: the outputs under ids 1 to n, then the head. */
  lemma MergedFiles(s: Store, outs: seq<Output>)
    requires s.head in s.files && Numbered(outs) && |outs| < s.head as int
    ensures forall id :: id in Merged(s, outs).files <==> (1 <= id as int <= |outs| || id == s.head)
    ensures Merged(s, outs).files[s.head] == s.files[s.head]
    ensures forall i :: 0 <= i < |outs| ==> Merged(s, outs).files[outs[i].data.id] == Stored(outs[i])
  {
    TableAt(outs, s.head, s.files[s.head]);
  }

  /** Every output's hint file now sits beside it. */
  lemma {:induction false} MovedAt(outs: seq<Output>, head: u16)
    requires Numbered(outs) && |outs| < head as int
    ensures forall id :: id in MovedHints(map[], outs, head) <==> 1 <= id as int <= |outs|
    ensures forall i :: 0 <= i < |outs| ==> MovedHints(map[], outs, head)[outs[i].data.id] == outs[i].hint
    decreases |outs|
  {
    if |outs| > 0 {
      var init := outs[..|outs| - 1];
      assert forall i :: 0 <= i < |init| ==> init[i] == outs[i];
      MovedAt(init, head);
    }
  }

  /** The merged store has a sound shape, sound files and sound hints. */
  lemma MergedSound(s: Store, H: Hasher, maxKeySize: nat, outs: seq<Output>)
    requires Shape(s) && FilesOk(H, s) && HeadSerial(s)
    requires Numbered(outs) && Sound(H, maxKeySize, outs) && |outs| < s.head as int
    ensures Shape(Merged(s, outs)) && FilesOk(H, Merged(s, outs)) && HeadSerial(Merged(s, outs)) && HintsOk(Merged(s, outs), maxKeySize)
  {
    var n := Merged(s, outs);
    MergedFiles(s, outs);
    MovedAt(outs, s.head);
    forall id | id in n.files
      ensures 1 <= id <= n.head && n.files[id].id == id && !n.files[id].disposed && (n.files[id].writable <==> id == n.head)
      ensures FileOk(H, n.files[id])
    {
      if id != s.head {
        assert outs[id - 1].data.id == id;
        assert OutputOk(H, maxKeySize, outs[id - 1]);
      }
    }
    forall id | id in n.hints ensures id in n.files && id != n.head && HintFor(n.files[id], n.hints[id], maxKeySize) {
      assert outs[id - 1].data.id == id;
      assert OutputOk(H, maxKeySize, outs[id - 1]);
    }
  }

  /** The ids 1 to n, ascending. */
  function Upto(n: nat): (q: seq<u16>)
    requires n < TWO16
    ensures |q| == n && forall i :: 0 <= i < n ==> q[i] as int == i + 1
  {
    seq(n, i requires 0 <= i < n => (i + 1) as u16)
  }

  /** The table under each id from 1 to n. */
  lemma TableStored(outs: seq<Output>, head: u16, hf: Segment)
    requires Numbered(outs) && |outs| < head as int
    ensures forall id: u16 :: 1 <= id as int <= |outs| ==> id in Table(outs, head, hf) && Table(outs, head, hf)[id] == Stored(outs[id - 1])
  {
    TableAt(outs, head, hf);
    forall id: u16 | 1 <= id as int <= |outs| ensures id in Table(outs, head, hf) && Table(outs, head, hf)[id] == Stored(outs[id - 1]) {
      assert outs[id - 1].data.id == id;
    }
  }

  /** The table lists the outputs in order, then the head. */
  lemma TableOrder(outs: seq<Output>, head: u16, hf: Segment)
    requires Numbered(outs) && |outs| < head as int
    ensures Ascending(Table(outs, head, hf).Keys) == Upto(|outs|) + [head]
  {
    var t := Table(outs, head, hf);
    TableAt(outs, head, hf);
    var below := set id | id in t && id != head;
    assert t.Keys == below + {head};
    AscendingAdd(below, head);
    var q := Upto(|outs|);
    UptoMembers(|outs|);
    assert forall x :: x in q <==> x in below;
    IncreasingUnique(Ascending(below), q);
  }

  /** `Upto(n)` lists 1 to n ascending. */
  lemma UptoMembers(n: nat)
    requires n < TWO16
    ensures Increasing(Upto(n)) && forall x: u16 :: x in Upto(n) <==> 1 <= x as int <= n
  {
    var q := Upto(n);
    forall x: u16 | 1 <= x as int <= n ensures x in q {
      assert q[x - 1] == x;
    }
  }

  /** Listing the stored outputs yields the outputs' items. */
  lemma {:induction false} OutputsLog(files: map<u16, Segment>, outs: seq<Output>, m: nat)
    requires m <= |outs| < TWO16
    requires forall id: u16 :: 1 <= id as int <= |outs| ==> id in files && files[id] == Stored(outs[id - 1])
    ensures LogOf(files, Upto(m)) == OutLog(outs[..m])
    decreases m
  {
    if m > 0 {
      OutputsLog(files, outs, m - 1);
      assert Upto(m)[..m - 1] == Upto(m - 1);
      assert outs[..m][..m - 1] == outs[..m - 1];
      var id := Upto(m)[m - 1];
      assert files[id] == Stored(outs[m - 1]);
    }
  }

  lemma LogOfThen(files: map<u16, Segment>, ids: seq<u16>, id: u16)
    requires id in files
    ensures LogOf(files, ids + [id]) == LogOf(files, ids) + Items(files[id])
  {
    assert (ids + [id])[..|ids|] == ids;
  }

  /** The table logs the outputs' items, then the head's. */
  lemma TableLog(outs: seq<Output>, head: u16, hf: Segment)
    requires Numbered(outs) && |outs| < head as int
    ensures LogOf(Table(outs, head, hf), Ascending(Table(outs, head, hf).Keys)) == OutLog(outs) + Items(hf)
  {
    var t := Table(outs, head, hf);
    TableAt(outs, head, hf);
    TableOrder(outs, head, hf);
    TableStored(outs, head, hf);
    OutputsLog(t, outs, |outs|);
    assert outs[..|outs|] == outs;
    LogOfThen(t, Upto(|outs|), head);
  }

  /** The merged store's log: the outputs' items, then the head's. */
  lemma MergedLog(s: Store, outs: seq<Output>)
    requires s.head in s.files && Numbered(outs) && |outs| < s.head as int
    ensures Log(Merged(s, outs)) == OutLog(outs) + Items(s.files[s.head])
  {
    TableLog(outs, s.head, s.files[s.head]);
  }

  /** Output items stand for kept records, none a deletion marker, so
      overlaying them is replaying them. */
  lemma OutputsIndex(outs: seq<Output>, ks: seq<(u16, Frame)>)
    requires Logged(outs, ks) && forall j :: 0 <= j < |ks| ==> ks[j].1.valueSize > 0
    ensures Overlay(map[], OutLog(outs)) == Replay(map[], OutLog(outs))
  {
    var L := OutLog(outs);
    assert forall j :: 0 <= j < |L| ==> L[j].info.valueSize > 0 by {
      forall j | 0 <= j < |L| ensures L[j].info.valueSize > 0 {
        assert Holds(outs, L[j], ks[j].1);
      }
    }
    OverlayIsReplay(map[], L);
  }

  /** The merged index is the replay of the merged log. */
  lemma MergedIndexed(s: Store, outs: seq<Output>, ks: seq<(u16, Frame)>)
    requires s.head in s.files && Numbered(outs) && |outs| < s.head as int
    requires Logged(outs, ks) && forall j :: 0 <= j < |ks| ==> ks[j].1.valueSize > 0
    ensures Indexed(Merged(s, outs))
  {
    MergedLog(s, outs);
    OutputsIndex(outs, ks);
    ReplayConcat(map[], OutLog(outs), Items(s.files[s.head]));
  }

  /** A sound store's log: the archives' items in id order, then the head's. */
  lemma LogSplit(s: Store)
    requires Shape(s)
    ensures Log(s) == LogOf(s.files, Archives(s)) + Items(s.files[s.head])
  {
    AscendingLast(s.files.Keys, s.head);
    LogOfThen(s.files, Archives(s), s.head);
  }

  /** What the archives alone index. */
  function ArchiveIndex(s: Store): Index {
    Replay(map[], LogOf(s.files, Archives(s)))
  }

  /** A sound store's index is the archives' index with the head replayed over it. */
  lemma IndexSplit(s: Store)
    requires Shape(s) && Indexed(s)
    ensures s.index == Replay(ArchiveIndex(s), Items(s.files[s.head]))
  {
    LogSplit(s);
    ReplayConcat(map[], LogOf(s.files, Archives(s)), Items(s.files[s.head]));
  }

  /** An output's value ranges read the same once it is stored. */
  lemma StoredValue(o: Output, info: KeyInfo)
    ensures ValueAt(Stored(o), info) == ValueAt(o.data, info)
  {
  }

  /** A key whose last item is in the head is decided by that item, before
      and after the merge, and its entry points into the head, which the
      merge leaves alone. */
  lemma HeadKey(s: Store, H: Hasher, outs: seq<Output>, before: Index, after: Index, k: Key)
    requires s.head in s.files && s.files[s.head].id == s.head && FileOk(H, s.files[s.head])
    requires Numbered(outs) && |outs| < s.head as int
    requires Last(Items(s.files[s.head]), k) >= 0
    ensures k in Replay(after, Items(s.files[s.head])) <==> k in Replay(before, Items(s.files[s.head]))
    ensures k in Replay(before, Items(s.files[s.head])) ==>
      Resolve(Merged(s, outs), Replay(after, Items(s.files[s.head]))[k]) == Resolve(s, Replay(before, Items(s.files[s.head]))[k])
  {
    var hI := Items(s.files[s.head]);
    ReplayLast(before, hI, k);
    ReplayLast(after, hI, k);
    ItemInFile(H, s.files[s.head], hI[Last(hI, k)]);
    TableAt(outs, s.head, s.files[s.head]);
  }

  /** An archive key's entry points into an archive. */
  lemma ArchiveEntry(s: Store, H: Hasher, k: Key)
    requires Shape(s) && FilesOk(H, s) && k in ArchiveIndex(s)
    ensures ArchiveIndex(s)[k].fileId in Archives(s)
  {
    var LA := LogOf(s.files, Archives(s));
    ReplaySource(map[], LA, k);
    var i :| 0 <= i < |LA| && LA[i] == Entry(k, ArchiveIndex(s)[k]);
    LogOfMember(s.files, Archives(s), LA[i]);
    var id :| id in Archives(s) && id in s.files && LA[i] in Items(s.files[id]);
    assert FileOk(H, s.files[id]);
    ItemInFile(H, s.files[id], LA[i]);
  }

  /** A survivor is the record its key's entry locates, in an archive. */
  lemma SurvivorResolves(s: Store, H: Hasher, ks: seq<(u16, Frame)>, x: (u16, Frame))
    requires Shape(s) && FilesOk(H, s) && Indexed(s)
    requires ks == Survivors(s, H, Archives(s)) && x in ks
    ensures x.1.key in s.index && s.index[x.1.key].fileId in Archives(s)
    ensures Resolve(s, s.index[x.1.key]) == Some(x.1.value)
  {
    var A := Archives(s);
    assert forall j :: 0 <= j < |A| ==> A[j] in s.files && s.files[A[j]].id == A[j] && Exact(s.files[A[j]].bytes) by {
      assert FilesOk(H, s);
    }
    SurvivorsFrom(s, H, A);
    KeepResolves(s, H, x.0, x.1);
  }

  /** An output item that stands for a record locates, once stored, that record's value. */
  lemma CopyResolves(s: Store, outs: seq<Output>, e: Entry, r: Frame)
    requires s.head in s.files && Numbered(outs) && |outs| < s.head as int
    requires Holds(outs, e, r)
    ensures Resolve(Merged(s, outs), e.info) == Some(r.value)
  {
    var fid := e.info.fileId;
    TableAt(outs, s.head, s.files[s.head]);
    assert outs[fid - 1].data.id == fid;
    StoredValue(outs[fid - 1], e.info);
  }

  /** A key the outputs index was kept by the merge: the index entry it had
      locates the kept record's value, and the output copy locates the same value. */
  lemma OutputKey(s: Store, H: Hasher, outs: seq<Output>, ks: seq<(u16, Frame)>, k: Key)
    requires Shape(s) && FilesOk(H, s) && Indexed(s)
    requires ks == Survivors(s, H, Archives(s))
    requires Numbered(outs) && |outs| < s.head as int && Logged(outs, ks)
    requires k in Replay(map[], OutLog(outs))
    ensures k in s.index && s.index[k].fileId in Archives(s)
    ensures Resolve(Merged(s, outs), Replay(map[], OutLog(outs))[k]) == Resolve(s, s.index[k])
  {
    var L := OutLog(outs);
    ReplayLast(map[], L, k);
    var i := Last(L, k);
    assert Holds(outs, L[i], ks[i].1);
    SurvivorResolves(s, H, ks, ks[i]);
    CopyResolves(s, outs, L[i], ks[i].1);
  }

  /** A key indexed into an archive is indexed by the outputs. */
  lemma ArchiveKey(s: Store, H: Hasher, maxKeySize: nat, outs: seq<Output>, ks: seq<(u16, Frame)>, k: Key)
    requires Valid(s, H, maxKeySize)
    requires ks == Survivors(s, H, Archives(s))
    requires Logged(outs, ks) && forall j :: 0 <= j < |ks| ==> ks[j].1.valueSize > 0
    requires k in s.index && s.index[k].fileId in Archives(s)
    ensures k in Replay(map[], OutLog(outs))
  {
    var L := OutLog(outs);
    SurvivorOf(s, H, maxKeySize, Archives(s), k);
    var j :| 0 <= j < |ks| && ks[j].1.key == k;
    assert Holds(outs, L[j], ks[j].1);
    ReplayLast(map[], L, k);
    assert Holds(outs, L[Last(L, k)], ks[Last(L, k)].1);
  }

  /** What the copy loop leaves, in the terms the lemmas below use. */
  lemma MergeSetup(s: Store, H: Hasher, maxKeySize: nat)
    requires Premise(s, H, maxKeySize) && |Archives(s)| > 0
    ensures Merge(s, H, maxKeySize) == Ok(Merged(s, Outputs(s, H)))
    ensures Numbered(Outputs(s, H)) && Sound(H, maxKeySize, Outputs(s, H)) && |Outputs(s, H)| < s.head as int
    ensures Logged(Outputs(s, H), Survivors(s, H, Archives(s)))
    ensures OutSize(Outputs(s, H)) == KeptSize(Survivors(s, H, Archives(s)))
    ensures forall j :: 0 <= j < |Survivors(s, H, Archives(s))| ==> Survivors(s, H, Archives(s))[j].1.valueSize > 0
  {
    CopyDone(s, H, maxKeySize);
    MergeIs(s, H, maxKeySize);
  }

  /** One key reads the same before and after the merge. */
  lemma ObserveKey(s: Store, H: Hasher, maxKeySize: nat, outs: seq<Output>, ks: seq<(u16, Frame)>, k: Key)
    requires Valid(s, H, maxKeySize)
    requires ks == Survivors(s, H, Archives(s))
    requires Numbered(outs) && |outs| < s.head as int
    requires Logged(outs, ks) && forall j :: 0 <= j < |ks| ==> ks[j].1.valueSize > 0
    ensures k in Merged(s, outs).index <==> k in s.index
    ensures k in s.index ==> Resolve(Merged(s, outs), Merged(s, outs).index[k]) == Resolve(s, s.index[k])
  {
    var hI := Items(s.files[s.head]);
    var before := ArchiveIndex(s);
    var after := Replay(map[], OutLog(outs));
    OutputsIndex(outs, ks);
    IndexSplit(s);
    assert Merged(s, outs).index == Replay(after, hI);
    assert FileOk(H, s.files[s.head]);
    if Last(hI, k) >= 0 {
      HeadKey(s, H, outs, before, after, k);
    } else {
      ReplayLast(before, hI, k);
      ReplayLast(after, hI, k);
      if k in s.index {
        ArchiveEntry(s, H, k);
        ArchiveKey(s, H, maxKeySize, outs, ks, k);
      }
      if k in after {
        OutputKey(s, H, outs, ks, k);
      }
    }
  }

  /** Every key reads the same before and after the merge. */
  lemma MergedObserve(s: Store, H: Hasher, maxKeySize: nat, outs: seq<Output>, ks: seq<(u16, Frame)>)
    requires Valid(s, H, maxKeySize)
    requires ks == Survivors(s, H, Archives(s))
    requires Numbered(outs) && |outs| < s.head as int
    requires Logged(outs, ks) && forall j :: 0 <= j < |ks| ==> ks[j].1.valueSize > 0
    ensures Observe(Merged(s, outs)) == Observe(s)
  {
    var n := Merged(s, outs);
    forall k
      ensures k in n.index <==> k in s.index
      ensures k in s.index ==> Resolve(n, n.index[k]) == Resolve(s, s.index[k])
    {
      ObserveKey(s, H, maxKeySize, outs, ks, k);
    }
    ObserveSame(s, n);
  }

  /** The merge's promise: on a sound store it succeeds, leaves a sound
      store, and every key reads the value it read before. */
  lemma MergePreserves(s: Store, H: Hasher, maxKeySize: nat)
    requires Premise(s, H, maxKeySize)
    ensures Merge(s, H, maxKeySize).Ok?
    ensures Valid(Merge(s, H, maxKeySize).value, H, maxKeySize)
    ensures Observe(Merge(s, H, maxKeySize).value) == Observe(s)
  {
    if |Archives(s)| > 0 {
      var outs := Outputs(s, H);
      var ks := Survivors(s, H, Archives(s));
      MergeSetup(s, H, maxKeySize);
      MergedSound(s, H, maxKeySize, outs);
      MergedIndexed(s, outs, ks);
      MergedObserve(s, H, maxKeySize, outs, ks);
    }
  }

  /** A key the merged archives hold exactly once. */
  predicate Once(es: seq<Entry>, k: Key) {
    exists j :: 0 <= j < |es| && es[j].key == k && forall i :: 0 <= i < |es| && i != j ==> es[i].key != k
  }

  /** An output item's key pointed into an archive, and no other output item has it. */
  lemma ItemOnce(s: Store, H: Hasher, outs: seq<Output>, ks: seq<(u16, Frame)>, j: nat)
    requires Shape(s) && FilesOk(H, s) && Indexed(s)
    requires ks == Survivors(s, H, Archives(s)) && DistinctKeys(ks)
    requires Logged(outs, ks) && j < |OutLog(outs)|
    ensures OutLog(outs)[j].key in s.index && s.index[OutLog(outs)[j].key].fileId != s.head
    ensures Once(OutLog(outs), OutLog(outs)[j].key)
  {
    var L := OutLog(outs);
    assert Holds(outs, L[j], ks[j].1);
    SurvivorResolves(s, H, ks, ks[j]);
    forall i | 0 <= i < |L| && i != j ensures L[i].key != L[j].key {
      assert Holds(outs, L[i], ks[i].1);
    }
  }

  /** A key whose entry pointed into an archive has an output item. */
  lemma KeyHasItem(s: Store, H: Hasher, maxKeySize: nat, outs: seq<Output>, ks: seq<(u16, Frame)>, k: Key)
    requires Valid(s, H, maxKeySize)
    requires ks == Survivors(s, H, Archives(s)) && Logged(outs, ks)
    requires k in s.index && s.index[k].fileId != s.head
    ensures exists j :: 0 <= j < |OutLog(outs)| && OutLog(outs)[j].key == k
  {
    ValidResolves(s, H, maxKeySize, k);
    SurvivorOf(s, H, maxKeySize, Archives(s), k);
    var j :| 0 <= j < |ks| && ks[j].1.key == k;
    assert Holds(outs, OutLog(outs)[j], ks[j].1);
  }

  /** The outputs hold one item for a key exactly when the key's entry
      pointed into an archive, and no key twice. */
  lemma OutputsOnce(s: Store, H: Hasher, maxKeySize: nat, outs: seq<Output>, ks: seq<(u16, Frame)>, k: Key)
    requires Valid(s, H, maxKeySize)
    requires ks == Survivors(s, H, Archives(s))
    requires Logged(outs, ks)
    ensures (exists j :: 0 <= j < |OutLog(outs)| && OutLog(outs)[j].key == k) <==> k in s.index && s.index[k].fileId != s.head
    ensures (exists j :: 0 <= j < |OutLog(outs)| && OutLog(outs)[j].key == k) ==> Once(OutLog(outs), k)
  {
    var A := Archives(s);
    assert forall i :: 0 <= i < |A| ==> A[i] in s.files && s.files[A[i]].id == A[i] && FileOk(H, s.files[A[i]]) by {
      assert FilesOk(H, s);
    }
    SurvivorsOrdered(s, H, A);
    if j :| 0 <= j < |OutLog(outs)| && OutLog(outs)[j].key == k {
      ItemOnce(s, H, outs, ks, j);
    }
    if k in s.index && s.index[k].fileId != s.head {
      KeyHasItem(s, H, maxKeySize, outs, ks, k);
    }
  }

  /** A file of whole records whose serials run 1, 2, 3, ... */
  predicate Renumbered(f: Segment) {
    Exact(f.bytes) && forall j :: 0 <= j < |Frames(f.bytes)| ==> Frames(f.bytes)[j].serial as int == j + 1
  }

  /** What a merge leaves: the outputs numbered 1 to n below the head, each
      with serials restarting at 1, one record per key whose entry pointed
      into an archive, and no more bytes than the archives held. */
  lemma MergeCompacts(s: Store, H: Hasher, maxKeySize: nat, k: Key)
    requires Premise(s, H, maxKeySize) && |Archives(s)| > 0
    ensures Merge(s, H, maxKeySize) == Ok(Merged(s, Outputs(s, H)))
    ensures forall id :: id in Merged(s, Outputs(s, H)).files <==> (1 <= id as int <= |Outputs(s, H)| || id == s.head)
    ensures forall i :: 0 <= i < |Outputs(s, H)| ==> Outputs(s, H)[i].data.id as int == i + 1
    ensures forall i :: 0 <= i < |Outputs(s, H)| ==> Renumbered(Outputs(s, H)[i].data)
    ensures (exists j :: 0 <= j < |OutLog(Outputs(s, H))| && OutLog(Outputs(s, H))[j].key == k) <==> k in s.index && s.index[k].fileId != s.head
    ensures (exists j :: 0 <= j < |OutLog(Outputs(s, H))| && OutLog(Outputs(s, H))[j].key == k) ==> Once(OutLog(Outputs(s, H)), k)
    ensures OutSize(Outputs(s, H)) <= Footprint(s.files, Archives(s))
  {
    var outs := Outputs(s, H);
    var A := Archives(s);
    MergeSetup(s, H, maxKeySize);
    MergedFiles(s, outs);
    forall i | 0 <= i < |outs| ensures Renumbered(outs[i].data) {
      assert OutputOk(H, maxKeySize, outs[i]);
    }
    OutputsOnce(s, H, maxKeySize, outs, Survivors(s, H, A), k);
    assert forall i :: 0 <= i < |A| ==> A[i] in s.files && Exact(s.files[A[i]].bytes) by {
      assert FilesOk(H, s);
    }
    SurvivorsSize(s, H, A);
  }
}

=== FILE: merge_select.dfy ===
/** Which records a merge keeps, independently of where it writes them:
    exactly one record per key whose index entry points into an archive,
    namely the record that entry locates. */
module MergeSelection {
  import opened Bytes
  import opened Wrappers
  import opened Layout
  import opened Records
  import opened KeyInfos
  import opened Segments
  import opened Indexes
  import opened Stores
  import opened Merges

  /** The records of archive `fid` the merge copies, each tagged with `fid`. */
  function KeptIn(idx: Index, fid: u16, recs: seq<Frame>): (ks: seq<(u16, Frame)>)
    ensures forall j :: 0 <= j < |ks| ==> ks[j].0 == fid && Keep(idx, fid, ks[j].1) && ks[j].1 in recs
    ensures forall r :: r in recs && Keep(idx, fid, r) ==> (fid, r) in ks
    decreases |recs|
  {
    if |recs| == 0 then []
    else
      var init := recs[..|recs| - 1];
      var r := recs[|recs| - 1];
      assert recs == init + [r];
      KeptIn(idx, fid, init) + (if Keep(idx, fid, r) then [(fid, r)] else [])
  }

  /** What one archive contributes: the records its checked scan yields that
      the merge keeps; nothing when the scan fails. */
  function KeptOf(idx: Index, f: Segment, H: Hasher): seq<(u16, Frame)> {
    match GetRecords(f, H)
    case Ok(recs) => KeptIn(idx, f.id, recs)
    case Err(_) => []
  }

  /** The records a merge of the archives `ids` copies, archive after
      archive; an archive whose scan fails contributes nothing (the merge
      then fails anyway). */
  function Survivors(s: Store, H: Hasher, ids: seq<u16>): (ks: seq<(u16, Frame)>)
    requires forall i :: 0 <= i < |ids| ==> ids[i] in s.files
    ensures forall j :: 0 <= j < |ks| ==> Keep(s.index, ks[j].0, ks[j].1)
    decreases |ids|
  {
    if |ids| == 0 then []
    else
      var f := s.files[ids[|ids| - 1]];
      Survivors(s, H, ids[..|ids| - 1]) + KeptOf(s.index, f, H)
  }

  /** Kept records in (archive id, serial) order, strictly. */
  predicate Ordered(ks: seq<(u16, Frame)>) {
    forall i, j :: 0 <= i < j < |ks| ==> ks[i].0 < ks[j].0 || (ks[i].0 == ks[j].0 && ks[i].1.serial < ks[j].1.serial)
  }

  /** No two kept records share a key. */
  predicate DistinctKeys(ks: seq<(u16, Frame)>) {
    forall i, j :: 0 <= i < j < |ks| ==> ks[i].1.key != ks[j].1.key
  }

  /** Two kept records with one key would both be the record the key's
      index entry locates, so records kept in strict (archive, serial)
      order have distinct keys. */
  lemma OrderedDistinct(idx: Index, ks: seq<(u16, Frame)>)
    requires forall j :: 0 <= j < |ks| ==> Keep(idx, ks[j].0, ks[j].1)
    requires Ordered(ks)
    ensures DistinctKeys(ks)
  {
    forall i, j | 0 <= i < j < |ks| ensures ks[i].1.key != ks[j].1.key {
      assert Keep(idx, ks[i].0, ks[i].1) && Keep(idx, ks[j].0, ks[j].1);
    }
  }

  /** A record before records with larger serials keeps serials increasing. */
  lemma ConsIncrease(x: Frame, rest: seq<Frame>)
    requires SerialsIncrease(rest) && forall y | y in rest :: x.serial < y.serial
    ensures SerialsIncrease([x] + rest)
  {
    var c := [x] + rest;
    forall i, j | 0 <= i < j < |c| ensures c[i].serial < c[j].serial {
      assert c[j] == rest[j - 1] && rest[j - 1] in rest;
      if i > 0 {
        assert c[i] == rest[i - 1];
      }
    }
  }

  /** In a file with increasing serials the first record's serial is below the rest. */
  lemma AfterFirst(fs: seq<Frame>)
    requires SerialsIncrease(fs) && |fs| > 0
    ensures SerialsIncrease(fs[1..]) && forall y | y in fs[1..] :: fs[0].serial < y.serial
  {
    forall y | y in fs[1..] ensures fs[0].serial < y.serial {
      var k :| 0 <= k < |fs| - 1 && fs[1..][k] == y;
      assert fs[k + 1] == y;
    }
    forall i, j | 0 <= i < j < |fs| - 1 ensures fs[1..][i].serial < fs[1..][j].serial {
      assert fs[1..][i] == fs[i + 1] && fs[1..][j] == fs[j + 1];
    }
  }

  /** Checksum filtering keeps the serials increasing. */
  lemma {:induction false} CheckedIncrease(H: Hasher, fs: seq<Frame>)
    requires SerialsIncrease(fs)
    ensures SerialsIncrease(Checked(H, fs))
    decreases |fs|
  {
    if |fs| > 0 {
      AfterFirst(fs);
      CheckedIncrease(H, fs[1..]);
      var rest := Checked(H, fs[1..]);
      assert forall y | y in rest :: y in fs[1..];
      if HashMatches(H, fs[0]) {
        ConsIncrease(fs[0], rest);
      } else {
        assert Checked(H, fs) == rest;
      }
    }
  }

  /** A kept record after records of lower (archive, serial) keeps the order. */
  lemma OrderedSnoc(a: seq<(u16, Frame)>, x: (u16, Frame))
    requires Ordered(a)
    requires forall j :: 0 <= j < |a| ==> a[j].0 < x.0 || (a[j].0 == x.0 && a[j].1.serial < x.1.serial)
    ensures Ordered(a + [x])
  {
    var c := a + [x];
    forall i, j | 0 <= i < j < |c| ensures c[i].0 < c[j].0 || (c[i].0 == c[j].0 && c[i].1.serial < c[j].1.serial) {
      assert c[i] == a[i];
      if j < |a| {
        assert c[j] == a[j];
      }
    }
  }

  /** The records kept from one archive come in serial order. */
  lemma {:induction false} KeptInOrdered(idx: Index, fid: u16, recs: seq<Frame>)
    requires SerialsIncrease(recs)
    ensures Ordered(KeptIn(idx, fid, recs))
    decreases |recs|
  {
    if |recs| > 0 {
      var init := recs[..|recs| - 1];
      var r := recs[|recs| - 1];
      assert SerialsIncrease(init) by {
        forall i, j | 0 <= i < j < |init| ensures init[i].serial < init[j].serial {
          assert init[i] == recs[i] && init[j] == recs[j];
        }
      }
      KeptInOrdered(idx, fid, init);
      var a := KeptIn(idx, fid, init);
      if Keep(idx, fid, r) {
        forall j | 0 <= j < |a| ensures a[j].0 < fid || (a[j].0 == fid && a[j].1.serial < r.serial) {
          var k :| 0 <= k < |init| && init[k] == a[j].1;
          assert recs[k] == init[k];
        }
        OrderedSnoc(a, (fid, r));
      } else {
        assert KeptIn(idx, fid, recs) == a + [];
        assert a + [] == a;
      }
    }
  }

  /** An archive is scanned as its frames, checksum-filtered. */
  lemma RecordsOf(H: Hasher, f: Segment)
    requires Exact(f.bytes) && !f.disposed
    ensures GetRecords(f, H) == Ok(Checked(H, Frames(f.bytes)))
  {
  }

  /** What one sound archive contributes comes in serial order. */
  lemma KeptOfOrdered(s: Store, H: Hasher, id: u16)
    requires id in s.files && FileOk(H, s.files[id])
    ensures Ordered(KeptOf(s.index, s.files[id], H))
  {
    var f := s.files[id];
    if !f.disposed {
      RecordsOf(H, f);
      CheckedIncrease(H, Frames(f.bytes));
      KeptInOrdered(s.index, f.id, Checked(H, Frames(f.bytes)));
    }
  }

  /** Archives scanned in ascending id order, each numbered by its own id
      and with increasing serials, yield records in strict (archive, serial)
      order, hence with distinct keys. */
  lemma {:induction false} SurvivorsOrdered(s: Store, H: Hasher, ids: seq<u16>)
    requires Increasing(ids)
    requires forall i :: 0 <= i < |ids| ==> ids[i] in s.files && s.files[ids[i]].id == ids[i] && FileOk(H, s.files[ids[i]])
    ensures Ordered(Survivors(s, H, ids)) && DistinctKeys(Survivors(s, H, ids))
    decreases |ids|
  {
    if |ids| > 0 {
      var init := ids[..|ids| - 1];
      var id := ids[|ids| - 1];
      assert Increasing(init) && forall x | x in init :: x < id by {
        forall i, j | 0 <= i < j < |init| ensures init[i] < init[j] {
          assert init[i] == ids[i] && init[j] == ids[j];
        }
        forall x | x in init ensures x < id {
          var k :| 0 <= k < |init| && init[k] == x;
          assert ids[k] == x;
        }
      }
      SurvivorsOrdered(s, H, init);
      SurvivorsFrom(s, H, init);
      KeptFrom(s, H, id);
      KeptOfOrdered(s, H, id);
      var a := Survivors(s, H, init);
      var b := KeptOf(s.index, s.files[id], H);
      OrderedConcat(a, b, id);
      OrderedDistinct(s.index, Survivors(s, H, ids));
    }
  }

  lemma OrderedConcat(a: seq<(u16, Frame)>, b: seq<(u16, Frame)>, id: u16)
    requires Ordered(a) && Ordered(b)
    requires forall x | x in a :: x.0 < id
    requires forall x | x in b :: x.0 == id
    ensures Ordered(a + b)
  {
    var c := a + b;
    forall i, j | 0 <= i < j < |c| ensures c[i].0 < c[j].0 || (c[i].0 == c[j].0 && c[i].1.serial < c[j].1.serial) {
      if j < |a| {
        assert c[i] == a[i] && c[j] == a[j];
      } else if i >= |a| {
        assert c[i] == b[i - |a|] && c[j] == b[j - |a|];
      } else {
        assert c[i] == a[i] && c[j] == b[j - |a|] && a[i] in a && b[j - |a|] in b;
      }
    }
  }

  /** Every record kept from an archive listed in `ids` is among the survivors. */
  lemma {:induction false} SurvivorsHas(s: Store, H: Hasher, ids: seq<u16>, k: int, x: (u16, Frame))
    requires forall i :: 0 <= i < |ids| ==> ids[i] in s.files
    requires 0 <= k < |ids| && GetRecords(s.files[ids[k]], H).Ok?
    requires x in KeptIn(s.index, s.files[ids[k]].id, GetRecords(s.files[ids[k]], H).value)
    ensures x in Survivors(s, H, ids)
    decreases |ids|
  {
    if k < |ids| - 1 {
      SurvivorsHas(s, H, ids[..|ids| - 1], k, x);
    }
  }

  /** A record the merge keeps from a sound archive is the very record its
      key's index entry locates: the entry is that record's key item, and
      the value it resolves to is the record's value. */
  lemma KeepResolves(s: Store, H: Hasher, fid: u16, r: Frame)
    requires Shape(s) && FilesOk(H, s) && Indexed(s)
    requires fid in s.files && r in Frames(s.files[fid].bytes) && Keep(s.index, fid, r)
    ensures s.index[r.key] == EntryOf(fid, r).info
    ensures Resolve(s, s.index[r.key]) == Some(r.value)
  {
    var k := r.key;
    ReplaySource(map[], Log(s), k);
    var i :| 0 <= i < |Log(s)| && Log(s)[i] == Entry(k, s.index[k]);
    var e := Log(s)[i];
    ItemResolves(s, H, e);
    var fs := Frames(s.files[fid].bytes);
    var j :| 0 <= j < |fs| && e == EntryOf(fid, fs[j]) && Resolve(s, e.info) == Some(fs[j].value);
    var j' :| 0 <= j' < |fs| && fs[j'] == r;
    assert FileOk(H, s.files[fid]);
    SerialUnique(fs, j, j');
    assert e.info == s.index[k];
  }

  /** Serials that increase through a file pick out one record each. */
  lemma SerialUnique(fs: seq<Frame>, j: nat, j': nat)
    requires SerialsIncrease(fs) && j < |fs| && j' < |fs| && fs[j].serial == fs[j'].serial
    ensures fs[j] == fs[j']
  {
  }

  /** The record an indexed key's entry locates, which the merge keeps. */
  lemma IndexedRecord(s: Store, H: Hasher, maxKeySize: nat, key: Key) returns (fr: Frame)
    requires Valid(s, H, maxKeySize) && key in s.index
    ensures s.index[key].fileId in s.files && Exact(s.files[s.index[key].fileId].bytes)
    ensures fr in Frames(s.files[s.index[key].fileId].bytes) && fr.key == key && Keep(s.index, s.index[key].fileId, fr)
  {
    var fid := s.index[key].fileId;
    ValidResolves(s, H, maxKeySize, key);
    ReplaySource(map[], Log(s), key);
    var i :| 0 <= i < |Log(s)| && Log(s)[i] == Entry(key, s.index[key]);
    var e := Log(s)[i];
    ItemResolves(s, H, e);
    var fs := Frames(s.files[fid].bytes);
    var j :| 0 <= j < |fs| && e == EntryOf(fid, fs[j]);
    fr := fs[j];
    assert e.key == key && e.info == s.index[key];
  }

  /** A record the merge keeps from a sound archive listed in `ids` is a survivor. */
  lemma KeptSurvives(s: Store, H: Hasher, ids: seq<u16>, k: nat, fr: Frame)
    requires forall i :: 0 <= i < |ids| ==> ids[i] in s.files
    requires k < |ids| && s.files[ids[k]].id == ids[k] && FileOk(H, s.files[ids[k]]) && !s.files[ids[k]].disposed
    requires fr in Frames(s.files[ids[k]].bytes) && Keep(s.index, ids[k], fr)
    ensures exists j :: 0 <= j < |Survivors(s, H, ids)| && Survivors(s, H, ids)[j] == (ids[k], fr)
  {
    var f := s.files[ids[k]];
    var fs := Frames(f.bytes);
    var j' :| 0 <= j' < |fs| && fs[j'] == fr;
    assert fr in Checked(H, fs);
    RecordsOf(H, f);
    SurvivorsHas(s, H, ids, k, (ids[k], fr));
    var K := Survivors(s, H, ids);
    var j :| 0 <= j < |K| && K[j] == (ids[k], fr);
  }

  /** Every key indexed into an archive listed in `ids` has a surviving record. */
  lemma SurvivorOf(s: Store, H: Hasher, maxKeySize: nat, ids: seq<u16>, key: Key)
    requires Valid(s, H, maxKeySize)
    requires forall i :: 0 <= i < |ids| ==> ids[i] in s.files
    requires key in s.index && s.index[key].fileId in ids
    ensures exists j :: 0 <= j < |Survivors(s, H, ids)| && Survivors(s, H, ids)[j].1.key == key
  {
    var fr := IndexedRecord(s, H, maxKeySize, key);
    var k :| 0 <= k < |ids| && ids[k] == s.index[key].fileId;
    assert FileOk(H, s.files[ids[k]]);
    KeptSurvives(s, H, ids, k, fr);
  }

  /** A kept record `x` is one of the records of the archive it is tagged with. */
  predicate Drawn(s: Store, x: (u16, Frame)) {
    x.0 in s.files && Exact(s.files[x.0].bytes) && x.1 in Frames(s.files[x.0].bytes)
  }

  /** What one archive contributes is drawn from it. */
  lemma KeptFrom(s: Store, H: Hasher, id: u16)
    requires id in s.files && s.files[id].id == id && Exact(s.files[id].bytes)
    ensures forall x | x in KeptOf(s.index, s.files[id], H) :: x.0 == id && Drawn(s, x)
  {
    var f := s.files[id];
    if !f.disposed {
      RecordsOf(H, f);
      var recs := Checked(H, Frames(f.bytes));
      forall x | x in KeptIn(s.index, f.id, recs) ensures x.0 == id && Drawn(s, x) {
        var j :| 0 <= j < |KeptIn(s.index, f.id, recs)| && KeptIn(s.index, f.id, recs)[j] == x;
      }
    }
  }

  /** Every survivor is drawn from an archive listed in `ids`. */
  lemma {:induction false} SurvivorsFrom(s: Store, H: Hasher, ids: seq<u16>)
    requires forall i :: 0 <= i < |ids| ==> ids[i] in s.files && s.files[ids[i]].id == ids[i] && Exact(s.files[ids[i]].bytes)
    ensures forall x | x in Survivors(s, H, ids) :: x.0 in ids && Drawn(s, x)
    decreases |ids|
  {
    if |ids| > 0 {
      var init := ids[..|ids| - 1];
      var id := ids[|ids| - 1];
      SurvivorsFrom(s, H, init);
      KeptFrom(s, H, id);
      assert forall x | x in init :: x in ids;
    }
  }

  /** The bytes a record occupies: header, key and value. */
  function RecSize(r: Frame): nat {
    HEADER_SIZE + |r.key| + |r.value|
  }

  function FramesSize(fs: seq<Frame>): nat
    decreases |fs|
  {
    if |fs| == 0 then 0 else FramesSize(fs[..|fs| - 1]) + RecSize(fs[|fs| - 1])
  }

  function KeptSize(ks: seq<(u16, Frame)>): nat
    decreases |ks|
  {
    if |ks| == 0 then 0 else KeptSize(ks[..|ks| - 1]) + RecSize(ks[|ks| - 1].1)
  }

  /** The total size of the files at `ids`. */
  function Footprint(files: map<u16, Segment>, ids: seq<u16>): nat
    decreases |ids|
  {
    if |ids| == 0 then 0
    else Footprint(files, ids[..|ids| - 1]) + (if ids[|ids| - 1] in files then |files[ids[|ids| - 1]].bytes| else 0)
  }

  lemma {:induction false} FramesSizeConcat(a: seq<Frame>, b: seq<Frame>)
    ensures FramesSize(a + b) == FramesSize(a) + FramesSize(b)
    decreases |b|
  {
    if |b| == 0 {
      assert a + b == a;
    } else {
      assert (a + b)[..|a + b| - 1] == a + b[..|b| - 1];
      FramesSizeConcat(a, b[..|b| - 1]);
    }
  }

  lemma {:induction false} KeptSizeConcat(a: seq<(u16, Frame)>, b: seq<(u16, Frame)>)
    ensures KeptSize(a + b) == KeptSize(a) + KeptSize(b)
    decreases |b|
  {
    if |b| == 0 {
      assert a + b == a;
    } else {
      assert (a + b)[..|a + b| - 1] == a + b[..|b| - 1];
      KeptSizeConcat(a, b[..|b| - 1]);
    }
  }

  /** A successful read of one record ends right after its value. */
  lemma StepNext(bytes: seq<byte>, pos: nat)
    requires pos < |bytes| && Step(bytes, pos).Ok?
    ensures Step(bytes, pos).value.1 == pos + RecSize(Step(bytes, pos).value.0) <= |bytes|
  {
  }

  /** A scan of whole records accounts for every byte from `pos` on. */
  lemma {:induction false} WalkSize(bytes: seq<byte>, pos: nat)
    requires pos <= |bytes| && Walk(bytes, pos).Ok?
    ensures FramesSize(Walk(bytes, pos).value) == |bytes| - pos
    decreases |bytes| - pos
  {
    if pos < |bytes| {
      WalkUnfold(bytes, pos);
      StepNext(bytes, pos);
      var (f, next) := Step(bytes, pos).value;
      WalkSize(bytes, next);
      FramesSizeConcat([f], Walk(bytes, next).value);
      assert [f][..0] == [];
    }
  }

  lemma {:induction false} CheckedSize(H: Hasher, fs: seq<Frame>)
    ensures FramesSize(Checked(H, fs)) <= FramesSize(fs)
    decreases |fs|
  {
    if |fs| > 0 {
      CheckedSize(H, fs[1..]);
      var head := if HashMatches(H, fs[0]) then [fs[0]] else [];
      assert Checked(H, fs) == head + Checked(H, fs[1..]);
      FramesSizeConcat(head, Checked(H, fs[1..]));
      FramesSizeConcat([fs[0]], fs[1..]);
      assert [fs[0]][..0] == [];
      assert fs == [fs[0]] + fs[1..];
    }
  }

  lemma {:induction false} KeptInSize(idx: Index, fid: u16, recs: seq<Frame>)
    ensures KeptSize(KeptIn(idx, fid, recs)) <= FramesSize(recs)
    decreases |recs|
  {
    if |recs| > 0 {
      var init := recs[..|recs| - 1];
      var r := recs[|recs| - 1];
      KeptInSize(idx, fid, init);
      var tail := if Keep(idx, fid, r) then [(fid, r)] else [];
      KeptSizeConcat(KeptIn(idx, fid, init), tail);
      assert [(fid, r)][..0] == [];
    }
  }

  /** The records a merge keeps take no more room than the archives they come from. */
  lemma {:induction false} SurvivorsSize(s: Store, H: Hasher, ids: seq<u16>)
    requires forall i :: 0 <= i < |ids| ==> ids[i] in s.files && Exact(s.files[ids[i]].bytes)
    ensures KeptSize(Survivors(s, H, ids)) <= Footprint(s.files, ids)
    decreases |ids|
  {
    if |ids| > 0 {
      SurvivorsSize(s, H, ids[..|ids| - 1]);
      var f := s.files[ids[|ids| - 1]];
      var b := KeptOf(s.index, f, H);
      KeptSizeConcat(Survivors(s, H, ids[..|ids| - 1]), b);
      if GetRecords(f, H).Ok? {
        var fs := Walk(f.bytes, 0).value;
        KeptInSize(s.index, f.id, Checked(H, fs));
        CheckedSize(H, fs);
        WalkSize(f.bytes, 0);
      }
    }
  }
}

=== FILE: observable.dfy ===
/** `ObservableFirkinHash`: a FirkinHash whose changes are pushed to
    subscribers. Subscriptions are kept in a map under keys handed out by an
    int counter; disposing a subscription handle removes its entry. Every
    change reaches every current subscriber, and disposing the hash sends
    each of them `OnCompleted`. What each subscription has received is kept
    in `inbox`, by subscription key. */
module Observable {
  import opened Bytes
  import opened Wrappers
  import opened Records
  import opened Segments
  import opened Indexes
  import opened Stores
  import Engine

  /** `FirkinHashChangeAction`. */
  datatype Action = Add | Change | Delete

  /** `FirkinHashChange<TKey>`: the key and what happened to it. */
  datatype HashChange = HashChange(key: Key, action: Action)

  /** What an observer is sent: `OnNext(change)` or `OnCompleted()`. */
  datatype Notice = Next(change: HashChange) | Completed

  /** An observer object, by identity. */
  type Observer = nat

  const MIN_INT32: int := -0x8000_0000
  const MAX_INT32: int := 0x7FFF_FFFF

  /** C# unchecked int arithmetic: the result wrapped into [-2^31, 2^31). */
  function WrapInt32(x: int): (r: int)
    ensures MIN_INT32 <= r <= MAX_INT32
    ensures MIN_INT32 <= x <= MAX_INT32 ==> r == x
  {
    (x - MIN_INT32) % TWO32 + MIN_INT32
  }

  /** The subscribers, the next subscription key, and every subscription's notices. */
  datatype Hub = Hub(subs: map<int, Observer>, next: int, inbox: map<int, seq<Notice>>)

  /** No subscriber, counter at 0. */
  function Fresh(): (h: Hub)
    ensures h.subs == map[] && h.next == 0 && h.inbox == map[]
  {
    Hub(map[], 0, map[])
  }

  /** Every key handed out lies below the counter, and every subscriber has an inbox. */
  predicate Good(h: Hub) {
    && 0 <= h.next
    && (forall k | k in h.inbox :: 0 <= k < h.next)
    && (forall k | k in h.subs :: k in h.inbox)
  }

  /** `Subscribe`: null is refused; otherwise the observer is stored under
      the counter's value, which is returned (its handle), and the counter
      moves on. */
  function Subscribe(h: Hub, o: Option<Observer>): (r: Result<(Hub, int)>)
    ensures o.None? <==> r == Err(ArgumentNull)
    ensures r.Ok? ==> var (u, k) := r.value;
      && k == h.next && u.subs == h.subs[k := o.value] && u.inbox == h.inbox[k := []]
      && u.next == WrapInt32(h.next + 1)
  {
    if o.None? then Err(ArgumentNull)
    else
      var k := h.next;
      Ok((Hub(h.subs[k := o.value], WrapInt32(k + 1), h.inbox[k := []]), k))
  }

  /** Disposing the handle of subscription `k`. */
  function Unsubscribe(h: Hub, k: int): (u: Hub)
    ensures k !in u.subs && u.inbox == h.inbox && u.next == h.next
    ensures forall j | j != k :: (j in u.subs <==> j in h.subs) && (j in h.subs ==> u.subs[j] == h.subs[j])
  {
    h.(subs := h.subs - {k})
  }

  /** `OnNext`: the change goes to every current subscriber. */
  function Publish(h: Hub, c: HashChange): (u: Hub)
    ensures u.subs == h.subs && u.next == h.next && u.inbox.Keys == h.inbox.Keys
    ensures forall k | k in h.inbox :: u.inbox[k] == h.inbox[k] + (if k in h.subs then [Next(c)] else [])
  {
    h.(inbox := map k | k in h.inbox :: if k in h.subs then h.inbox[k] + [Next(c)] else h.inbox[k])
  }

  /** `OnCompleted`: every current subscriber is told the sequence ended. */
  function Complete(h: Hub): (u: Hub)
    ensures u.subs == h.subs && u.next == h.next && u.inbox.Keys == h.inbox.Keys
    ensures forall k | k in h.inbox :: u.inbox[k] == h.inbox[k] + (if k in h.subs then [Completed] else [])
  {
    h.(inbox := map k | k in h.inbox :: if k in h.subs then h.inbox[k] + [Completed] else h.inbox[k])
  }

  /** A subscription key is never handed out twice while the counter has
      not wrapped: the new key had no inbox, and the hub stays good. */
  lemma SubscribeFresh(h: Hub, o: Observer)
    requires Good(h) && h.next < MAX_INT32
    ensures Subscribe(h, Some(o)).Ok?
    ensures var (u, k) := Subscribe(h, Some(o)).value;
      && k !in h.inbox && k !in h.subs && Good(u) && u.next == k + 1 && u.subs[k] == o
  {
  }

  /** Subscribing then disposing the handle leaves the same subscribers. */
  lemma SubscribeThenUnsubscribe(h: Hub, o: Observer)
    requires Good(h) && h.next < MAX_INT32
    ensures Subscribe(h, Some(o)).Ok?
    ensures var (u, k) := Subscribe(h, Some(o)).value; Unsubscribe(u, k).subs == h.subs
  {
    SubscribeFresh(h, o);
  }

  /** The notices a run of changes sends. */
  function Nexts(cs: seq<HashChange>): (ns: seq<Notice>)
    ensures |ns| == |cs| && forall i :: 0 <= i < |cs| ==> ns[i] == Next(cs[i])
  {
    if |cs| == 0 then [] else Nexts(cs[..|cs| - 1]) + [Next(cs[|cs| - 1])]
  }

  /** Publishing changes one after another. */
  function PublishAll(h: Hub, cs: seq<HashChange>): Hub
    decreases |cs|
  {
    if |cs| == 0 then h else Publish(PublishAll(h, cs[..|cs| - 1]), cs[|cs| - 1])
  }

  /** Each current subscriber receives every change, in order, and nothing
      else; a former subscriber receives nothing. */
  lemma {:induction false} PublishAllDelivers(h: Hub, cs: seq<HashChange>)
    ensures var u := PublishAll(h, cs);
      && u.subs == h.subs && u.inbox.Keys == h.inbox.Keys
      && forall k | k in h.inbox :: u.inbox[k] == h.inbox[k] + (if k in h.subs then Nexts(cs) else [])
    decreases |cs|
  {
    if |cs| > 0 {
      var init := cs[..|cs| - 1];
      PublishAllDelivers(h, init);
      var v := PublishAll(h, init);
      forall k | k in h.inbox
        ensures PublishAll(h, cs).inbox[k] == h.inbox[k] + (if k in h.subs then Nexts(cs) else [])
      {
        assert Nexts(cs) == Nexts(init) + [Next(cs[|cs| - 1])];
        if k in h.subs {
          assert PublishAll(h, cs).inbox[k] == v.inbox[k] + [Next(cs[|cs| - 1])];
        }
      }
    }
  }

  /** Disposing the hash: `OnCompleted` to every subscriber, then every data
      file is disposed. */
  function Dispose(h: Hub, s: Store): (r: (Hub, Store))
    ensures r.0 == Complete(h)
    ensures r.1.files.Keys == s.files.Keys && forall id | id in s.files :: r.1.files[id] == Segments.Dispose(s.files[id])
  {
    (Complete(h), s.(files := map id | id in s.files :: Segments.Dispose(s.files[id])))
  }

  /** After disposal each subscriber's last notice is `OnCompleted`, sent
      once, with no change notice added. */
  lemma DisposeCompletes(h: Hub, s: Store, k: int)
    requires k in h.subs && k in h.inbox
    ensures var u := Dispose(h, s).0;
      && k in u.inbox && |u.inbox[k]| == |h.inbox[k]| + 1
      && u.inbox[k][..|h.inbox[k]|] == h.inbox[k] && u.inbox[k][|h.inbox[k]|] == Completed
  {
  }

  /** `Delete` on the observable hash: the engine's delete, then `Delete`
      is published when the key was there. */
  function DeleteKey(h: Hub, s: Store, H: Hasher, key: Key): (r: Result<(Hub, Store, bool)>)
    requires s.head in s.files && |key| < TWO32
    ensures r.Ok? <==> Engine.Delete(s, H, key).Ok?
    ensures r.Ok? ==> r.value.1 == Engine.Delete(s, H, key).value.0 && r.value.2 == Engine.Delete(s, H, key).value.1
  {
    var (t, found) :- Engine.Delete(s, H, key);
    if found then Ok((Publish(h, HashChange(key, Delete)), t, true)) else Ok((h, t, false))
  }

  /** `Put` on the observable hash: an empty value is a delete; otherwise
      the engine's put, then `Change` when the key was indexed before the
      write and `Add` when it was not. */
  function PutKey(h: Hub, s: Store, H: Hasher, key: Key, value: seq<byte>): (r: Result<(Hub, Store)>)
    requires s.head in s.files && |key| < TWO32 && |value| < TWO32
    ensures r.Ok? <==> Engine.Put(s, H, key, value).Ok?
    ensures r.Ok? ==> r.value.1 == Engine.Put(s, H, key, value).value
  {
    if |value| == 0 then
      var (u, t, _) :- DeleteKey(h, s, H, key);
      Ok((u, t))
    else
      var t :- Engine.Put(s, H, key, value);
      Ok((Publish(h, HashChange(key, if key in s.index then Change else Add)), t))
  }

  /** The event protocol on a valid store: a put with a value publishes
      `Add` for a new key and `Change` for an indexed one, and the key then
      reads the value; a delete of an indexed key publishes `Delete`; a
      delete of a missing key publishes nothing. */
  lemma EventProtocol(h: Hub, s: Store, H: Hasher, maxKeySize: nat, key: Key, value: seq<byte>)
    requires Valid(s, H, maxKeySize) && Engine.Room(s, key, value) && Engine.Room(s, key, [])
    ensures |value| > 0 ==> PutKey(h, s, H, key, value).Ok?
    ensures |value| > 0 ==> var (u, t) := PutKey(h, s, H, key, value).value;
      && u == Publish(h, HashChange(key, if key in s.index then Change else Add))
      && Observe(t) == Observe(s)[key := Some(value)]
    ensures key in s.index ==> DeleteKey(h, s, H, key).Ok?
    ensures key in s.index ==> var (u, t, found) := DeleteKey(h, s, H, key).value;
      && found && u == Publish(h, HashChange(key, Delete)) && Observe(t) == Observe(s) - {key}
    ensures key !in s.index ==> DeleteKey(h, s, H, key) == Ok((h, s, false))
    ensures |value| == 0 && key !in s.index ==> PutKey(h, s, H, key, value) == Ok((h, s))
  {
    if |value| > 0 {
      Engine.PutValid(s, H, maxKeySize, key, value);
    }
    if key in s.index {
      Engine.DeleteValid(s, H, maxKeySize, key);
    }
  }
}

=== FILE: record.dfy ===
/** Segment record framing (the byte layout FirkinFile writes and scans):
    hash(16) | serial | key length | value length (u32 LE each) | key | value. */
module Records {
  import opened Bytes
  import opened Wrappers
  import opened Layout

  /** A 16-byte checksum. */
  type Digest = s: seq<byte> | |s| == HASH_SIZE witness Zeros(HASH_SIZE)

  /** The checksum of key‖value (MD5 in the source), taken as a parameter. */
  type Hasher = seq<byte> -> Digest

  /** The 28-byte record header. */
  function Header(hash: Digest, serial: u32, keySize: u32, valueSize: u32): (h: seq<byte>)
    ensures |h| == HEADER_SIZE
  {
    hash + LE32(serial) + LE32(keySize) + LE32(valueSize)
  }

  /** A whole record as `Write(KeyValuePair)` appends it; lengths are cast to uint. */
  function Encode(hash: Digest, serial: u32, key: seq<byte>, value: seq<byte>): (r: seq<byte>)
    ensures |r| == HEADER_SIZE + |key| + |value|
  {
    Header(hash, serial, Wrap32(|key|), Wrap32(|value|)) + key + value
  }

  /** `BitConverter.ToUInt32(header, offset)`: out of range when the offset is
      past the last byte, an argument error when fewer than four bytes remain. */
  function ToUInt32(header: seq<byte>, offset: nat): (r: Result<u32>)
    ensures r.Ok? <==> offset + 4 <= |header|
  {
    if offset >= |header| then Err(ArgumentOutOfRange)
    else if offset + 4 > |header| then Err(Argument)
    else Ok(U32At(header, offset))
  }

  /** A u32 stored at some offset reads back through `ToUInt32`. */
  lemma ToUInt32RoundTrip(a: seq<byte>, x: u32, b: seq<byte>)
    ensures ToUInt32(a + LE32(x) + b, |a|) == Ok(x)
  {
    U32AtConcat(a, x, b);
  }

  /** One record as a scan sees it. `key` and `value` are what the reads
      delivered, shorter than the header's sizes when the segment ends early. */
  datatype Frame = Frame(start: nat, hash: Digest, serial: u32, keySize: u32, valueSize: u32,
                         key: seq<byte>, value: seq<byte>)

  /** Reads one record at `pos` (before the end of the segment): the frame
      and the offset the scan continues from. A partial header makes the
      BitConverter reads of the two sizes throw. */
  function Step(bytes: seq<byte>, pos: nat): (r: Result<(Frame, nat)>)
    requires pos < |bytes|
    ensures r.Ok? ==> pos < r.value.1 && r.value.0.start == pos
  {
    var header := bytes[pos..Min(pos + HEADER_SIZE, |bytes|)];
    var keySize :- ToUInt32(header, KEY_SIZE_OFFSET);
    var valueSize :- ToUInt32(header, VALUE_SIZE_OFFSET);
    var keyStart := pos + HEADER_SIZE;
    var key := bytes[keyStart..Min(keyStart + keySize, |bytes|)];
    var valueStart := keyStart + |key|;
    var value := bytes[valueStart..Min(valueStart + valueSize, |bytes|)];
    Ok((Frame(pos, header[..HASH_SIZE], U32At(header, SERIAL_OFFSET), keySize, valueSize, key, value),
        valueStart + |value|))
  }

  /** The record scan shared by `GetKeys` and `GetRecords`, from byte `pos`.
      An empty header read ends the scan. After a truncated key or value the
      two scans continue at different offsets, but both are then at or past
      the end of the segment, so both stop there. */
  function Walk(bytes: seq<byte>, pos: nat): Result<seq<Frame>>
    decreases if pos <= |bytes| then |bytes| - pos else 0
  {
    if pos >= |bytes| then Ok([])
    else
      var (frame, next) :- Step(bytes, pos);
      var rest :- Walk(bytes, next);
      Ok([frame] + rest)
  }

  /** The header's sizes were delivered in full. */
  predicate Complete(f: Frame) {
    |f.key| == f.keySize && |f.value| == f.valueSize
  }

  predicate AllComplete(fs: seq<Frame>) {
    forall i :: 0 <= i < |fs| ==> Complete(fs[i])
  }

  /** The segment is a sequence of whole records and nothing else. */
  predicate Exact(bytes: seq<byte>) {
    Walk(bytes, 0).Ok? && AllComplete(Walk(bytes, 0).value)
  }

  /** The frames of a well-formed segment. */
  function Frames(bytes: seq<byte>): seq<Frame>
    requires Exact(bytes)
  {
    Walk(bytes, 0).value
  }

  /** What scanning an appended record yields. */
  function FrameOf(start: nat, hash: Digest, serial: u32, key: seq<byte>, value: seq<byte>): Frame
    requires |key| < TWO32 && |value| < TWO32
  {
    Frame(start, hash, serial, |key|, |value|, key, value)
  }

  /** Reading the header, key and value of one encoded record placed at the
      end of a segment gives back that record, and the scan then stops. */
  lemma StepOne(s: seq<byte>, hash: Digest, serial: u32, key: seq<byte>, value: seq<byte>)
    requires |key| < TWO32 && |value| < TWO32
    ensures Step(s + Encode(hash, serial, key, value), |s|)
         == Ok((FrameOf(|s|, hash, serial, key, value), |s| + |Encode(hash, serial, key, value)|))
  {
    var e := Encode(hash, serial, key, value);
    var t := s + e;
    var h := Header(hash, serial, |key|, |value|);
    var p := |s|;
    assert e == h + key + value;
    assert t == s + h + key + value;
    assert |t| == p + HEADER_SIZE + |key| + |value|;
    ThreeParts(s, h, key, value);
    assert t[p..Min(p + HEADER_SIZE, |t|)] == h;
    HeaderFields(hash, serial, |key|, |value|);
    assert t[p + HEADER_SIZE..Min(p + HEADER_SIZE + |key|, |t|)] == key;
    assert t[p + HEADER_SIZE + |key|..Min(p + HEADER_SIZE + |key| + |value|, |t|)] == value;
  }

  /** The three parts appended after a prefix are read back by slicing. */
  lemma ThreeParts(s: seq<byte>, h: seq<byte>, k: seq<byte>, v: seq<byte>)
    ensures (s + h + k + v)[|s|..|s| + |h|] == h
    ensures (s + h + k + v)[|s| + |h|..|s| + |h| + |k|] == k
    ensures (s + h + k + v)[|s| + |h| + |k|..|s| + |h| + |k| + |v|] == v
  {
    var t := s + h + k + v;
    assert forall i | 0 <= i < |h| :: t[|s| + i] == h[i];
    assert forall i | 0 <= i < |k| :: t[|s| + |h| + i] == k[i];
    assert forall i | 0 <= i < |v| :: t[|s| + |h| + |k| + i] == v[i];
  }

  /** The fields of a header read back. */
  lemma HeaderFields(hash: Digest, serial: u32, keySize: u32, valueSize: u32)
    ensures ToUInt32(Header(hash, serial, keySize, valueSize), KEY_SIZE_OFFSET) == Ok(keySize)
    ensures ToUInt32(Header(hash, serial, keySize, valueSize), VALUE_SIZE_OFFSET) == Ok(valueSize)
    ensures U32At(Header(hash, serial, keySize, valueSize), SERIAL_OFFSET) == serial
    ensures Header(hash, serial, keySize, valueSize)[..HASH_SIZE] == hash
  {
    var h := Header(hash, serial, keySize, valueSize);
    ToUInt32RoundTrip(hash + LE32(serial), keySize, LE32(valueSize));
    ToUInt32RoundTrip(hash + LE32(serial) + LE32(keySize), valueSize, []);
    assert h == hash + LE32(serial) + LE32(keySize) + LE32(valueSize) + [];
    U32AtConcat(hash, serial, LE32(keySize) + LE32(valueSize));
    assert h == hash + LE32(serial) + (LE32(keySize) + LE32(valueSize));
  }

  /** A complete record inside a segment reads the same after more bytes are appended. */
  lemma StepPrefix(s: seq<byte>, e: seq<byte>, pos: nat)
    requires pos < |s| && Step(s, pos).Ok? && Complete(Step(s, pos).value.0)
    ensures Step(s, pos).value.1 <= |s|
    ensures Step(s + e, pos) == Step(s, pos)
  {
    var t := s + e;
    var header := s[pos..Min(pos + HEADER_SIZE, |s|)];
    assert |header| == HEADER_SIZE;
    assert t[pos..Min(pos + HEADER_SIZE, |t|)] == header;
    var keySize := ToUInt32(header, KEY_SIZE_OFFSET).value;
    var valueSize := ToUInt32(header, VALUE_SIZE_OFFSET).value;
    var keyStart := pos + HEADER_SIZE;
    assert keyStart + keySize <= |s|;
    assert t[keyStart..Min(keyStart + keySize, |t|)] == s[keyStart..Min(keyStart + keySize, |s|)];
    var valueStart := keyStart + keySize;
    assert valueStart + valueSize <= |s|;
    assert t[valueStart..Min(valueStart + valueSize, |t|)] == s[valueStart..Min(valueStart + valueSize, |s|)];
  }

  /** The central framing fact: appending one encoded record to a segment of
      whole records adds exactly one frame, at the old end, and keeps every
      earlier frame. */
  lemma {:induction false} WalkAppend(s: seq<byte>, pos: nat, hash: Digest, serial: u32, key: seq<byte>, value: seq<byte>)
    requires |key| < TWO32 && |value| < TWO32
    requires pos <= |s| && Walk(s, pos).Ok? && AllComplete(Walk(s, pos).value)
    ensures Walk(s + Encode(hash, serial, key, value), pos)
         == Ok(Walk(s, pos).value + [FrameOf(|s|, hash, serial, key, value)])
    decreases |s| - pos
  {
    var e := Encode(hash, serial, key, value);
    var fr := FrameOf(|s|, hash, serial, key, value);
    if pos == |s| {
      WalkAppendEnd(s, hash, serial, key, value);
      assert [] + [fr] == [fr];
    } else {
      var fs := Walk(s, pos).value;
      WalkUnfold(s, pos);
      var (f, next) := Step(s, pos).value;
      var rest := Walk(s, next).value;
      AllCompleteSplit([f], rest);
      assert Complete([f][0]);
      StepPrefix(s, e, pos);
      WalkAppend(s, next, hash, serial, key, value);
      WalkStep(s + e, pos);
      assert fs + [fr] == [f] + (rest + [fr]);
    }
  }

  /** Both parts of a run of complete frames are complete. */
  lemma AllCompleteSplit(a: seq<Frame>, b: seq<Frame>)
    requires AllComplete(a + b)
    ensures AllComplete(a) && AllComplete(b)
  {
    assert forall i :: 0 <= i < |a| ==> (a + b)[i] == a[i];
    assert forall i :: 0 <= i < |b| ==> (a + b)[|a| + i] == b[i];
  }

  /** One step of the scan, as the definition takes it. */
  lemma WalkStep(bytes: seq<byte>, pos: nat)
    requires pos < |bytes| && Step(bytes, pos).Ok?
    ensures Walk(bytes, Step(bytes, pos).value.1).Ok? ==>
      Walk(bytes, pos) == Ok([Step(bytes, pos).value.0] + Walk(bytes, Step(bytes, pos).value.1).value)
  {
  }

  /** The record appended at the end of a segment is scanned as the last frame. */
  lemma WalkAppendEnd(s: seq<byte>, hash: Digest, serial: u32, key: seq<byte>, value: seq<byte>)
    requires |key| < TWO32 && |value| < TWO32
    ensures Walk(s, |s|) == Ok([])
    ensures Walk(s + Encode(hash, serial, key, value), |s|) == Ok([FrameOf(|s|, hash, serial, key, value)])
  {
    var t := s + Encode(hash, serial, key, value);
    StepOne(s, hash, serial, key, value);
    assert Walk(t, |t|) == Ok([]);
    WalkStep(t, |s|);
    assert [FrameOf(|s|, hash, serial, key, value)] + [] == [FrameOf(|s|, hash, serial, key, value)];
  }

  /** Appending to an exact segment keeps it exact and extends its frames by one. */
  lemma AppendExact(s: seq<byte>, hash: Digest, serial: u32, key: seq<byte>, value: seq<byte>)
    requires |key| < TWO32 && |value| < TWO32
    requires Exact(s)
    ensures Exact(s + Encode(hash, serial, key, value))
    ensures Frames(s + Encode(hash, serial, key, value)) == Frames(s) + [FrameOf(|s|, hash, serial, key, value)]
  {
    WalkAppend(s, 0, hash, serial, key, value);
  }

  /** The frame's header, key and value occupy its bytes of the segment. */
  predicate Placed(bytes: seq<byte>, f: Frame) {
    && f.start + HEADER_SIZE + f.keySize + f.valueSize <= |bytes|
    && bytes[f.start + HEADER_SIZE..f.start + HEADER_SIZE + f.keySize] == f.key
    && bytes[f.start + HEADER_SIZE + f.keySize..f.start + HEADER_SIZE + f.keySize + f.valueSize] == f.value
  }

  /** A complete record read at `pos` occupies its header, key and value bytes there. */
  lemma StepBytes(bytes: seq<byte>, pos: nat)
    requires pos < |bytes| && Step(bytes, pos).Ok? && Complete(Step(bytes, pos).value.0)
    ensures Placed(bytes, Step(bytes, pos).value.0)
  {
  }

  /** A successful scan at `pos` is the frame there followed by the scan after it. */
  lemma WalkUnfold(bytes: seq<byte>, pos: nat)
    requires pos < |bytes| && Walk(bytes, pos).Ok?
    ensures Step(bytes, pos).Ok? && Walk(bytes, Step(bytes, pos).value.1).Ok?
    ensures Walk(bytes, pos).value == [Step(bytes, pos).value.0] + Walk(bytes, Step(bytes, pos).value.1).value
  {
  }

  /** Every frame of a scan of whole records lies inside the segment, in order,
      with its key and value at the offsets its header implies. */
  lemma {:induction false} FrameAt(bytes: seq<byte>, pos: nat, i: nat)
    requires Walk(bytes, pos).Ok? && AllComplete(Walk(bytes, pos).value) && i < |Walk(bytes, pos).value|
    ensures pos <= Walk(bytes, pos).value[i].start && Placed(bytes, Walk(bytes, pos).value[i])
    decreases |bytes| - pos
  {
    var fs := Walk(bytes, pos).value;
    WalkUnfold(bytes, pos);
    var (f, next) := Step(bytes, pos).value;
    var rest := Walk(bytes, next).value;
    assert fs == [f] + rest;
    assert Complete(fs[0]);
    StepBytes(bytes, pos);
    if i > 0 {
      assert AllComplete(rest) by {
        forall j | 0 <= j < |rest| ensures Complete(rest[j]) {
          assert rest[j] == fs[j + 1];
        }
      }
      FrameAt(bytes, next, i - 1);
      assert fs[i] == rest[i - 1];
    }
  }

  /** The empty segment is exact and has no frames. */
  lemma EmptyExact()
    ensures Exact([]) && Frames([]) == []
  {
  }
}

=== FILE: recovery.dfy ===
/** Startup (`FirkinHash.Initialize`): every `store_N` data file is opened
    read-only in id order; a file with a hint file contributes the hint
    entries (each sets its key), any other file is scanned with `GetKeys`
    and replayed (a deletion marker removes its key). The last file stays
    the head when it is below the maximum size, with its serial counter
    continuing from the last scanned serial; otherwise a new empty head
    takes the next id (1 when there is no file). */
module Recovery {
  import opened Bytes
  import opened Wrappers
  import opened Records
  import opened KeyInfos
  import opened Segments
  import opened Indexes
  import opened Stores
  import opened Merges
  import HintFiles

  /** The store directory startup finds: the data files and the hint files, by id. */
  datatype Disk = Disk(data: map<u16, seq<byte>>, hints: map<u16, seq<byte>>)

  /** What a store leaves on disk: every data file's bytes and the hint files. */
  function Persist(s: Store): (d: Disk)
    ensures d.data.Keys == s.files.Keys && d.hints == s.hints
    ensures forall id | id in s.files :: d.data[id] == s.files[id].bytes
  {
    Disk(map id | id in s.files :: s.files[id].bytes, s.hints)
  }

  /** `maxSerial` after a key scan: the serial of the last item, 0 when there is none. */
  function LastSerial(items: seq<Entry>): (n: u32)
    ensures |items| > 0 ==> n == items[|items| - 1].info.serial
    ensures |items| == 0 ==> n == 0
  {
    if |items| == 0 then 0 else items[|items| - 1].info.serial
  }

  /** A data file as startup opens it. */
  function Opened(d: Disk, id: u16): Segment
    requires id in d.data
  {
    OpenArchive(FileName(StorePrefix, id), id, d.data[id])
  }

  /** The loop over the data files at `ids`: the file table, the index and
      `maxSerial` (reset to 0 for every file, so a file read through its
      hint file leaves 0). A hint file that does not decode or a data file
      that does not scan aborts startup. */
  function Load(d: Disk, ids: seq<u16>, maxKeySize: nat): (r: Result<(map<u16, Segment>, Index, u32)>)
    requires forall i :: 0 <= i < |ids| ==> ids[i] in d.data
    ensures r.Ok? ==> forall id :: id in r.value.0 <==> id in ids
    ensures r.Ok? ==> forall id | id in r.value.0 :: id in d.data && r.value.0[id] == Opened(d, id)
    decreases |ids|
  {
    if |ids| == 0 then Ok((map[], map[], 0))
    else
      var (files, idx, _) :- Load(d, ids[..|ids| - 1], maxKeySize);
      var id := ids[|ids| - 1];
      var f := Opened(d, id);
      if id in d.hints then
        var hs :- HintFiles.Decode(d.hints[id], maxKeySize);
        Ok((files[id := f], Overlay(idx, HintEntries(id, hs)), 0))
      else
        var items :- GetKeys(f);
        Ok((files[id := f], Replay(idx, items), LastSerial(items)))
  }

  /** `Initialize`: load every data file in id order, then pick the head.
      Only loading can fail. */
  function Initialize(d: Disk, maxKeySize: nat, maxSize: int): (r: Result<Store>)
    ensures r.Ok? <==> Load(d, Ascending(d.data.Keys), maxKeySize).Ok?
    ensures r.Ok? ==> r.value.head in r.value.files && r.value.hints == d.hints && r.value.maxSize == maxSize
    ensures r.Ok? ==> r.value.index == Load(d, Ascending(d.data.Keys), maxKeySize).value.1
  {
    var ids := Ascending(d.data.Keys);
    var (files, idx, maxSerial) :- Load(d, ids, maxKeySize);
    if |ids| > 0 && |d.data[ids[|ids| - 1]]| < maxSize then
      var last := ids[|ids| - 1];
      Ok(Store(files[last := OpenActiveFromArchive(Opened(d, last), maxSerial)], last, idx, d.hints, maxSize))
    else
      var id := if |ids| == 0 then 1 else Wrap16(ids[|ids| - 1] as int + 1);
      Ok(Store(files[id := CreateActive(FileName(StorePrefix, id), id)], id, idx, d.hints, maxSize))
  }

  /** An empty directory starts an empty store whose head is file 1. */
  lemma InitializeEmpty(d: Disk, maxKeySize: nat, maxSize: int)
    requires |d.data| == 0
    ensures Initialize(d, maxKeySize, maxSize) == Ok(Store(map[1 := CreateActive(FileName(StorePrefix, 1), 1)], 1, map[], d.hints, maxSize))
  {
    assert d.data.Keys == {};
    var ids := Ascending(d.data.Keys);
    IncreasingUnique(ids, []);
  }

  /** A data file's key scan, through its hint file, gives its key items. */
  lemma HintItems(f: Segment, hint: seq<byte>, maxKeySize: nat)
    requires HintFor(f, hint, maxKeySize)
    ensures HintFiles.Decode(hint, maxKeySize) == Ok(HintsOf(Frames(f.bytes)))
    ensures HintEntries(f.id, HintsOf(Frames(f.bytes))) == Items(f)
    ensures forall i :: 0 <= i < |Items(f)| ==> Items(f)[i].info.valueSize > 0
  {
    var fs := Frames(f.bytes);
    assert forall i :: 0 <= i < |fs| ==> HintEntries(f.id, HintsOf(fs))[i] == EntryOf(f.id, fs[i]);
  }

  /** A reopened file reads like the original. */
  lemma OpenedItems(s: Store, id: u16)
    requires Shape(s) && id in s.files && Exact(s.files[id].bytes)
    ensures Items(Opened(Persist(s), id)) == Items(s.files[id])
    ensures GetKeys(Opened(Persist(s), id)) == Ok(Items(s.files[id]))
  {
  }

  /** One more file loaded: the index is the replay of its key items over the
      index so far, through its hint file or its key scan. */
  lemma LoadStep(s: Store, H: Hasher, maxKeySize: nat, idx: Index, id: u16)
    requires Shape(s) && FilesOk(H, s) && HintsOk(s, maxKeySize) && id in s.files
    ensures id in s.hints ==> HintFiles.Decode(s.hints[id], maxKeySize) == Ok(HintsOf(Frames(s.files[id].bytes)))
    ensures id in s.hints ==> Overlay(idx, HintEntries(id, HintsOf(Frames(s.files[id].bytes)))) == Replay(idx, Items(s.files[id]))
    ensures id !in s.hints ==> GetKeys(Opened(Persist(s), id)) == Ok(Items(s.files[id]))
  {
    assert FileOk(H, s.files[id]);
    OpenedItems(s, id);
    if id in s.hints {
      HintItems(s.files[id], s.hints[id], maxKeySize);
      OverlayIsReplay(idx, Items(s.files[id]));
    }
  }

  /** Loading what a sound store left on disk indexes the replay of the
      loaded files' items; `maxSerial` is the last serial of the last file
      when that file has no hint file. */
  lemma {:induction false} LoadOk(s: Store, H: Hasher, maxKeySize: nat, ids: seq<u16>)
    requires Shape(s) && FilesOk(H, s) && HintsOk(s, maxKeySize)
    requires forall i :: 0 <= i < |ids| ==> ids[i] in s.files
    ensures Load(Persist(s), ids, maxKeySize).Ok?
    ensures Load(Persist(s), ids, maxKeySize).value.1 == Replay(map[], LogOf(s.files, ids))
    ensures |ids| > 0 && ids[|ids| - 1] !in s.hints ==>
      Load(Persist(s), ids, maxKeySize).value.2 == LastSerial(Items(s.files[ids[|ids| - 1]]))
    decreases |ids|
  {
    if |ids| > 0 {
      var init := ids[..|ids| - 1];
      var id := ids[|ids| - 1];
      LoadOk(s, H, maxKeySize, init);
      var idx := Load(Persist(s), init, maxKeySize).value.1;
      LoadStep(s, H, maxKeySize, idx, id);
      LogOfLast(s.files, ids);
      ReplayConcat(map[], LogOf(s.files, init), Items(s.files[id]));
    }
  }

  /** A store `r` that holds the files of a sound store `s` (same ids, same
      bytes), possibly with a new empty head above them, the same index and
      the same hint files. */
  ghost predicate Mirrors(s: Store, r: Store) {
    && r.index == s.index && r.hints == s.hints
    && r.head in r.files && s.head <= r.head
    && (forall id :: id in r.files <==> id in s.files || id == r.head)
    && (r.head !in s.files ==> r.files[r.head].bytes == [])
    && (forall id | id in r.files :: r.files[id].id == id && !r.files[id].disposed && (r.files[id].writable <==> id == r.head))
    && (forall id | id in s.files :: r.files[id].bytes == s.files[id].bytes)
  }

  /** A mirror logs what the original logs. */
  lemma MirrorLog(s: Store, r: Store)
    requires Shape(s) && Mirrors(s, r)
    ensures Log(r) == Log(s)
  {
    var A := Ascending(s.files.Keys);
    LogOfSame(s.files, r.files, A);
    if r.head !in s.files {
      assert r.files.Keys == s.files.Keys + {r.head};
      AscendingAdd(s.files.Keys, r.head);
      EmptyExact();
      LogOfThen(r.files, A, r.head);
    } else {
      assert r.files.Keys == s.files.Keys;
    }
  }

  lemma LogOfThen(files: map<u16, Segment>, ids: seq<u16>, id: u16)
    requires id in files
    ensures LogOf(files, ids + [id]) == LogOf(files, ids) + Items(files[id])
  {
    assert (ids + [id])[..|ids|] == ids;
  }

  /** A mirror keeps the store's shape and every file sound. */
  lemma MirrorFiles(s: Store, H: Hasher, r: Store)
    requires Shape(s) && FilesOk(H, s) && Mirrors(s, r)
    ensures Shape(r) && FilesOk(H, r)
  {
    EmptyExact();
    forall id | id in r.files ensures 1 <= id <= r.head && FileOk(H, r.files[id]) {
      if id in s.files {
        assert FileOk(H, s.files[id]);
      }
    }
  }

  /** A mirror keeps every hint file describing its data file. */
  lemma MirrorHints(s: Store, maxKeySize: nat, r: Store)
    requires Shape(s) && HintsOk(s, maxKeySize) && Mirrors(s, r)
    ensures HintsOk(r, maxKeySize)
  {
    forall id | id in r.hints ensures id in r.files && id != r.head && HintFor(r.files[id], r.hints[id], maxKeySize) {
      assert HintFor(s.files[id], s.hints[id], maxKeySize);
    }
  }

  /** A mirror resolves every indexed key to the same value. */
  lemma MirrorObserve(s: Store, H: Hasher, maxKeySize: nat, r: Store)
    requires Valid(s, H, maxKeySize) && Mirrors(s, r)
    ensures Observe(r) == Observe(s)
  {
    forall k | k in s.index ensures Resolve(r, r.index[k]) == Resolve(s, s.index[k]) {
      ValidResolves(s, H, maxKeySize, k);
    }
  }

  /** A mirror with a sound head is sound and reads like the original. */
  lemma MirrorValid(s: Store, H: Hasher, maxKeySize: nat, r: Store)
    requires Valid(s, H, maxKeySize) && Mirrors(s, r) && HeadSerial(r)
    ensures Valid(r, H, maxKeySize) && Observe(r) == Observe(s)
  {
    MirrorFiles(s, H, r);
    MirrorHints(s, maxKeySize, r);
    MirrorLog(s, r);
    MirrorObserve(s, H, maxKeySize, r);
  }

  /** The last serial of a sound file is its largest. */
  lemma LastSerialMax(H: Hasher, f: Segment)
    requires FileOk(H, f)
    ensures forall i :: 0 <= i < |Frames(f.bytes)| ==> Frames(f.bytes)[i].serial <= LastSerial(Items(f))
  {
  }

  /** The data files as startup reopens them. */
  function Reopened(s: Store): (files: map<u16, Segment>)
    ensures files.Keys == s.files.Keys
  {
    map id | id in s.files :: Opened(Persist(s), id)
  }

  /** Startup lists a store's files in ascending order, the head last. */
  lemma ListedHeadLast(s: Store)
    requires Shape(s)
    ensures var ids := Ascending(Persist(s).data.Keys);
      && ids == Ascending(s.files.Keys) && |ids| > 0 && ids[|ids| - 1] == s.head
      && forall i :: 0 <= i < |ids| ==> ids[i] in s.files
  {
    var ids := Ascending(s.files.Keys);
    AscendingLast(s.files.Keys, s.head);
    assert forall i :: 0 <= i < |ids| ==> ids[i] in s.files by {
      assert forall i :: 0 <= i < |ids| ==> ids[i] in ids;
    }
  }

  /** A file table holding every file of `s` as startup opens it is `Reopened(s)`. */
  lemma ReopenedIs(s: Store, files: map<u16, Segment>)
    requires forall id :: id in files <==> id in s.files
    requires forall id | id in files :: files[id] == Opened(Persist(s), id)
    ensures files == Reopened(s)
  {
  }

  /** Loading what a sound store left on disk gives back its index; the
      head comes last and has no hint file, so `maxSerial` is its last serial. */
  lemma LoadAll(s: Store, H: Hasher, maxKeySize: nat)
    requires Valid(s, H, maxKeySize)
    ensures var ids := Ascending(Persist(s).data.Keys);
      && |ids| > 0 && ids[|ids| - 1] == s.head
      && Load(Persist(s), ids, maxKeySize) == Ok((Reopened(s), s.index, LastSerial(Items(s.files[s.head]))))
  {
    var ids := Ascending(Persist(s).data.Keys);
    ListedHeadLast(s);
    LoadOk(s, H, maxKeySize, ids);
    var r := Load(Persist(s), ids, maxKeySize);
    var (files, idx, n) := r.value;
    ReopenedIs(s, files);
    assert idx == s.index;
    assert r == Ok((files, idx, n));
  }

  /** The store startup rebuilds when the head is below the maximum size:
      the head reopened for writing, its serial counter at its last serial. */
  function ReopenStore(s: Store): Store
    requires s.head in s.files
  {
    var n := LastSerial(Items(s.files[s.head]));
    Store(Reopened(s)[s.head := OpenActiveFromArchive(Opened(Persist(s), s.head), n)], s.head, s.index, s.hints, s.maxSize)
  }

  /** The store startup rebuilds when the head is full: a new empty head
      with the next id. */
  function FreshStore(s: Store): Store
    requires s.head as int + 1 < TWO16
  {
    var id := (s.head as int + 1) as u16;
    Store(Reopened(s)[id := CreateActive(FileName(StorePrefix, id), id)], id, s.index, s.hints, s.maxSize)
  }

  /** A head below the maximum size is reopened for writing. */
  lemma RecoverReopen(s: Store, H: Hasher, maxKeySize: nat)
    requires Valid(s, H, maxKeySize) && |s.files[s.head].bytes| < s.maxSize
    ensures Initialize(Persist(s), maxKeySize, s.maxSize) == Ok(ReopenStore(s))
  {
    LoadAll(s, H, maxKeySize);
  }

  /** Startup on a directory whose last data file is full: what was loaded,
      plus a new empty head after it. */
  lemma InitializeFull(d: Disk, maxKeySize: nat, maxSize: int, files: map<u16, Segment>, idx: Index, n: u32)
    requires var ids := Ascending(d.data.Keys);
      && |ids| > 0 && Load(d, ids, maxKeySize) == Ok((files, idx, n)) && |d.data[ids[|ids| - 1]]| >= maxSize
    ensures var ids := Ascending(d.data.Keys); var id := Wrap16(ids[|ids| - 1] as int + 1);
      Initialize(d, maxKeySize, maxSize) == Ok(Store(files[id := CreateActive(FileName(StorePrefix, id), id)], id, idx, d.hints, maxSize))
  {
  }

  /** Startup on a directory whose last data file is below the maximum size:
      what was loaded, with that file reopened for writing from the serial
      the load left behind. */
  lemma InitializeReopen(d: Disk, maxKeySize: nat, maxSize: int, files: map<u16, Segment>, idx: Index, n: u32)
    requires var ids := Ascending(d.data.Keys);
      && |ids| > 0 && Load(d, ids, maxKeySize) == Ok((files, idx, n)) && |d.data[ids[|ids| - 1]]| < maxSize
    ensures var ids := Ascending(d.data.Keys); var last := ids[|ids| - 1];
      Initialize(d, maxKeySize, maxSize) == Ok(Store(files[last := OpenActiveFromArchive(Opened(d, last), n)], last, idx, d.hints, maxSize))
  {
  }

  /** A full head is left as it is and a new empty head follows it. */
  lemma RecoverFresh(s: Store, H: Hasher, maxKeySize: nat)
    requires Valid(s, H, maxKeySize) && |s.files[s.head].bytes| >= s.maxSize && s.head as int + 1 < TWO16
    ensures Initialize(Persist(s), maxKeySize, s.maxSize) == Ok(FreshStore(s))
  {
    var d := Persist(s);
    LoadAll(s, H, maxKeySize);
    assert d.data[s.head] == s.files[s.head].bytes;
    InitializeFull(d, maxKeySize, s.maxSize, Reopened(s), s.index, LastSerial(Items(s.files[s.head])));
    assert Wrap16(s.head as int + 1) == (s.head as int + 1) as u16;
  }

  lemma ReopenMirrors(s: Store, H: Hasher)
    requires Shape(s) && FilesOk(H, s)
    ensures Mirrors(s, ReopenStore(s)) && HeadSerial(ReopenStore(s))
  {
    assert FileOk(H, s.files[s.head]);
    LastSerialMax(H, s.files[s.head]);
  }

  lemma FreshMirrors(s: Store)
    requires Shape(s) && s.head as int + 1 < TWO16
    ensures Mirrors(s, FreshStore(s)) && HeadSerial(FreshStore(s))
  {
    EmptyExact();
  }

  /** The reopened store is sound and reads like the original. */
  lemma ReopenValid(s: Store, H: Hasher, maxKeySize: nat)
    requires Valid(s, H, maxKeySize)
    ensures Valid(ReopenStore(s), H, maxKeySize) && Observe(ReopenStore(s)) == Observe(s)
    ensures ReopenStore(s).head == s.head && ReopenStore(s).files.Keys == s.files.Keys
  {
    ReopenMirrors(s, H);
    MirrorValid(s, H, maxKeySize, ReopenStore(s));
  }

  /** The store with a fresh head is sound and reads like the original. */
  lemma FreshValid(s: Store, H: Hasher, maxKeySize: nat)
    requires Valid(s, H, maxKeySize) && s.head as int + 1 < TWO16
    ensures Valid(FreshStore(s), H, maxKeySize) && Observe(FreshStore(s)) == Observe(s)
    ensures FreshStore(s).head as int == s.head as int + 1 && FreshStore(s).files.Keys == s.files.Keys + {FreshStore(s).head}
  {
    FreshMirrors(s);
    MirrorValid(s, H, maxKeySize, FreshStore(s));
  }

  /** Startup on what a sound store left on disk: it succeeds, loads the
      same index, and gives a sound store that reads the same values; the
      head is the old head, or a new empty head right after it when the old
      one had reached the maximum size. */
  lemma RecoverPreserves(s: Store, H: Hasher, maxKeySize: nat)
    requires Valid(s, H, maxKeySize) && s.head as int + 1 < TWO16
    ensures Initialize(Persist(s), maxKeySize, s.maxSize).Ok?
    ensures var r := Initialize(Persist(s), maxKeySize, s.maxSize).value;
      && Valid(r, H, maxKeySize) && r.index == s.index && Observe(r) == Observe(s)
      && (|s.files[s.head].bytes| < s.maxSize ==> r.head == s.head && r.files.Keys == s.files.Keys)
      && (|s.files[s.head].bytes| >= s.maxSize ==> r.head as int == s.head as int + 1 && r.files.Keys == s.files.Keys + {r.head})
  {
    if |s.files[s.head].bytes| < s.maxSize {
      RecoverReopen(s, H, maxKeySize);
      ReopenValid(s, H, maxKeySize);
      assert Initialize(Persist(s), maxKeySize, s.maxSize).value == ReopenStore(s);
    } else {
      RecoverFresh(s, H, maxKeySize);
      FreshValid(s, H, maxKeySize);
      assert Initialize(Persist(s), maxKeySize, s.maxSize).value == FreshStore(s);
    }
  }
}

=== FILE: rollover.dfy ===
/** Rollover at the size barrier: when every record reaches the maximum file
    size on its own, each put archives the head and starts a new one, so
    three puts into a fresh store leave four data files (three archives of
    one record each and an empty head). */
module Rollover {
  import opened Bytes
  import opened Wrappers
  import opened Layout
  import opened Records
  import opened Segments
  import opened Indexes
  import opened Stores
  import opened Engine

  /** A fresh store: one empty head, id 1, with the given maximum size. */
  function Empty(maxSize: int): Store {
    Truncate(Store(map[], 1, map[], map[], maxSize))
  }

  /** A put whose record alone reaches the maximum size, into an empty head,
      rolls over: one more file, the next id as head, and that head is empty
      with its serial counter at 0. */
  lemma PutIntoEmptyHead(s: Store, H: Hasher, maxKeySize: nat, key: Key, value: seq<byte>)
    requires Valid(s, H, maxKeySize) && s.files[s.head].bytes == [] && s.files[s.head].serial == 0
    requires 0 < |value| && |key| + |value| < 1000 && s.head as int + 1 < TWO16
    requires HEADER_SIZE + |key| + |value| >= s.maxSize
    ensures Put(s, H, key, value).Ok?
    ensures var r := Put(s, H, key, value).value;
      && Valid(r, H, maxKeySize) && r.head as int == s.head as int + 1
      && r.files.Keys == s.files.Keys + {r.head} && |r.files| == |s.files| + 1
      && r.files[r.head].bytes == [] && r.files[r.head].serial == 0
      && Observe(r) == Observe(s)[key := Some(value)]
  {
    PutValid(s, H, maxKeySize, key, value);
    RollHead(s, H, key, value);
    var r := Put(s, H, key, value).value;
    assert r.head !in s.files;
    OneMore(s.files, r.files, r.head);
  }

  /** A put that fills the head starts a head whose serial counter is 0. */
  lemma RollHead(s: Store, H: Hasher, key: Key, value: seq<byte>)
    requires s.head in s.files && |key| < TWO32 && |value| < TWO32 && 0 < |value|
    requires WriteValue(s.files[s.head], H, key, value).Ok?
    requires |s.files[s.head].bytes| + HEADER_SIZE + |key| + |value| >= s.maxSize
    ensures Put(s, H, key, value).Ok? && Put(s, H, key, value).value.files[Put(s, H, key, value).value.head].serial == 0
  {
    var (g, info) := WriteValue(s.files[s.head], H, key, value).value;
    PutWrites(s, H, key, value);
    assert Size(g) >= s.maxSize;
  }

  /** A table with one more key has one more entry. */
  lemma OneMore(a: map<u16, Segment>, b: map<u16, Segment>, x: u16)
    requires b.Keys == a.Keys + {x} && x !in a
    ensures |b| == |a| + 1
  {
    assert |b.Keys| == |a.Keys| + 1;
  }

  /** Three puts whose records each reach the size barrier leave four data
      files, the newest (id 4) the empty head, and every key readable. */
  lemma ThreePutsFourFiles(H: Hasher, maxKeySize: nat, k1: Key, k2: Key, k3: Key, v: seq<byte>, maxSize: int)
    requires 0 < |v| && |k1| + |v| < 1000 && |k2| + |v| < 1000 && |k3| + |v| < 1000
    requires HEADER_SIZE + |k1| + |v| >= maxSize && HEADER_SIZE + |k2| + |v| >= maxSize && HEADER_SIZE + |k3| + |v| >= maxSize
    ensures Put(Empty(maxSize), H, k1, v).Ok?
    ensures var s1 := Put(Empty(maxSize), H, k1, v).value;
      Put(s1, H, k2, v).Ok? && Put(Put(s1, H, k2, v).value, H, k3, v).Ok?
    ensures var s3 := Put(Put(Put(Empty(maxSize), H, k1, v).value, H, k2, v).value, H, k3, v).value;
      && |s3.files| == 4 && s3.head == 4 && s3.files[4].bytes == []
      && Observe(s3) == map[k1 := Some(v)][k2 := Some(v)][k3 := Some(v)]
  {
    var s0 := Empty(maxSize);
    TruncateValid(Store(map[], 1, map[], map[], maxSize), H, maxKeySize);
    assert |s0.files| == 1;
    PutIntoEmptyHead(s0, H, maxKeySize, k1, v);
    var s1 := Put(s0, H, k1, v).value;
    PutIntoEmptyHead(s1, H, maxKeySize, k2, v);
    var s2 := Put(s1, H, k2, v).value;
    PutIntoEmptyHead(s2, H, maxKeySize, k3, v);
  }
}

=== FILE: segment.dfy ===
/** FirkinFile: one append-only data segment, read-only (archive) or
    read-write (active), with its serial counter and disposal state. */
module Segments {
  import opened Bytes
  import opened Wrappers
  import opened Layout
  import opened Records
  import opened KeyInfos
  import ArrayEx
  import FirkinStream
  import FirkinStreamRead

  /** Data file names: `store_N`, `merge_N` (merge output) and `old_N` (retired). */
  datatype Prefix = StorePrefix | MergePrefix | OldPrefix
  datatype FileName = FileName(prefix: Prefix, id: u16)

  /** The file's name and id, its bytes on disk, the serial of its last
      `Write(KeyValuePair)`, whether it was opened for writing, and whether it
      has been disposed. */
  datatype Segment = Segment(name: FileName, id: u16, bytes: seq<byte>, serial: u32, writable: bool, disposed: bool)

  /** `CreateActive`: a new, empty, writable file whose serial starts at 0. */
  function CreateActive(name: FileName, id: u16): Segment {
    Segment(name, id, [], 0, true, false)
  }

  /** `OpenArchive`: an existing file, read-only. */
  function OpenArchive(name: FileName, id: u16, bytes: seq<byte>): Segment {
    Segment(name, id, bytes, 0, false, false)
  }

  /** `OpenArchiveFromActive`: disposes the active file and reopens it read-only. */
  function OpenArchiveFromActive(f: Segment): Segment {
    OpenArchive(f.name, f.id, f.bytes)
  }

  /** `OpenActiveFromArchive`: disposes the archive and reopens it for
      writing, continuing from `serial`. */
  function OpenActiveFromArchive(f: Segment, serial: u32): Segment {
    Segment(f.name, f.id, f.bytes, serial, true, false)
  }

  /** `Size`: the file's length. */
  function Size(f: Segment): nat {
    |f.bytes|
  }

  /** The hash `Write(KeyValuePair)` stores: of key‖value, or sixteen zero
      bytes for a deletion marker (empty value). */
  function RecordHash(H: Hasher, key: seq<byte>, value: seq<byte>): (h: Digest)
    ensures |value| == 0 ==> h == Zeros(HASH_SIZE)
    ensures |value| > 0 ==> h == H(key + value)
  {
    if |value| > 0 then H(key + value) else Zeros(HASH_SIZE)
  }

  /** `Write(KeyValuePair)`: bumps the serial, appends hash, serial, key length,
      value length, key and value, and returns where the value landed.
      The key is a byte array and the value length a uint, so both are
      shorter than 2^32. */
  function WriteValue(f: Segment, H: Hasher, key: seq<byte>, value: seq<byte>): (r: Result<(Segment, KeyInfo)>)
    requires |key| < TWO32 && |value| < TWO32
    ensures !f.writable ==> r == Err(InvalidOperation)
    ensures f.writable && f.disposed ==> r == Err(ObjectDisposed)
    ensures r.Ok? <==> f.writable && !f.disposed
    ensures r.Ok? ==>
      var (g, info) := r.value;
      && g == f.(bytes := g.bytes, serial := g.serial)
      && g.serial == Wrap32(f.serial + 1) == info.serial
      && g.bytes == f.bytes + Encode(RecordHash(H, key, value), g.serial, key, value)
      && info.fileId == f.id && info.valueSize == |value|
      && info.valuePosition == Wrap32(|f.bytes| + HEADER_SIZE + |key|)
  {
    if !f.writable then Err(InvalidOperation)
    else if f.disposed then Err(ObjectDisposed)
    else
      var serial := Wrap32(f.serial + 1);
      var bytes := f.bytes + Encode(RecordHash(H, key, value), serial, key, value);
      Ok((f.(bytes := bytes, serial := serial),
          KeyInfo(f.id, serial, |value|, Wrap32(|bytes| - |value|))))
  }

  /** The file a `Write(KeyValuePair)` that threw leaves behind. A read-only
      file refuses before touching anything; a writable but disposed file
      has already taken the next serial when its seek throws. No byte is
      written either way. */
  function WriteFailed(f: Segment): (g: Segment)
    ensures g == f.(serial := g.serial)
    ensures !f.writable ==> g == f
    ensures f.writable ==> g.serial != f.serial
  {
    if f.writable then f.(serial := Wrap32(f.serial + 1)) else f
  }

  /** A failed write on a writable file has used up exactly the serial a
      successful write would have stamped; any failed write leaves every
      value where it was. */
  lemma WriteFailedSerial(f: Segment, H: Hasher, key: seq<byte>, value: seq<byte>)
    requires |key| < TWO32 && |value| < TWO32
    ensures f.writable && WriteValue(f, H, key, value).Err? ==>
      WriteFailed(f).serial == WriteValue(f.(disposed := false), H, key, value).value.0.serial
    ensures forall info :: ValueAt(WriteFailed(f), info) == ValueAt(f, info)
  {
  }

  /** `Write(KeyValueRecord)` (merge copy): appends a scanned record with its
      own hash and serial and returns where the value landed. The file's
      serial counter is not touched. */
  function WriteRecord(f: Segment, rec: Frame): (r: Result<(Segment, u32)>)
    ensures !f.writable ==> r == Err(InvalidOperation)
    ensures f.writable && f.disposed ==> r == Err(ObjectDisposed)
    ensures r.Ok? <==> f.writable && !f.disposed
    ensures r.Ok? && Complete(rec) ==>
      var (g, position) := r.value;
      && g == f.(bytes := g.bytes)
      && g.bytes == f.bytes + Encode(rec.hash, rec.serial, rec.key, rec.value)
      && position == Wrap32(|f.bytes| + HEADER_SIZE + |rec.key|)
  {
    if !f.writable then Err(InvalidOperation)
    else if f.disposed then Err(ObjectDisposed)
    else
      var bytes := f.bytes + Header(rec.hash, rec.serial, Wrap32(|rec.key|), rec.valueSize) + rec.key + rec.value;
      Ok((f.(bytes := bytes), Wrap32(|bytes| - rec.valueSize)))
  }

  /** What `GetKeys` yields for one frame: the value position is the record's
      start plus header plus the header's key length, cast to uint. */
  function EntryOf(id: u16, fr: Frame): Entry {
    Entry(fr.key, KeyInfo(id, fr.serial, fr.valueSize, Wrap32(fr.start + HEADER_SIZE + fr.keySize)))
  }

  function EntriesOf(id: u16, fs: seq<Frame>): (es: seq<Entry>)
    ensures |es| == |fs|
    ensures forall i :: 0 <= i < |fs| ==> es[i] == EntryOf(id, fs[i])
  {
    seq(|fs|, i requires 0 <= i < |fs| => EntryOf(id, fs[i]))
  }

  /** `GetKeys`: every record's key and location, in file order; the hash is
      not checked. */
  function GetKeys(f: Segment): (r: Result<seq<Entry>>)
    ensures f.disposed ==> r == Err(ObjectDisposed)
    ensures !f.disposed ==> (r.Ok? <==> Walk(f.bytes, 0).Ok?)
    ensures r.Ok? ==> r.value == EntriesOf(f.id, Walk(f.bytes, 0).value)
  {
    if f.disposed then Err(ObjectDisposed)
    else
      var fs :- Walk(f.bytes, 0);
      Ok(EntriesOf(f.id, fs))
  }

  /** The stored hash matches the hash of key‖value (`Compare(...) == 0`). */
  predicate HashMatches(H: Hasher, fr: Frame) {
    ArrayEx.CompareSeq(fr.hash, H(fr.key + fr.value)) == 0
  }

  /** The frames whose stored hash matches, in order. */
  function Checked(H: Hasher, fs: seq<Frame>): (r: seq<Frame>)
    ensures forall i :: 0 <= i < |r| ==> r[i] in fs && r[i].hash == H(r[i].key + r[i].value)
    ensures forall fr :: fr in fs && fr.hash == H(fr.key + fr.value) ==> fr in r
  {
    if |fs| == 0 then []
    else
      ArrayEx.CompareZeroIffEqual(fs[0].hash, H(fs[0].key + fs[0].value));
      (if HashMatches(H, fs[0]) then [fs[0]] else []) + Checked(H, fs[1..])
  }

  /** `GetRecords`: the records whose checksum verifies, in file order;
      corrupt records are skipped. */
  function GetRecords(f: Segment, H: Hasher): (r: Result<seq<Frame>>)
    ensures f.disposed ==> r == Err(ObjectDisposed)
    ensures !f.disposed ==> (r.Ok? <==> Walk(f.bytes, 0).Ok?)
    ensures r.Ok? ==> r.value == Checked(H, Walk(f.bytes, 0).value)
  {
    if f.disposed then Err(ObjectDisposed)
    else
      var fs :- Walk(f.bytes, 0);
      Ok(Checked(H, fs))
  }

  /** `ReadValue`: the bytes a stream over the value's range would present. */
  function ValueAt(f: Segment, info: KeyInfo): Option<seq<byte>> {
    FirkinStream.Slice(f.bytes, info.valuePosition, info.valueSize)
  }

  /** `ReadValue(keyInfo)`: a FirkinStream over the value's range. */
  method ReadValue(f: Segment, info: KeyInfo) returns (r: Result<FirkinStream.ValueStream>)
    ensures info.valueSize > FirkinStream.BUFFER_SIZE ==> r.Ok?
    ensures info.valueSize <= FirkinStream.BUFFER_SIZE && f.disposed ==> r == Err(ObjectDisposed)
    ensures info.valueSize <= FirkinStream.BUFFER_SIZE && !f.disposed ==> (r.Ok? <==> ValueAt(f, info).Some?)
    ensures info.valueSize <= FirkinStream.BUFFER_SIZE && r.Ok? ==>
      FirkinStream.Flatten(r.value.chunks) == ValueAt(f, info).value
  {
    r := FirkinStreamRead.Open(f.bytes, f.disposed, info.valuePosition, info.valueSize);
  }

  /** `Rename`: same bytes under a new name. */
  function Rename(f: Segment, name: FileName): (r: Result<Segment>)
    ensures f.disposed <==> r == Err(ObjectDisposed)
    ensures r.Ok? ==> r.value.name == name && r.value.bytes == f.bytes && r.value.id == f.id
  {
    if f.disposed then Err(ObjectDisposed) else Ok(f.(name := name))
  }

  /** `Flush`: nothing observable beyond the disposed check. */
  function Flush(f: Segment): (r: Result<Segment>)
    ensures f.disposed <==> r == Err(ObjectDisposed)
    ensures r.Ok? ==> r.value == f
  {
    if f.disposed then Err(ObjectDisposed) else Ok(f)
  }

  /** `Dispose`: closes the file once; later calls do nothing, and every
      scan, flush or rename afterwards reports the disposal. */
  function Dispose(f: Segment): (r: Segment)
    ensures r.disposed && r.bytes == f.bytes && r.id == f.id
    ensures f.disposed ==> r == f
    ensures GetKeys(r) == Err(ObjectDisposed) && Flush(r) == Err(ObjectDisposed)
    ensures forall H: Hasher :: GetRecords(r, H) == Err(ObjectDisposed)
    ensures forall name :: Rename(r, name) == Err(ObjectDisposed)
  {
    if f.disposed then f else f.(disposed := true)
  }

  lemma EntriesOfAppend(id: u16, fs: seq<Frame>, fr: Frame)
    ensures EntriesOf(id, fs + [fr]) == EntriesOf(id, fs) + [EntryOf(id, fr)]
  {
    assert forall i :: 0 <= i < |fs| ==> (fs + [fr])[i] == fs[i];
  }

  /** Round trip through the key scan: after `Write(KeyValuePair)` on a file of
      whole records, `GetKeys` yields the earlier items and then the new key
      with exactly the `KeyInfo` the write returned. */
  lemma WriteThenGetKeys(f: Segment, H: Hasher, key: seq<byte>, value: seq<byte>)
    requires |key| < TWO32 && |value| < TWO32
    requires Exact(f.bytes) && WriteValue(f, H, key, value).Ok?
    ensures var (g, info) := WriteValue(f, H, key, value).value;
      && Exact(g.bytes)
      && Frames(g.bytes) == Frames(f.bytes) + [FrameOf(|f.bytes|, RecordHash(H, key, value), info.serial, key, value)]
      && GetKeys(g) == Ok(EntriesOf(f.id, Frames(f.bytes)) + [Entry(key, info)])
  {
    var (g, info) := WriteValue(f, H, key, value).value;
    var fr := FrameOf(|f.bytes|, RecordHash(H, key, value), info.serial, key, value);
    AppendExact(f.bytes, RecordHash(H, key, value), info.serial, key, value);
    EntriesOfAppend(f.id, Frames(f.bytes), fr);
  }

  /** The same round trip for `Write(KeyValueRecord)`: the copied record is
      the scan's new last frame, now starting at the old end of the file,
      and its key item carries the position the write returned. */
  lemma WriteRecordThenGetKeys(f: Segment, rec: Frame)
    requires Complete(rec) && Exact(f.bytes) && WriteRecord(f, rec).Ok?
    ensures var (g, position) := WriteRecord(f, rec).value;
      && Exact(g.bytes)
      && Frames(g.bytes) == Frames(f.bytes) + [rec.(start := |f.bytes|)]
      && GetKeys(g) == Ok(EntriesOf(f.id, Frames(f.bytes)) + [Entry(rec.key, KeyInfo(f.id, rec.serial, rec.valueSize, position))])
  {
    var (g, position) := WriteRecord(f, rec).value;
    var fr := rec.(start := |f.bytes|);
    assert g.bytes == f.bytes + Encode(rec.hash, rec.serial, rec.key, rec.value);
    AppendExact(f.bytes, rec.hash, rec.serial, rec.key, rec.value);
    assert FrameOf(|f.bytes|, rec.hash, rec.serial, rec.key, rec.value) == fr;
    EntriesOfAppend(f.id, Frames(f.bytes), fr);
    assert EntryOf(f.id, fr) == Entry(rec.key, KeyInfo(f.id, rec.serial, rec.valueSize, position));
  }

  /** A range that reads from a file reads the same after more bytes are appended. */
  lemma SlicePrefix(bytes: seq<byte>, more: seq<byte>, offset: nat, length: nat)
    requires FirkinStream.Slice(bytes, offset, length).Some?
    ensures FirkinStream.Slice(bytes + more, offset, length) == FirkinStream.Slice(bytes, offset, length)
  {
    if length > 0 {
      assert (bytes + more)[offset..offset + length] == bytes[offset..offset + length];
    }
  }

  /** Round trip through `ReadValue`: the `KeyInfo` a write returns reads the
      value back (while the file stays below 4 GiB), and every value that
      read before the write still reads the same. */
  lemma WriteThenRead(f: Segment, H: Hasher, key: seq<byte>, value: seq<byte>, other: KeyInfo)
    requires |key| < TWO32 && |value| < TWO32
    requires WriteValue(f, H, key, value).Ok? && |f.bytes| + HEADER_SIZE + |key| < TWO32
    ensures ValueAt(WriteValue(f, H, key, value).value.0, WriteValue(f, H, key, value).value.1) == Some(value)
    ensures ValueAt(f, other).Some? ==> ValueAt(WriteValue(f, H, key, value).value.0, other) == ValueAt(f, other)
  {
    var (g, info) := WriteValue(f, H, key, value).value;
    var h := Header(RecordHash(H, key, value), info.serial, |key|, |value|);
    assert g.bytes == f.bytes + h + key + value;
    if |value| > 0 {
      assert g.bytes[|f.bytes| + HEADER_SIZE + |key|..|g.bytes|] == value;
    }
    if ValueAt(f, other).Some? {
      SlicePrefix(f.bytes, Encode(RecordHash(H, key, value), info.serial, key, value), other.valuePosition, other.valueSize);
    }
  }

  /** Every item `GetKeys` yields for a file of whole records below 4 GiB
      locates that record's value. */
  lemma EntryValue(f: Segment, i: nat)
    requires Exact(f.bytes) && |f.bytes| < TWO32 && i < |Frames(f.bytes)|
    ensures ValueAt(f, EntryOf(f.id, Frames(f.bytes)[i]).info) == Some(Frames(f.bytes)[i].value)
  {
    FrameAt(f.bytes, 0, i);
  }
}

=== FILE: serializer_factory.dfy ===
/** `SerializerFactory`: the older key and value codec tables. Registration
    stores whatever it is given, null included; a lookup of a type that was
    never registered is the dictionary indexer's `KeyNotFoundException`.
    Class initialisation registers the int and string codecs in both. */
module SerializerFactory {
  import opened Wrappers
  import opened IntCodecs
  import opened SerializerRepository

  /** A null registration is kept as `None`. */
  datatype Factory = Factory(keys: map<TypeTag, Option<Codec>>, values: map<TypeTag, Option<Codec>>)

  /** The tables after class initialisation. */
  function Initial(): (f: Factory)
    ensures f.keys.Keys == {Integer(Int), Str} && f.values.Keys == {Integer(Int), Str}
    ensures forall t | t in f.keys :: f.keys[t] == Some(Builtin(t))
    ensures forall t | t in f.values :: f.values[t] == Some(Builtin(t))
  {
    var m := map[Integer(Int) := Some(Builtin(Integer(Int))), Str := Some(Builtin(Str))];
    Factory(m, m)
  }

  /** `RegisterKeySerializer`: replaces the type's key codec; no null check. */
  function RegisterKey(f: Factory, tag: TypeTag, c: Option<Codec>): (u: Factory)
    ensures u.values == f.values && u.keys.Keys == f.keys.Keys + {tag}
    ensures tag in u.keys && u.keys[tag] == c
    ensures forall t | t in f.keys && t != tag :: u.keys[t] == f.keys[t]
  {
    f.(keys := f.keys[tag := c])
  }

  /** `RegisterValueSerializer`: replaces the type's value codec; no null check. */
  function RegisterValue(f: Factory, tag: TypeTag, c: Option<Codec>): (u: Factory)
    ensures u.keys == f.keys && u.values.Keys == f.values.Keys + {tag}
    ensures tag in u.values && u.values[tag] == c
    ensures forall t | t in f.values && t != tag :: u.values[t] == f.values[t]
  {
    f.(values := f.values[tag := c])
  }

  /** `GetKeySerializer`: the registered codec (possibly null), or a
      `KeyNotFoundException` for a type never registered. */
  function GetKey(f: Factory, tag: TypeTag): (r: Result<Option<Codec>>)
    ensures r.Ok? <==> tag in f.keys
    ensures r.Err? ==> r.error == KeyNotFound
  {
    if tag in f.keys then Ok(f.keys[tag]) else Err(KeyNotFound)
  }

  /** `GetValueSerializer`: as `GetKey`, over the value table. */
  function GetValue(f: Factory, tag: TypeTag): (r: Result<Option<Codec>>)
    ensures r.Ok? <==> tag in f.values
    ensures r.Err? ==> r.error == KeyNotFound
  {
    if tag in f.values then Ok(f.values[tag]) else Err(KeyNotFound)
  }

  /** The last registration for a type wins, in its own table only, and
      registering one type leaves every other type's lookup as it was. */
  lemma LastRegistrationWins(f: Factory, tag: TypeTag, c1: Option<Codec>, c2: Option<Codec>, other: TypeTag)
    requires other != tag
    ensures GetKey(RegisterKey(RegisterKey(f, tag, c1), tag, c2), tag) == Ok(c2)
    ensures GetValue(RegisterValue(RegisterValue(f, tag, c1), tag, c2), tag) == Ok(c2)
    ensures GetKey(RegisterKey(f, tag, c1), other) == GetKey(f, other)
    ensures GetValue(RegisterValue(f, tag, c1), other) == GetValue(f, other)
    ensures GetValue(RegisterKey(f, tag, c1), tag) == GetValue(f, tag)
  {
  }

  /** Out of class initialisation the int key codec round-trips every int
      through its four bytes, and a type outside int and string throws. */
  lemma InitialIntKey(x: int, tag: TypeTag)
    requires InRange(Int, x) && tag != Integer(Int) && tag != Str
    ensures GetKey(Initial(), Integer(Int)) == Ok(Some(Builtin(Integer(Int))))
    ensures |GetBytes(Int, x)| == 4 && ToValue(Int, GetBytes(Int, x)) == Ok(x)
    ensures GetKey(Initial(), tag) == Err(KeyNotFound) && GetValue(Initial(), tag) == Err(KeyNotFound)
  {
    RoundTrip(Int, x, []);
    assert GetBytes(Int, x) + [] == GetBytes(Int, x);
  }
}

=== FILE: serializer_repository.dfy ===
/** `SerializerRepository`: two type-to-codec tables (byte-array codecs for
    keys, stream codecs for values), a generator consulted for types with no
    entry whose non-null results are cached, and the default codecs that
    startup and `Reset` register. */
module SerializerRepository {
  import opened Wrappers
  import opened IntCodecs

  /** The .NET types codecs are registered for. */
  datatype TypeTag = Integer(kind: IntKind) | Float | Double | Str | Named(name: string)

  /** A codec object: one of the defaults for a type, or any other object
      (registered by a client or made by a generator), by identity. */
  datatype Codec = Builtin(tag: TypeTag) | Custom(id: nat)

  /** An `ISerializerGenerator`: the codec it makes for each type it can
      handle; any other type gets null. */
  datatype Generator = Generator(id: nat, makes: map<TypeTag, Codec>)

  datatype Table = ByteArray | Stream

  datatype Repo = Repo(generator: Generator, byteArray: map<TypeTag, Codec>, stream: map<TypeTag, Codec>) {
    function Codecs(t: Table): map<TypeTag, Codec> {
      if t.ByteArray? then byteArray else stream
    }

    function WithCodecs(t: Table, m: map<TypeTag, Codec>): (r: Repo)
      ensures r.Codecs(t) == m && r.Codecs(Other(t)) == Codecs(Other(t)) && r.generator == generator
    {
      if t.ByteArray? then this.(byteArray := m) else this.(stream := m)
    }
  }

  function Other(t: Table): Table {
    if t.ByteArray? then Stream else ByteArray
  }

  /** The types startup registers a codec for, in both tables. */
  predicate IsDefault(t: TypeTag) {
    t.Integer? || t.Float? || t.Double? || t.Str?
  }

  /** The default codecs: every integer kind, float, double and string. */
  function Defaults(): (m: map<TypeTag, Codec>)
    ensures forall t :: t in m <==> IsDefault(t)
    ensures forall t | t in m :: m[t] == Builtin(t)
  {
    var ints := map k: IntKind :: Integer(k) := Builtin(Integer(k));
    ints[Float := Builtin(Float)][Double := Builtin(Double)][Str := Builtin(Str)]
  }

  /** `Initialize`: the given generator (the binary-formatter one) and the
      default codecs in both tables. */
  function Initial(g: Generator): (r: Repo)
    ensures r.generator == g && r.Codecs(ByteArray) == Defaults() && r.Codecs(Stream) == Defaults()
  {
    Repo(g, Defaults(), Defaults())
  }

  /** The `SerializerGenerator` setter: null is refused. */
  function SetGenerator(r: Repo, g: Option<Generator>): (u: Result<Repo>)
    ensures g.None? <==> u == Err(ArgumentNull)
    ensures g.Some? ==> u == Ok(r.(generator := g.value))
  {
    if g.None? then Err(ArgumentNull) else Ok(r.(generator := g.value))
  }

  /** `RegisterByteArraySerializer` / `RegisterStreamSerializer`: null is
      refused; otherwise the codec replaces whatever the table held for the type. */
  function Register(r: Repo, t: Table, tag: TypeTag, c: Option<Codec>): (u: Result<Repo>)
    ensures c.None? <==> u == Err(ArgumentNull)
    ensures c.Some? ==> u.Ok? && u.value.generator == r.generator && u.value.Codecs(Other(t)) == r.Codecs(Other(t))
    ensures c.Some? ==> u.value.Codecs(t).Keys == r.Codecs(t).Keys + {tag}
    ensures c.Some? ==> forall x | x in r.Codecs(t) && x != tag :: u.value.Codecs(t)[x] == r.Codecs(t)[x]
  {
    if c.None? then Err(ArgumentNull)
    else Ok(r.WithCodecs(t, r.Codecs(t)[tag := c.value]))
  }

  /** The lookup behind `Get…Serializer<T>(throwOnUnknown)`: the table's
      entry, else the generator's codec, which is cached; null from the
      generator is `None` with the repository unchanged. */
  function Lookup(r: Repo, t: Table, tag: TypeTag): (u: (Option<Codec>, Repo))
    ensures u.0.Some? <==> tag in r.Codecs(t) || tag in r.generator.makes
    ensures u.0.None? ==> u.1 == r
    ensures tag in r.Codecs(t) ==> u == (Some(r.Codecs(t)[tag]), r)
    ensures tag !in r.Codecs(t) && tag in r.generator.makes ==>
      u == (Some(r.generator.makes[tag]), r.WithCodecs(t, r.Codecs(t)[tag := r.generator.makes[tag]]))
    ensures u.1.generator == r.generator && u.1.Codecs(Other(t)) == r.Codecs(Other(t))
  {
    if tag in r.Codecs(t) then (Some(r.Codecs(t)[tag]), r)
    else if tag in r.generator.makes then
      var c := r.generator.makes[tag];
      (Some(c), r.WithCodecs(t, r.Codecs(t)[tag := c]))
    else (None, r)
  }

  /** `GetByteArraySerializer<T>()` / `GetStreamSerializer<T>()`: an unknown
      type the generator cannot handle is a `KeyNotFoundException`. */
  function Get(r: Repo, t: Table, tag: TypeTag): (u: Result<(Codec, Repo)>)
    ensures u.Err? <==> tag !in r.Codecs(t) && tag !in r.generator.makes
    ensures u.Err? ==> u.error == KeyNotFound
    ensures u.Ok? ==> tag in u.value.1.Codecs(t) && u.value.1.Codecs(t)[tag] == u.value.0
  {
    var (c, u) := Lookup(r, t, tag);
    if c.None? then Err(KeyNotFound) else Ok((c.value, u))
  }

  /** `HasByteArraySerializer<T>()` / `HasStreamSerializer<T>()`: whether
      a lookup finds a codec; a generated one is cached on the way. */
  function Has(r: Repo, t: Table, tag: TypeTag): (u: (bool, Repo))
    ensures u.0 <==> Get(r, t, tag).Ok?
    ensures u.0 ==> u.1 == Get(r, t, tag).value.1
    ensures !u.0 ==> u.1 == r
  {
    var (c, s) := Lookup(r, t, tag);
    (c.Some?, s)
  }

  /** `Reset`: both tables are cleared and startup runs again. */
  function Reset(r: Repo, g: Generator): (u: Repo)
    ensures u.generator == g && u.Codecs(ByteArray) == Defaults() && u.Codecs(Stream) == Defaults()
  {
    Initial(g)
  }

  /** After registering a codec, `Get` returns it for that type without
      changing the repository. */
  lemma RegisterThenGet(r: Repo, t: Table, tag: TypeTag, c: Codec)
    ensures Register(r, t, tag, Some(c)).Ok?
    ensures var u := Register(r, t, tag, Some(c)).value;
      Get(u, t, tag) == Ok((c, u))
  {
  }

  /** A second `Get` of a type returns the same codec as the first and leaves
      the repository as the first left it: a generated codec is made once. */
  lemma GetCaches(r: Repo, t: Table, tag: TypeTag)
    requires Get(r, t, tag).Ok?
    ensures var (c, u) := Get(r, t, tag).value;
      Get(u, t, tag) == Ok((c, u)) && Has(u, t, tag) == (true, u)
  {
  }

  /** A type only the generator knows: `Get` returns the generator's codec
      and caches it, so the table now answers for the type and every other
      entry of either table is as it was. */
  lemma GetGenerated(r: Repo, t: Table, tag: TypeTag)
    requires tag !in r.Codecs(t) && tag in r.generator.makes
    ensures Get(r, t, tag).Ok?
    ensures var (c, u) := Get(r, t, tag).value;
      && c == r.generator.makes[tag]
      && u.Codecs(t).Keys == r.Codecs(t).Keys + {tag} && u.Codecs(t)[tag] == c
      && (forall x | x in r.Codecs(t) :: u.Codecs(t)[x] == r.Codecs(t)[x])
      && u.Codecs(Other(t)) == r.Codecs(Other(t)) && u.generator == r.generator
  {
  }

  /** A type neither table entry nor generator knows: `Get` throws, `Has`
      is false, and nothing changes. */
  lemma UnknownType(r: Repo, t: Table, tag: TypeTag)
    requires tag !in r.Codecs(t) && tag !in r.generator.makes
    ensures Get(r, t, tag) == Err(KeyNotFound) && Has(r, t, tag) == (false, r)
  {
  }

  /** Whatever was registered before, after `Reset` each default type gets
      its default codec from either table, and a registration made before
      the reset is gone. */
  lemma ResetRestores(r: Repo, g: Generator, t: Table, tag: TypeTag)
    ensures IsDefault(tag) ==> Get(Reset(r, g), t, tag) == Ok((Builtin(tag), Reset(r, g)))
    ensures !IsDefault(tag) && tag !in g.makes ==> Get(Reset(r, g), t, tag) == Err(KeyNotFound)
  {
  }

  /** A fresh or reset repository hands out the built-in codec for every
      integer kind. The built-in integer codec is, by definition, the
      `IntCodecs` encoding of its kind; that encoding round-trips every
      value of the kind. */
  lemma DefaultIntegersRoundTrip(g: Generator, t: Table, k: IntKind, x: int)
    requires InRange(k, x)
    ensures Get(Initial(g), t, Integer(k)).Ok? && Get(Initial(g), t, Integer(k)).value.0 == Builtin(Integer(k))
    ensures ToValue(k, GetBytes(k, x)) == Ok(x)
  {
    RoundTrip(k, x, []);
    assert GetBytes(k, x) + [] == GetBytes(k, x);
  }
}

=== FILE: store.dfy ===
/** The state of a FirkinHash: its data files by id, the active (head) file,
    the index, the hint files lying next to the data files, and the rollover
    size; with the invariant the engine's operations keep and the view a
    client observes through `Get`. */
module Stores {
  import opened Bytes
  import opened Wrappers
  import opened Layout
  import opened Records
  import opened KeyInfos
  import opened Segments
  import opened Indexes
  import HintFiles

  /** `_files`, the id of `_head` (which is also registered in `_files`),
      `_index`, the `store_N.hint` files on disk by id, and `_maxFileSize`. */
  datatype Store = Store(files: map<u16, Segment>, head: u16, index: Index, hints: map<u16, seq<byte>>, maxSize: int)

  /** A strictly ascending sequence of ids. */
  predicate Increasing(q: seq<u16>) {
    forall i, j :: 0 <= i < j < |q| ==> q[i] < q[j]
  }

  /** The ids of `ids` below `n`, ascending. */
  function IdsBelow(ids: set<u16>, n: nat): (q: seq<u16>)
    requires n <= TWO16
    ensures Increasing(q)
    ensures forall x :: x in q <==> x in ids && x < n
    ensures forall i :: 0 <= i < |q| ==> q[i] < n
  {
    if n == 0 then []
    else
      var q := IdsBelow(ids, n - 1);
      if (n - 1) as u16 in ids then q + [(n - 1) as u16] else q
  }

  /** The ids in ascending order: the `OrderBy(x => x.FileId)` of a merge and
      the `orderby fileId` of startup. */
  function Ascending(ids: set<u16>): (q: seq<u16>)
    ensures Increasing(q)
    ensures forall x :: x in q <==> x in ids
  {
    IdsBelow(ids, TWO16)
  }

  /** A non-empty listing holds its first element. */
  lemma HeadIn(b: seq<u16>)
    ensures |b| > 0 ==> b[0] in b
  {
  }

  /** Two ascending listings of the same ids are the same listing. */
  lemma {:induction false} IncreasingUnique(a: seq<u16>, b: seq<u16>)
    requires Increasing(a) && Increasing(b)
    requires forall x :: x in a <==> x in b
    ensures a == b
    decreases |a|
  {
    if |a| == 0 {
      HeadIn(b);
    } else {
      assert |b| > 0 by {
        assert a[0] in b;
      }
      assert a[0] == b[0] by {
        assert a[0] in b;
        assert b[0] in a;
      }
      forall x
        ensures x in a[1..] <==> x in b[1..]
      {
        if x in a[1..] {
          assert x in b;
          assert x != b[0];
        }
        if x in b[1..] {
          assert x in a;
          assert x != a[0];
        }
      }
      IncreasingUnique(a[1..], b[1..]);
      assert a == [a[0]] + a[1..];
      assert b == [b[0]] + b[1..];
    }
  }

  /** Adding an id above every other puts it last. */
  lemma AscendingAdd(ids: set<u16>, x: u16)
    requires forall y :: y in ids ==> y < x
    ensures Ascending(ids + {x}) == Ascending(ids) + [x]
  {
    var q := Ascending(ids) + [x];
    assert Increasing(q) by {
      forall i, j | 0 <= i < j < |q| ensures q[i] < q[j] {
        if j == |q| - 1 && i < j {
          assert q[i] in Ascending(ids);
        }
      }
    }
    IncreasingUnique(Ascending(ids + {x}), q);
  }

  /** Removing the largest id drops the last element. */
  lemma AscendingLast(ids: set<u16>, x: u16)
    requires x in ids && forall y :: y in ids ==> y <= x
    ensures Ascending(ids) == Ascending(ids - {x}) + [x]
  {
    assert ids == (ids - {x}) + {x};
    AscendingAdd(ids - {x}, x);
  }

  /** What `GetKeys` yields for a file of whole records. */
  function Items(f: Segment): seq<Entry> {
    if Exact(f.bytes) then EntriesOf(f.id, Frames(f.bytes)) else []
  }

  /** The key items of the files at `ids`, file after file. */
  function LogOf(files: map<u16, Segment>, ids: seq<u16>): seq<Entry>
    decreases |ids|
  {
    if |ids| == 0 then []
    else
      var id := ids[|ids| - 1];
      LogOf(files, ids[..|ids| - 1]) + (if id in files then Items(files[id]) else [])
  }

  /** The log of a listing is the log of all but its last id, then that file's items. */
  lemma LogOfLast(files: map<u16, Segment>, ids: seq<u16>)
    requires |ids| > 0 && ids[|ids| - 1] in files
    ensures LogOf(files, ids) == LogOf(files, ids[..|ids| - 1]) + Items(files[ids[|ids| - 1]])
  {
  }

  /** Listing files whose last one gained items at its end extends the log by those items. */
  lemma LogOfReplaceLast(f1: map<u16, Segment>, f2: map<u16, Segment>, ids: seq<u16>, h: u16, extra: seq<Entry>)
    requires |ids| > 0 && ids[|ids| - 1] == h && h in f1 && h in f2
    requires LogOf(f2, ids[..|ids| - 1]) == LogOf(f1, ids[..|ids| - 1])
    requires Items(f2[h]) == Items(f1[h]) + extra
    ensures LogOf(f2, ids) == LogOf(f1, ids) + extra
  {
    LogOfLast(f1, ids);
    LogOfLast(f2, ids);
  }

  /** Every key item of every file, in ascending file order. */
  function Log(s: Store): seq<Entry> {
    LogOf(s.files, Ascending(s.files.Keys))
  }

  /** The value an index entry locates, if its file holds that range. */
  function Resolve(s: Store, info: KeyInfo): Option<seq<byte>> {
    if info.fileId in s.files then ValueAt(s.files[info.fileId], info) else None
  }

  /** What a client sees: each indexed key and the bytes `Get` streams for it. */
  function Observe(s: Store): map<Key, Option<seq<byte>>> {
    map k | k in s.index :: Resolve(s, s.index[k])
  }

  /** Two stores that index the same keys, each resolving to the same bytes, read alike. */
  lemma ObserveSame(s: Store, n: Store)
    requires forall k :: k in n.index <==> k in s.index
    requires forall k | k in s.index :: Resolve(n, n.index[k]) == Resolve(s, s.index[k])
    ensures Observe(n) == Observe(s)
  {
    assert Observe(n).Keys == Observe(s).Keys;
  }

  /** Serials strictly increase through a file. */
  predicate SerialsIncrease(fs: seq<Frame>) {
    forall i, j :: 0 <= i < j < |fs| ==> fs[i].serial < fs[j].serial
  }

  /** Every stored value's hash is the hash of its key and value. */
  predicate HashesOk(H: Hasher, fs: seq<Frame>) {
    forall i :: 0 <= i < |fs| && fs[i].valueSize > 0 ==> fs[i].hash == H(fs[i].key + fs[i].value)
  }

  /** A data file as the engine leaves it: whole records, below 4 GiB
      (so value positions fit a uint), increasing serials, sound hashes. */
  predicate FileOk(H: Hasher, f: Segment) {
    && Exact(f.bytes) && |f.bytes| < TWO32
    && SerialsIncrease(Frames(f.bytes)) && HashesOk(H, Frames(f.bytes))
  }

  /** The head is registered, has the largest id, and is the only writable
      file; every file is open and stored under its own id. */
  predicate Shape(s: Store) {
    && s.head in s.files
    && forall id | id in s.files ::
         1 <= id <= s.head && s.files[id].id == id && !s.files[id].disposed && (s.files[id].writable <==> id == s.head)
  }

  predicate FilesOk(H: Hasher, s: Store) {
    forall id | id in s.files :: FileOk(H, s.files[id])
  }

  /** The head's serial counter is at least every serial in the head. */
  predicate HeadSerial(s: Store) {
    s.head in s.files && Exact(s.files[s.head].bytes) &&
    forall i :: 0 <= i < |Frames(s.files[s.head].bytes)| ==> Frames(s.files[s.head].bytes)[i].serial <= s.files[s.head].serial
  }

  /** The hint entries describing a file's records. */
  function HintsOf(fs: seq<Frame>): (hs: seq<HintRecord>)
    ensures |hs| == |fs|
  {
    seq(|fs|, i requires 0 <= i < |fs| =>
      HintRecord(fs[i].key, fs[i].keySize, fs[i].serial, fs[i].valueSize, Wrap32(fs[i].start + HEADER_SIZE + fs[i].keySize)))
  }

  /** A hint file that enumerates to one entry per record of its data file,
      none of them a deletion marker. */
  predicate HintFor(f: Segment, hint: seq<byte>, maxKeySize: nat) {
    && Exact(f.bytes)
    && HintFiles.Decode(hint, maxKeySize) == Ok(HintsOf(Frames(f.bytes)))
    && forall i :: 0 <= i < |Frames(f.bytes)| ==> Frames(f.bytes)[i].valueSize > 0
  }

  /** Hint files exist only for archived files and describe them. */
  predicate HintsOk(s: Store, maxKeySize: nat) {
    forall id | id in s.hints :: id in s.files && id != s.head && HintFor(s.files[id], s.hints[id], maxKeySize)
  }

  /** The index is the replay of every file's key items. */
  predicate Indexed(s: Store) {
    s.index == Replay(map[], Log(s))
  }

  /** The engine invariant. */
  predicate Valid(s: Store, H: Hasher, maxKeySize: nat) {
    Shape(s) && FilesOk(H, s) && HeadSerial(s) && HintsOk(s, maxKeySize) && Indexed(s)
  }

  /** A frame appended after a file's frames keeps serials increasing and
      hashes sound when its serial is above the others' and its hash is sound. */
  lemma AppendFrameOk(H: Hasher, fs: seq<Frame>, fr: Frame)
    requires SerialsIncrease(fs) && HashesOk(H, fs)
    requires forall i :: 0 <= i < |fs| ==> fs[i].serial < fr.serial
    requires fr.valueSize > 0 ==> fr.hash == H(fr.key + fr.value)
    ensures SerialsIncrease(fs + [fr]) && HashesOk(H, fs + [fr])
  {
    var gs := fs + [fr];
    forall i, j | 0 <= i < j < |gs| ensures gs[i].serial < gs[j].serial {
      assert gs[i] == fs[i];
      if j < |fs| {
        assert gs[j] == fs[j];
      }
    }
    forall i | 0 <= i < |gs| && gs[i].valueSize > 0 ensures gs[i].hash == H(gs[i].key + gs[i].value) {
      if i < |fs| {
        assert gs[i] == fs[i];
      }
    }
  }

  /** The log depends only on each listed file's id and bytes. */
  lemma {:induction false} LogOfSame(f1: map<u16, Segment>, f2: map<u16, Segment>, ids: seq<u16>)
    requires forall id :: id in ids ==> (id in f1 <==> id in f2)
    requires forall id :: id in ids && id in f1 ==> f1[id].id == f2[id].id && f1[id].bytes == f2[id].bytes
    ensures LogOf(f1, ids) == LogOf(f2, ids)
    decreases |ids|
  {
    if |ids| > 0 {
      LogOfSame(f1, f2, ids[..|ids| - 1]);
    }
  }

  /** Every logged item comes from some listed file's key scan. */
  lemma {:induction false} LogOfMember(files: map<u16, Segment>, ids: seq<u16>, e: Entry)
    requires e in LogOf(files, ids)
    ensures exists id :: id in ids && id in files && e in Items(files[id])
    decreases |ids|
  {
    var id := ids[|ids| - 1];
    var init := LogOf(files, ids[..|ids| - 1]);
    if e in init {
      LogOfMember(files, ids[..|ids| - 1], e);
      var id' :| id' in ids[..|ids| - 1] && id' in files && e in Items(files[id']);
      assert id' in ids;
    } else {
      assert id in ids;
    }
  }

  /** An item of a sound file's key scan locates the value of its record. */
  lemma ItemInFile(H: Hasher, f: Segment, e: Entry)
    requires FileOk(H, f) && e in Items(f)
    ensures e.info.fileId == f.id
    ensures exists j :: (0 <= j < |Frames(f.bytes)| && e == EntryOf(f.id, Frames(f.bytes)[j]) &&
      ValueAt(f, e.info) == Some(Frames(f.bytes)[j].value))
  {
    var es := EntriesOf(f.id, Frames(f.bytes));
    var j :| 0 <= j < |es| && es[j] == e;
    EntryValue(f, j);
  }

  /** A logged item of a valid store locates a value of its file: the item
      comes from its own file's scan, so the range holds that record's value. */
  lemma ItemResolves(s: Store, H: Hasher, e: Entry)
    requires Shape(s) && FilesOk(H, s) && e in Log(s)
    ensures e.info.fileId in s.files
    ensures exists j :: (0 <= j < |Frames(s.files[e.info.fileId].bytes)| &&
      e == EntryOf(e.info.fileId, Frames(s.files[e.info.fileId].bytes)[j]) &&
      Resolve(s, e.info) == Some(Frames(s.files[e.info.fileId].bytes)[j].value))
  {
    LogOfMember(s.files, Ascending(s.files.Keys), e);
    var id :| id in Ascending(s.files.Keys) && id in s.files && e in Items(s.files[id]);
    assert FileOk(H, s.files[id]);
    ItemInFile(H, s.files[id], e);
  }

  /** In a valid store every indexed key resolves to a stored value, and no
      index entry is a deletion marker. */
  lemma ValidResolves(s: Store, H: Hasher, maxKeySize: nat, k: Key)
    requires Valid(s, H, maxKeySize) && k in s.index
    ensures s.index[k].fileId in s.files && s.index[k].valueSize > 0
    ensures Resolve(s, s.index[k]).Some?
  {
    ReplaySource(map[], Log(s), k);
    var i :| 0 <= i < |Log(s)| && Log(s)[i] == Entry(k, s.index[k]);
    ItemResolves(s, H, Log(s)[i]);
  }

  /** Every indexed key resolves to a stored value. */
  predicate Readable(s: Store) {
    forall k | k in s.index :: s.index[k].fileId in s.files && s.index[k].valueSize > 0 && Resolve(s, s.index[k]).Some?
  }

  lemma ValidReadable(s: Store, H: Hasher, maxKeySize: nat)
    requires Valid(s, H, maxKeySize)
    ensures Readable(s)
  {
    forall k | k in s.index
      ensures s.index[k].fileId in s.files && s.index[k].valueSize > 0 && Resolve(s, s.index[k]).Some?
    {
      ValidResolves(s, H, maxKeySize, k);
    }
  }
}

=== FILE: stream_ex.dfy ===
/** Stream helpers: the bounded copy loop behind every record read and write. */
module StreamEx {
  import opened Bytes

  const BUFFER_SIZE: nat := 16 * 1024

  /** A readable stream over in-memory or file bytes with its read position.
      `Read` returns every requested byte that is still available, as
      MemoryStream and FileStream do; a position past the end reads nothing. */
  datatype Source = Source(data: seq<byte>, pos: nat)

  /** The bytes a read can still deliver. */
  function Avail(s: Source): nat {
    if s.pos <= |s.data| then |s.data| - s.pos else 0
  }

  function Rest(s: Source): (r: seq<byte>)
    ensures |r| == Avail(s)
  {
    if s.pos <= |s.data| then s.data[s.pos..] else []
  }

  /** `source.Read(buffer, 0, count)`: the bytes read and the advanced source. */
  function Read(s: Source, count: nat): (r: (seq<byte>, Source))
    ensures |r.0| == Min(count, Avail(s))
    ensures r.0 == Rest(s)[..|r.0|]
    ensures r.1.data == s.data
    ensures Avail(r.1) == Avail(s) - |r.0|
    ensures Rest(r.1) == Rest(s)[|r.0|..]
  {
    var n := Min(count, Avail(s));
    (Rest(s)[..n], if n == 0 then s else Source(s.data, s.pos + n))
  }

  /** How many bytes `CopyTo(target, length)` moves: `length` of them when
      non-negative, otherwise everything up to the end. */
  function CopyCount(s: Source, length: int): (n: nat)
    ensures n <= Avail(s)
  {
    if length >= 0 then Min(length, Avail(s)) else Avail(s)
  }

  /** `source.CopyTo(target, length)`. Returns the bytes written to the target,
      the count the source returns, the source afterwards and the size of every
      read request the loop issued. */
  method CopyTo(source: Source, length: int)
    returns (written: seq<byte>, total: int, after: Source, requests: seq<int>)
    ensures total == CopyCount(source, length)
    ensures written == Rest(source)[..total]
    ensures after.data == source.data
    ensures Rest(after) == Rest(source)[total..]
    ensures forall i :: 0 <= i < |requests| ==> 0 < requests[i] <= BUFFER_SIZE
    ensures length >= 0 ==> forall i :: 0 <= i < |requests| ==> requests[i] <= length
    ensures length == 0 <==> requests == []
  {
    var bufferLength := if length >= 0 then Min(length, BUFFER_SIZE) else BUFFER_SIZE;
    var remaining := length;
    written := [];
    total := 0;
    after := source;
    requests := [];
    while remaining != 0
      invariant 0 <= total <= Avail(source) && Copied(source, total, written, after)
      invariant length >= 0 ==> remaining == length - total && 0 <= remaining
      invariant length < 0 ==> remaining < 0
      invariant forall i :: 0 <= i < |requests| ==> 0 < requests[i] <= bufferLength
      invariant length != 0 ==> 0 < bufferLength <= BUFFER_SIZE
      invariant length == 0 ==> requests == []
      invariant requests == [] ==> remaining == length
      decreases Avail(source) - total
    {
      var count := if remaining >= 0 then Min(remaining, bufferLength) else bufferLength;
      requests := requests + [count];
      var chunk, next := Pump(source, total, written, after, count);
      if |chunk| == 0 {
        break;
      }
      written := written + chunk;
      total := total + |chunk|;
      remaining := remaining - |chunk|;
      after := next;
    }
  }

  /** The first `total` bytes of the source went to the target and `after`
      reads on from there. */
  predicate Copied(source: Source, total: nat, written: seq<byte>, after: Source) {
    && total <= Avail(source)
    && after.data == source.data
    && written == Rest(source)[..total]
    && Rest(after) == Rest(source)[total..]
  }

  /** One round of the copy loop: read up to `count` bytes and account for them. */
  method Pump(source: Source, total: nat, written: seq<byte>, after: Source, count: nat)
    returns (chunk: seq<byte>, next: Source)
    requires Copied(source, total, written, after)
    ensures |chunk| == Min(count, Avail(source) - total)
    ensures Copied(source, total + |chunk|, written + chunk, next)
  {
    chunk, next := Read(after, count).0, Read(after, count).1;
    SliceStep(Rest(source), total, |chunk|);
  }

  /** Taking `n` more bytes after the first `t`. */
  lemma SliceStep(r: seq<byte>, t: nat, n: nat)
    requires t + n <= |r|
    ensures r[..t] + r[t..][..n] == r[..t + n]
    ensures r[t..][n..] == r[t + n..]
  {
  }

  /** `source.ReadBytes(length)`: the first min(length, available) bytes. */
  method ReadBytes(source: Source, length: int) returns (bytes: seq<byte>, after: Source)
    ensures length >= 0 ==> bytes == Rest(source)[..Min(length, Avail(source))]
    ensures length < 0 ==> bytes == Rest(source)
    ensures after.data == source.data && Rest(after) == Rest(source)[|bytes|..]
  {
    var total, requests;
    bytes, total, after, requests := CopyTo(source, length);
  }

  /** `source.ReadBytes()`: asks for `source.Length` bytes, so it reads to the end. */
  method ReadAllBytes(source: Source) returns (bytes: seq<byte>, after: Source)
    ensures bytes == Rest(source)
    ensures Avail(after) == 0
  {
    bytes, after := ReadBytes(source, |source.data|);
  }
}

=== FILE: truncate_finding.dfy ===
/** `Truncate` as written deletes every data file but not the hint files a
    merge left behind. Startup reads a data file through its hint file
    whenever one exists, so after a restart the new, empty data file 1 is
    indexed from the stale hint file of the old file 1: keys that were
    truncated come back, pointing at bytes that are no longer there. A store
    whose archive 1 was written by a merge (one record, key [1]) shows it.
    With the hint files removed too, a restart after truncation observes
    nothing. */
module TruncateFinding {
  import opened Bytes
  import opened Wrappers
  import opened Records
  import opened KeyInfos
  import opened Segments
  import opened Indexes
  import opened Stores
  import opened Merges
  import opened MergeCopy
  import opened MergeFinding
  import opened Engine
  import opened Recovery
  import HintFiles

  /** What truncation as written leaves on disk: data file 1, empty, and
      every hint file. */
  lemma TruncatedDisk(s: Store)
    ensures Persist(TruncateAsWritten(s)) == Disk(map[1 := []], s.hints)
    ensures Ascending(Persist(TruncateAsWritten(s)).data.Keys) == [1]
  {
    var d := Persist(TruncateAsWritten(s));
    assert d.data == map[1 := []];
    assert d.data.Keys == {1};
    IncreasingUnique(Ascending(d.data.Keys), [1]);
  }

  /** Whenever a hint file for id 1 survives truncation and lists at least
      one key, a restart indexes that key again although truncation emptied
      the index: the store observed after the restart is not the one
      truncation left. */
  lemma TruncateRestartAsWritten(s: Store, maxKeySize: nat, hs: seq<HintRecord>)
    requires 1 in s.hints && HintFiles.Decode(s.hints[1], maxKeySize) == Ok(hs) && |hs| > 0
    ensures Observe(TruncateAsWritten(s)) == map[]
    ensures Initialize(Persist(TruncateAsWritten(s)), maxKeySize, s.maxSize).Ok?
    ensures var r := Initialize(Persist(TruncateAsWritten(s)), maxKeySize, s.maxSize).value;
      && r.index == Overlay(map[], HintEntries(1, hs))
      && hs[|hs| - 1].key in r.index && r.index[hs[|hs| - 1].key] == FromHint(1, hs[|hs| - 1])
      && Observe(r) != Observe(TruncateAsWritten(s))
  {
    TruncatedDisk(s);
    var d := Persist(TruncateAsWritten(s));
    var es := HintEntries(1, hs);
    var k := hs[|hs| - 1].key;
    assert [1][..0] == [];
    assert Load(d, [1], maxKeySize).value.1 == Overlay(map[], es);
    assert Last(es, k) == |es| - 1;
    OverlayLast(map[], es, k);
    var r := Initialize(d, maxKeySize, s.maxSize).value;
    assert r.index == Overlay(map[], es);
    assert k in Observe(r);
  }

  /** With a positive maximum size the restart reopens the empty file 1 as
      head, serial 0, over the index its stale hint file gives. */
  lemma TruncateRestartExact(s: Store, maxKeySize: nat, hs: seq<HintRecord>)
    requires 1 in s.hints && HintFiles.Decode(s.hints[1], maxKeySize) == Ok(hs) && s.maxSize > 0
    ensures Initialize(Persist(TruncateAsWritten(s)), maxKeySize, s.maxSize)
      == Ok(Store(map[1 := Segment(FileName(StorePrefix, 1), 1, [], 0, true, false)], 1,
                  Overlay(map[], HintEntries(1, hs)), s.hints, s.maxSize))
  {
    TruncatedDisk(s);
    var d := Persist(TruncateAsWritten(s));
    assert [1][..0] == [];
    assert Load(d, [1], maxKeySize) == Ok((map[1 := Opened(d, 1)], Overlay(map[], HintEntries(1, hs)), 0));
    assert |d.data[1]| < s.maxSize;
    var g := OpenActiveFromArchive(Opened(d, 1), 0);
    assert g == Segment(FileName(StorePrefix, 1), 1, [], 0, true, false);
    assert map[1 := Opened(d, 1)][1 := g] == map[1 := g];
  }

  /** A store like the one a merge leaves: archive 1 written by the merge,
      with its hint file, and an empty head 2. */
  function Merged1(H: Hasher): Store {
    Store(map[1 := OpenArchive(FileName(StorePrefix, 1), 1, One(H, 1, K1, V1).data.bytes),
              2 := CreateActive(FileName(StorePrefix, 2), 2)],
          2, map[K1 := KeyInfo(1, 1, 1, 29)], map[1 := One(H, 1, K1, V1).hint], 100)
  }

  lemma Merged1Order(H: Hasher)
    ensures Ascending(Merged1(H).files.Keys) == [1, 2]
  {
    IncreasingUnique(Ascending(Merged1(H).files.Keys), [1, 2]);
  }

  /** The merged archive's one record, as its hint file lists it. */
  lemma Merged1Hints(H: Hasher)
    ensures HintFiles.Decode(Merged1(H).hints[1], 1) == Ok([HintRecord(K1, 1, 1, 1, 29)])
    ensures HintFor(Merged1(H).files[1], Merged1(H).hints[1], 1)
    ensures FileOk(H, Merged1(H).files[1])
    ensures Items(Merged1(H).files[1]) == [Entry(K1, KeyInfo(1, 1, 1, 29))]
  {
    var s := Merged1(H);
    OneOk(H, 1, K1, V1);
    assert HintFor(s.files[1], s.hints[1], 1);
    var fs := Frames(s.files[1].bytes);
    assert EntriesOf(1, fs) == [Entry(K1, KeyInfo(1, 1, 1, 29))];
    assert |fs| == 1 && fs[0].key == K1 && fs[0].serial == 1 && fs[0].valueSize == 1;
    assert HintsOf(fs) == [HintRecord(K1, 1, 1, 1, 29)];
  }

  /** The store's log: the archive's one key item. */
  lemma Merged1Log(H: Hasher)
    ensures Log(Merged1(H)) == [Entry(K1, KeyInfo(1, 1, 1, 29))]
  {
    var s := Merged1(H);
    Merged1Hints(H);
    Merged1Order(H);
    EmptyExact();
    assert Items(s.files[2]) == [];
    LogOfLast(s.files, [1, 2]);
    assert [1, 2][..1] == [1];
    LogOfLast(s.files, [1]);
    assert [1][..0] == [];
  }

  /** The empty head is a sound file with nothing to index. */
  lemma Merged1Head(H: Hasher)
    ensures FileOk(H, Merged1(H).files[2]) && HeadSerial(Merged1(H))
  {
    EmptyExact();
  }

  /** The store is sound. */
  lemma Merged1Valid(H: Hasher)
    ensures Valid(Merged1(H), H, 1)
  {
    var s := Merged1(H);
    assert Shape(s);
    Merged1Hints(H);
    Merged1Head(H);
    assert FilesOk(H, s);
    assert HintsOk(s, 1);
    Merged1Log(H);
    var e := Entry(K1, KeyInfo(1, 1, 1, 29));
    assert Replay(map[], [e]) == map[K1 := KeyInfo(1, 1, 1, 29)];
  }

  /** What a restart after truncation as written rebuilds from the merged
      store's disk: the empty data file 1 reopened as head, and key [1]
      indexed from the stale hint file. */
  function Resurrected(H: Hasher): Store {
    Store(map[1 := Segment(FileName(StorePrefix, 1), 1, [], 0, true, false)], 1,
          map[K1 := KeyInfo(1, 1, 1, 29)], Merged1(H).hints, 100)
  }

  lemma RestartResurrects(H: Hasher)
    ensures Initialize(Persist(TruncateAsWritten(Merged1(H))), 1, 100) == Ok(Resurrected(H))
  {
    var s := Merged1(H);
    Merged1Hints(H);
    var hs := [HintRecord(K1, 1, 1, 1, 29)];
    TruncateRestartExact(s, 1, hs);
    var e := Entry(K1, KeyInfo(1, 1, 1, 29));
    assert HintEntries(1, hs) == [e];
    assert Overlay(map[], [e]) == map[K1 := KeyInfo(1, 1, 1, 29)];
  }

  /** Key [1] is indexed in the empty file and resolves to nothing. */
  lemma ResurrectedReads(H: Hasher)
    ensures Observe(Resurrected(H)) == map[K1 := None] && Count(Resurrected(H)) == 1
  {
    assert Resolve(Resurrected(H), KeyInfo(1, 1, 1, 29)) == None;
  }

  /** The counterexample: a sound store, truncated and restarted, indexes
      key [1] again in an empty file, where it reads nothing. */
  lemma GuardTruncate(H: Hasher)
    ensures Valid(Merged1(H), H, 1)
    ensures Observe(TruncateAsWritten(Merged1(H))) == map[]
    ensures Initialize(Persist(TruncateAsWritten(Merged1(H))), 1, 100).Ok?
    ensures var r := Initialize(Persist(TruncateAsWritten(Merged1(H))), 1, 100).value;
      && K1 in Observe(r) && Observe(r)[K1] == None && Count(r) == 1
  {
    Merged1Valid(H);
    RestartResurrects(H);
    ResurrectedReads(H);
  }

  /** Truncation as intended: on every store, a restart after truncation
      succeeds and observes nothing. */
  lemma TruncateRestart(s: Store, H: Hasher, maxKeySize: nat)
    ensures Initialize(Persist(Truncate(s)), maxKeySize, s.maxSize).Ok?
    ensures var r := Initialize(Persist(Truncate(s)), maxKeySize, s.maxSize).value;
      Valid(r, H, maxKeySize) && Observe(r) == map[]
  {
    TruncateValid(s, H, maxKeySize);
    RecoverPreserves(Truncate(s), H, maxKeySize);
  }

  /** The corrected truncation on the same store: after a restart key [1] is gone. */
  lemma GuardTruncateCorrected(H: Hasher)
    ensures Initialize(Persist(Truncate(Merged1(H))), 1, 100).Ok?
    ensures K1 !in Observe(Initialize(Persist(Truncate(Merged1(H))), 1, 100).value)
  {
    TruncateRestart(Merged1(H), H, 1);
  }
}

=== FILE: wrappers.dfy ===
/** Failure-compatible wrappers and the exceptions the storage engine raises. */
module Wrappers {

  /** The .NET exceptions (and the one non-terminating loop) that the modelled code can produce. */
  datatype Error =
    | ArgumentOutOfRange   // ArgumentOutOfRangeException
    | ArgumentNull         // ArgumentNullException
    | Argument             // ArgumentException, e.g. BitConverter on a short buffer
    | InvalidOperation     // InvalidOperationException
    | ObjectDisposed       // ObjectDisposedException
    | CorruptKey           // CorruptKeyException from the hint file reader
    | KeyNotFound          // KeyNotFoundException from a dictionary indexer
    | NotImplemented       // NotImplementedException
    | Diverges             // a loop of the source that makes no progress and never returns

  datatype Option<+T> = None | Some(value: T) {
    predicate IsFailure() { None? }

    function PropagateFailure<U>(): Option<U>
      requires None?
    {
      None
    }

    function Extract(): T
      requires Some?
    {
      value
    }
  }

  datatype Result<+T> = Ok(value: T) | Err(error: Error) {
    predicate IsFailure() { Err? }

    function PropagateFailure<U>(): Result<U>
      requires Err?
    {
      Err(error)
    }

    function Extract(): T
      requires Ok?
    {
      value
    }
  }
}
